=== FILE: README.md ===
# Pitaya command-line parser generator, modelled in Dafny

Pitaya is a C# source generator. It reads the parameters of a program's
`Main` method and its XML documentation comment. From them it writes three
classes:

- an `Options` class with one property per parameter;
- a `Parser` whose `Parse(string[] args)` fills that class from the command
  line;
- a `Program` class whose entry point parses the arguments, prints help on
  `-h`, `-?` or `--help`, and then calls the user's `Main` with one named
  argument per option.

This project models the core of that pipeline as pure functions over
immutable datatypes, and proves what each step promises.

- `Naming` models the flag names. `Optionify` turns `userID` into
  `--user-id`. `LegacyOptionify` is the older variant from the first
  generator, and the project proves where the two agree and where they
  differ. `Propertyify` is also here.
- `Parameters` and `Options` model `ParameterInfo` and `OptionInfo`:
  - whether an option is required, array-like or defaulted;
  - the property declarations generated for it;
  - the conversion chosen for its token (`int.Parse`, a `Parse` factory, a
    string constructor, `new Uri`);
  - its `case` section in the generated switch;
  - its missing-option check.
- `Comments` models `CommentInfo.Create`, which reads one
  `<param name="x">…</param>` line, including its three error messages.
- `Descriptions` models `ParameterDescriptionList`: commented options come
  first, in comment order, then the rest.
- `Help` models `HelpTextGenerator`: the header, and an options table whose
  descriptions all start in one column.
- `Overall` models `ExtractDescription` and `GenerateHelpText`.
- `Files` models the `using` set and the layout of `FileGenerator`.
- `Programs` models `ProgramGenerator`: how the entry point leaves and how it
  calls `Main`, for each of the four return types.
- `Extensions` models `ToMainReturnTypeEnum` and `WhereNotNull`.
- `Runtime` models the behaviour of a generated `Parse`, generically, over a
  schema of options. Each option has one of four kinds:
  - a scalar takes the next token, converted;
  - a presence flag (`bool`) sets true and skips the next token;
  - an array captures tokens up to a boundary;
  - an enum is looked up case-insensitively.

  It also models the help tokens, the unrecognised-option error and the
  missing-required-arguments error.
- `Sample` instantiates `Runtime` with the hand-written reference parser of
  the sample application (ConsoleApp8/Parser.cs). It replays that parser's
  unit tests as lemmas.
- `Numbers` is a decimal Int32 parser standing in for `int.Parse`.
- `Text`, `Symbols` and `Wrappers` are shared string helpers, the Roslyn
  symbol records, and `Result`/`Option`.

Exceptions become `Err` values carrying the exception's message. The runtime
parser's failures form a `ParseError` datatype, and `Runtime.Message` gives
the text each one prints.

## Model

| member | source | states |
|---|---|---|
| `Naming.Optionify` | PitayaSourceGenerator/Utilities.cs:10-15 | fails exactly on an empty name (indexing its first character throws); otherwise the flag starts with "--" and has no upper-case letter |
| `Naming.LegacyOptionify` | CLIParserSourceGenerator/Utilities.cs:10-14 | always starts with "--" and has no upper-case letter; the empty name gives just "--" |
| `Naming.MarkWordsSeparated` | PitayaSourceGenerator/Utilities.cs:12-14 | the regex scan inserts a '-' exactly where the positional reference `Separated` does: before a capital followed by a lower-case letter, and before a trailing run of capitals (case aside) |
| `Naming.OptionifySeparated` | PitayaSourceGenerator/Utilities.cs:12-14 | the flag is "--" followed by the lower-cased positional separation of the name with its first character lowered |
| `Naming.OptionifyFirstCharacter` | PitayaSourceGenerator/Utilities.cs:13 | the first character after "--" is the name's first character lowered, so a leading capital gets no separator |
| `Naming.OptionifyOnlyAddsDashes` | PitayaSourceGenerator/Utilities.cs:13-14 | for a name without dashes, deleting the dashes from the flag body gives back the lower-cased name: the conversion only inserts separators |
| `Naming.LegacyOptionifyOnlyAddsDashes` | CLIParserSourceGenerator/Utilities.cs:12-13 | the same for the older variant, for any name without dashes |
| `Naming.MarkWordsIsLegacy` | PitayaSourceGenerator/Utilities.cs:12 | when the name does not end in a capital, the newer regex scan marks exactly what the older one does |
| `Naming.OptionifyAgreesWithLegacy` | PitayaSourceGenerator/Utilities.cs:12-14 | for a name that neither starts nor ends with a capital, the two variants produce the same flag |
| `Naming.OptionifyNoUpper` | PitayaSourceGenerator/Utilities.cs:12-14 | a name with no capitals is returned unchanged behind "--" |
| `Naming.OptionifyName` | PitayaSourceGeneratorTests/UtilitiesTests.cs:10 | "name" gives "--name" |
| `Naming.OptionifyAName` | PitayaSourceGeneratorTests/UtilitiesTests.cs:11 | "aName" gives "--a-name" |
| `Naming.OptionifyABCValue` | PitayaSourceGeneratorTests/UtilitiesTests.cs:12 | "ABCValue" gives "--abc-value" |
| `Naming.OptionifyFirstChar` | PitayaSourceGeneratorTests/UtilitiesTests.cs:13 | "FirstChar" gives "--first-char" |
| `Naming.OptionifyUserID` | PitayaSourceGeneratorTests/UtilitiesTests.cs:14 | "userID" gives "--user-id" |
| `Naming.OptionifyFooBar` | PitayaSourceGeneratorTests/CommentInfoTests.cs:26-28 | "fooBar" gives "--foo-bar" |
| `Naming.MarkLegacyUnmarkedTail` | CLIParserSourceGenerator/Utilities.cs:12-13 | where no capital letter is followed by a lower-case one, the older marking copies the text unchanged |
| `Naming.LegacyOptionifyName` | CLIParserSourceGeneratorTests/UtilitiesTests.cs:10 | the older variant gives "--name" for "name" |
| `Naming.LegacyOptionifyAName` | CLIParserSourceGeneratorTests/UtilitiesTests.cs:11 | the older variant gives "--a-name" for "aName" |
| `Naming.LegacyOptionifyABCValue` | CLIParserSourceGeneratorTests/UtilitiesTests.cs:12 | the older variant gives "--abc-value" for "ABCValue" |
| `Naming.LegacyOptionifyMyOptionName` | CLIParserTests/UnitTest1.cs:220 | the older variant gives "--my-option-name" for "myOptionName" |
| `Naming.LegacyOptionifyADCOption` | CLIParserTests/UnitTest1.cs:221 | the older variant gives "--adc-option" for "ADCOption" |
| `Naming.LegacyOptionifyFirstChar` | CLIParserSourceGenerator/Utilities.cs:12-13 | the older variant gives "---first-char" for "FirstChar": a leading capital gets a separator |
| `Naming.LegacyOptionifyUserID` | CLIParserSourceGenerator/Utilities.cs:12-13 | the older variant gives "--userid" for "userID": trailing capitals get none |
| `Naming.PropertyifyExamples` | PitayaSourceGeneratorTests/UtilitiesTests.cs:22-24 | property names are the parameter names unchanged |
| `Comments.Create` | CLIParserSourceGenerator/CommentInfo.cs:23-54 | reports the opening-tag error exactly when there is no '>'; reports the closing-tag error exactly when no "</param>" starts at or after the first '>'; on success the flag starts with "--", the description has no white space at either end, and a `name="` occurs in the line |
| `Comments.CreateMissingName` | CLIParserSourceGenerator/CommentInfo.cs:39-50 | once both tags are found, the missing-name error is reported exactly when there is no `name="` or no closing quote after it |
| `Comments.CreateEmptyName` | CLIParserSourceGenerator/CommentInfo.cs:40-53 | once both tags are found, the out-of-range error of `Optionify` is reported exactly when the quoted name is empty |
| `Comments.CreateFields` | CLIParserSourceGenerator/CommentInfo.cs:37-53 | on success the description is the trimmed text between the first '>' and the next "</param>", and the flag is the `Optionify` of the text between the first `name="` and the next quote |
| `Comments.ReadComment` | CLIParserSourceGenerator/CommentInfo.cs:25-37 | fails with the opening-tag error exactly when there is no '>', with the closing-tag error exactly when no "</param>" follows it, and otherwise gives the trimmed text between them |
| `Comments.ReadName` | CLIParserSourceGenerator/CommentInfo.cs:39-53 | fails with the missing-name error exactly when there is no `name="` or no quote after it, with the out-of-range error exactly when the quoted name is empty, and otherwise gives the flag of the quoted name |
| `Comments.ErrorsDistinct` | CLIParserSourceGenerator/CommentInfo.cs:28-49 | the three error messages differ pairwise for every line, and the empty-name failure differs from both tag errors |
| `Comments.CreateParamLine` | CLIParserSourceGenerator/CommentInfo.cs:25-53 | reading back a `<param name="n">d</param>` line gives the flag of `n` and the description `d`, for a non-empty name without '"' or '>' and a trimmed description without '<': the reader inverts the line format |
| `Comments.ToStringSplits` | CLIParserSourceGenerator/CommentInfo.cs:18-21 | for a flag without commas, `ToString` can be split back at ", Comment: " into the flag and the description |
| `Comments.CreateSimpleComment` | PitayaSourceGeneratorTests/CommentInfoTests.cs:15-21 | the first test line reads as flag "--foo" with description "This is a comment." |
| `Comments.CreateComplexNameComment` | PitayaSourceGeneratorTests/CommentInfoTests.cs:24-30 | a description containing "name" and "param" reads back whole, under flag "--foo-bar" |
| `Parameters.NewParameterInfo` | PitayaSourceGenerator/ParameterInfo.cs:17-24 | nullable exactly when the type is annotated; the other fields are kept as given |
| `Parameters.Create` | PitayaSourceGenerator/ParameterInfo.cs:26-34 | has a default exactly when the parameter has an explicit one or is a `bool`; the default is the explicit value, or "false" for a `bool` with none, or absent |
| `Parameters.CreateDefaultConsistent` | PitayaSourceGenerator/ParameterInfo.cs:31-32 | a default value implies the has-default flag; "has a default but no value" happens exactly for an explicit null default |
| `Options.Create` | CLIParserSourceGenerator/OptionInfo.cs:49-63 | fails exactly on an empty name; the flag is `Optionify` of the name; array-like exactly for `T[]` or `List<T>`, and then it has a backing list; required exactly when neither defaulted nor nullable, and then it has a set flag |
| `Options.RequiredIgnoresArrayLike` | CLIParserSourceGenerator/OptionInfo.cs:52-60 | being array-like does not change whether an option is required |
| `Options.BoolOrDefaultedNeverRequired` | CLIParserSourceGenerator/OptionInfo.cs:60 | a `bool` parameter, or one with an explicit default, never becomes a required option |
| `Options.GetArrayConversionMethod` | CLIParserSourceGenerator/OptionInfo.cs:133-148 | succeeds exactly for array-like types: ".ToArray()" for `T[]`, nothing for `List<T>` |
| `Options.CreatedArrayHasConversion` | CLIParserSourceGenerator/OptionInfo.cs:133-148 | every array-like option that `Create` builds has a conversion |
| `Options.GetDefaultValue` | CLIParserSourceGenerator/OptionInfo.cs:165-178 | defined exactly when there is a default value; a `string` default is the value in double quotes; any other default is the value itself |
| `Options.CreatedDefaultValue` | CLIParserSourceGenerator/OptionInfo.cs:165-178 | for a created option, the default fails only for an explicit null; a `bool` with no explicit default prints as "false" |
| `Options.BasicProperty` | CLIParserSourceGenerator/OptionInfo.cs:150-163 | fails exactly for a null default; declares the parameter's type, with '?' right after it exactly when nullable; ends in the property name and bare accessors, or, when defaulted, in the name, the accessors, " = ", the printed default and ";"; its exact length leaves nothing else in the text |
| `Options.BasicArrayProperty` | CLIParserSourceGenerator/OptionInfo.cs:117-127 | succeeds exactly for array-like types; the getter declares the type and property name and returns the backing list, followed by `.ToArray()` exactly for an array type |
| `Options.BasicArrayPropertyArray` | PitayaSourceGeneratorTests/OptionInfoTests.cs:73-81 | a `string[]` parameter `aValue` gives `public string[] aValue { get { return this._aValueBackingList.ToArray(); } }` |
| `Options.BasicArrayPropertyList` | PitayaSourceGeneratorTests/OptionInfoTests.cs:83-91 | a `List<string>` parameter `aValue` gives the getter returning `this._aValueBackingList` with no conversion |
| `Options.GenerateOptionProperties` | CLIParserSourceGenerator/OptionInfo.cs:69-90 | an array option fails exactly when its type is not array-like, any other option exactly for a null default; yields one value property (two for an array option, the second its backing list), plus a set flag last exactly for required options; the first property is the array property text for an array option and the plain property text otherwise |
| `Options.CreatedPropertiesSucceed` | CLIParserSourceGenerator/OptionInfo.cs:69-90 | property generation succeeds for every created option unless its explicit default is null |
| `Options.ChooseConversion` | CLIParserSourceGenerator/OptionInfo.cs:256-299 | each conversion is chosen exactly when its condition holds and no earlier one's does: `string` verbatim, then `System.Uri`, then `T.Parse` for value types, then an eligible static `Parse`, then an eligible string constructor; fails exactly when none applies |
| `Options.GenerateParseExpression` | CLIParserSourceGenerator/OptionInfo.cs:256-299 | succeeds exactly when a conversion is chosen, and prints the chosen conversion applied to `args[i]` |
| `Options.ReferenceTypeConversion` | CLIParserSourceGenerator/OptionInfo.cs:270-292 | for a reference type other than `string` and `System.Uri`, an eligible static `Parse` wins over a suitable constructor, and the constructor is used only when no such `Parse` exists |
| `Options.ObsoleteMembersIgnored` | CLIParserSourceGenerator/OptionInfo.cs:275-284 | a reference type whose only members are obsolete has no conversion |
| `Options.ValueTypesUseParse` | CLIParserSourceGenerator/OptionInfo.cs:266-268 | every value type other than `string` and `Uri` is parsed with `T.Parse` |
| `Options.GenerateSwitchSection` | CLIParserSourceGenerator/OptionInfo.cs:180-254 | the `case` label is the flag; a capture loop exactly for array options, and then its first statement collects into the backing list with the element type's parse expression; otherwise an assignment of the parse expression; a set-flag statement exactly for required options; `break` last; fails exactly when the type, or the element type, has no conversion |
| `Options.SwitchSectionLines` | CLIParserSourceGenerator/OptionInfo.cs:180-254 | the section prints as the label line followed by one indented line per statement |
| `Options.GenerateSetValueAccess` | CLIParserSourceGenerator/OptionInfo.cs:301-306 | present exactly for required options, and reads that option's set flag |
| `Options.GenerateSpecificMissingOptionCheck` | CLIParserSourceGenerator/OptionInfo.cs:308-323 | present exactly for required options: tests the set flag and adds the option's flag to `missing` |
| `Descriptions.FirstNamed` | PitayaSourceGenerator/ParameterDescriptionList.cs:28 | finds an option with the flag when one exists, and only then |
| `Descriptions.Commented` | PitayaSourceGenerator/ParameterDescriptionList.cs:26-34 | every entry pairs a listed comment with an option of the same flag |
| `Descriptions.Uncommented` | PitayaSourceGenerator/ParameterDescriptionList.cs:37-43 | every entry is an uncommented option whose flag was not added |
| `Descriptions.Create` | PitayaSourceGenerator/ParameterDescriptionList.cs:19-46 | every entry's option is one of the options; a commented entry's comment is one of the comments and names that option's flag |
| `Descriptions.CommentedContains` | PitayaSourceGenerator/ParameterDescriptionList.cs:26-34 | every comment whose flag some option has produces an entry |
| `Descriptions.UncommentedContains` | PitayaSourceGenerator/ParameterDescriptionList.cs:37-43 | every option whose flag was not added produces an uncommented entry |
| `Descriptions.EveryOptionListed` | PitayaSourceGenerator/ParameterDescriptionList.cs:19-46 | every option's flag appears in the list |
| `Descriptions.EveryOptionItselfListed` | PitayaSourceGenerator/ParameterDescriptionList.cs:19-46 | with distinct flags, every option itself appears in the list |
| `Descriptions.NoFlagListedTwice` | PitayaSourceGenerator/ParameterDescriptionList.cs:19-46 | with distinct option flags and distinct comment flags, no flag is listed twice |
| `Descriptions.CommentedFirst` | PitayaSourceGenerator/ParameterDescriptionList.cs:26-43 | all commented entries come before all uncommented ones |
| `Descriptions.CommentedConcat` | PitayaSourceGenerator/ParameterDescriptionList.cs:26-34 | the commented entries follow the order of the comments: the entries of two runs of comments are those of the first run, then those of the second |
| `Descriptions.UncommentedConcat` | PitayaSourceGenerator/ParameterDescriptionList.cs:37-43 | the uncommented entries follow the order of the options in the same way |
| `Descriptions.SameFlags` | PitayaSourceGenerator/ParameterDescriptionList.cs:19-46 | the list names exactly the flags the options declare, no more and no fewer |
| `Descriptions.CreateLength` | PitayaSourceGenerator/ParameterDescriptionList.cs:19-46 | with distinct option flags and distinct comment flags, the list has exactly one entry per option |
| `Descriptions.RepeatedCommentListedTwice` | PitayaSourceGenerator/ParameterDescriptionList.cs:26-34 | two comments naming the same option list that option twice, since the first loop does not consult the added set |
| `Help.OptionRow` | PitayaSourceGenerator/HelpTextGenerator.cs:45-51 | the row is two spaces and the flag, followed by " <type>" exactly when the type is not `bool`; it carries the comment's text when there is one |
| `Help.Rows` | PitayaSourceGenerator/HelpTextGenerator.cs:43-54 | one row per description in order, then the help-flags row |
| `Help.MaxWidth` | PitayaSourceGenerator/HelpTextGenerator.cs:56 | the width is the length of the longest row text: no row is longer and some row is that long |
| `Help.HeaderLines` | PitayaSourceGenerator/HelpTextGenerator.cs:32-41 | four lines, or seven with the description block; "Usage:" and the assembly line come before the final "Options:" |
| `Help.Unlines` | PitayaSourceGenerator/HelpTextGenerator.cs:29-69 | a non-empty list of lines gives text ending in a newline |
| `Help.Generate` | PitayaSourceGenerator/HelpTextGenerator.cs:22-70 | the help text is never empty and ends with a newline |
| `Help.LinesShape` | PitayaSourceGenerator/HelpTextGenerator.cs:29-69 | the text is the header, then one rendered line per row at the table width, with the help-flags row last |
| `Help.WidthBounds` | PitayaSourceGenerator/HelpTextGenerator.cs:54-56 | the table is at least 16 columns wide, and every option row fits |
| `Help.RowAlignment` | PitayaSourceGenerator/HelpTextGenerator.cs:57-67 | a commented row prints its text, spaces up to the width, two more spaces, then the comment, so every comment starts in column width+2; an uncommented row prints bare |
| `Help.DescriptionBlock` | PitayaSourceGenerator/HelpTextGenerator.cs:32-37 | the description block appears exactly when the description is not all white space |
| `Help.TwoCommented` | PitayaSourceGenerator/ParameterDescriptionList.cs:19-46 | two comments naming two distinct options, in order, list each option once with its comment |
| `Help.TwoUncommented` | PitayaSourceGenerator/ParameterDescriptionList.cs:37-43 | with no comments, the options are listed uncommented in order |
| `Help.GenerateExample` | PitayaSourceGeneratorTests/HelpTextGeneratorTests.cs:15-47 | the commented test prints, line by line, the expected description block, usage, and a table whose comments start in column 19 |
| `Help.WithoutCommentsExample` | PitayaSourceGeneratorTests/HelpTextGeneratorTests.cs:49-71 | the uncommented test prints no description block, and its option rows unpadded |
| `Overall.SkipUntil` | PitayaSourceGenerator/OverallSourceGenerator.cs:60 | the result is a suffix of the input, no skipped line has the prefix, and its first line (if any) does |
| `Overall.TakeUntil` | PitayaSourceGenerator/OverallSourceGenerator.cs:60 | the result is a prefix of the input, no kept line has the prefix, and the next line (if any) does |
| `Overall.BetweenIsBlock` | PitayaSourceGenerator/OverallSourceGenerator.cs:60 | the skip, skip-one, take chain equals the positional definition: the lines after the first opening line, up to the next closing line |
| `Overall.ExtractDescriptionIsSummary` | PitayaSourceGenerator/OverallSourceGenerator.cs:58-63 | the description is the `<summary>` block joined with newlines |
| `Overall.ExtractDescriptionOfBlock` | PitayaSourceGenerator/OverallSourceGenerator.cs:58-63 | for a comment laid out as lines before, `<summary>`, body, `</summary>`, lines after, the description is the body joined |
| `Overall.ParamLines` | PitayaSourceGenerator/OverallSourceGenerator.cs:48-49 | keeps exactly the lines that start with "<param name" |
| `Overall.ParamLinesConcat` | PitayaSourceGenerator/OverallSourceGenerator.cs:48-49 | the `<param name` lines keep their order: the selection from two runs of lines is the selection from the first, then from the second |
| `Overall.ParamLinesSingle` | PitayaSourceGenerator/OverallSourceGenerator.cs:48-49 | a single line is kept exactly when it starts with `<param name`, so with the concatenation lemma the selection is fixed line by line, repeats included |
| `Overall.SelectAll` | PitayaSourceGenerator/OverallSourceGenerator.cs:50 | succeeds exactly when every item converts, with the results in order; otherwise reports the first failure |
| `Overall.CreateAll` | PitayaSourceGenerator/OverallSourceGenerator.cs:48-50 | reads every comment line in order, or reports the first line's error |
| `Overall.CreateAllFails` | PitayaSourceGenerator/OverallSourceGenerator.cs:48-50 | reading fails exactly when some line is malformed |
| `Overall.GenerateHelpText` | PitayaSourceGenerator/OverallSourceGenerator.cs:46-56 | fails exactly when a param line is malformed; otherwise it is the help text built from the extracted description and the comments read |
| `Files.AddNamespace` | PitayaSourceGenerator/FileGenerator.cs:41-42 | after adding, the set holds exactly the earlier names and the new one; a set without repeats stays without repeats; earlier names keep their places, and the set grows by one exactly when the name is new |
| `Files.CollectNamespaces` | PitayaSourceGenerator/FileGenerator.cs:36-44 | the loop only adds: the starting set is kept, in front |
| `Files.UsingLines` | PitayaSourceGenerator/FileGenerator.cs:48 | one `using n;` line per namespace, in order |
| `Files.CollectNamespacesContents` | PitayaSourceGenerator/FileGenerator.cs:31-44 | the set stays free of repeats and holds exactly the start plus "System.Linq" and the element namespace of each array option with an element type |
| `Files.NamespacesContents` | PitayaSourceGenerator/FileGenerator.cs:31-44 | the usings start with System and System.Collections.Generic, have no repeats, and hold exactly the namespaces the options need |
| `Files.LinqWhenCollecting` | PitayaSourceGenerator/FileGenerator.cs:39-43 | System.Linq is imported exactly when some option is array-like with an element type |
| `Files.GenerateSourceLines` | PitayaSourceGenerator/FileGenerator.cs:45-58 | the text the generator builds is the file's lines (banner, `#nullable enable`, the usings, a blank line, the namespace block with the three sources) joined with newlines |
| `Files.NoOptionsUsings` | PitayaSourceGenerator/FileGenerator.cs:31-48 | without options the file begins with the banner, `#nullable enable`, `using System;` and `using System.Collections.Generic;` |
| `Programs.HelpReturnStyle` | PitayaSourceGenerator/ProgramGenerator.cs:114-124 | fails exactly for an undefined return type, with the unexpected-return-type message; otherwise a `return` statement that is "return 0;" exactly when `Main` returns a value |
| `Programs.ReturnStyle` | PitayaSourceGenerator/ProgramGenerator.cs:126-136 | fails exactly for an undefined return type, with the unexpected-return-type message; otherwise the prefix starts with "return " exactly when `Main` returns a value and ends with "await " exactly when it is asynchronous |
| `Programs.StubHead` | PitayaSourceGenerator/ProgramGenerator.cs:138-148 | fails exactly for an undefined return type; otherwise starts with "static ", ends with " Main", and is `async` exactly when `Main` is asynchronous |
| `Programs.MethodStub` | PitayaSourceGenerator/ProgramGenerator.cs:138-216 | fails exactly for an undefined return type, with the unexpected-return-type message; otherwise a `static` declaration ending in " Main()" |
| `Programs.MainArguments` | PitayaSourceGenerator/ProgramGenerator.cs:107 | one named argument per option, in option order |
| `Programs.Generate` | PitayaSourceGenerator/ProgramGenerator.cs:37-112 | fails exactly for an undefined return type, and otherwise lays the class out in 18 lines |
| `Programs.ReturnsValueFromDeclaredType` | CLIParserSourceGenerator/Extensions.cs:24-27 | the return type carries a value exactly when the declared `Main` returns `int` or `Task<int>` |
| `Programs.IsAsyncFromDeclaredType` | CLIParserSourceGenerator/Extensions.cs:24-27 | the return type is asynchronous exactly when the declared `Main` returns a `Task` |
| `Programs.ReturnStylesFollowShape` | PitayaSourceGenerator/ProgramGenerator.cs:114-136 | help exits with "return 0;" exactly for value-returning types; the call is prefixed with "return " for value-returning types and with "await " for asynchronous ones |
| `Programs.StubFollowsShape` | PitayaSourceGenerator/ProgramGenerator.cs:150-216 | the stub is `static`, then `async` for a task type, then the short return type, then `Main` |
| `Programs.UndefinedFails` | PitayaSourceGenerator/ProgramGenerator.cs:116-147 | an undefined return type makes generation fail, naming its number |
| `Programs.HelpBeforeCall` | PitayaSourceGenerator/ProgramGenerator.cs:97-107 | the generated body holds the help text, tests `___ShowHelp___`, prints and leaves with the help return style, and only then calls `Main` |
| `Programs.MainArgumentSplits` | PitayaSourceGenerator/ProgramGenerator.cs:107 | each named argument reads back as the parameter it binds and the property it reads, for a parameter name without ':' |
| `Programs.CreatedArgumentBindsSameName` | PitayaSourceGenerator/ProgramGenerator.cs:107 | for a created option, the argument binds the parameter to the property of the same name |
| `Programs.ReturnStyleExamples` | PitayaSourceGeneratorTests/ProgramGeneratorTests.cs:59-93 | the four return styles, help return styles and method stubs the tests expect |
| `Programs.UndefinedStubExample` | PitayaSourceGeneratorTests/ProgramGeneratorTests.cs:95-101 | return type 111 fails with "Unexpected return type '111'." |
| `Extensions.ToMainReturnTypeEnum` | CLIParserSourceGenerator/Extensions.cs:20-30 | an accepted string is the declared name of the member it maps to; anything else fails with the unexpected-return-type message naming the string |
| `Extensions.ReturnTypeRoundTrip` | CLIParserSourceGenerator/Extensions.cs:22-27 | mapping a member's declared name gives back that member |
| `Extensions.AcceptedExactly` | CLIParserSourceGenerator/Extensions.cs:22-28 | exactly the four declared names are accepted |
| `Extensions.WhereNotNull` | CLIParserSourceGenerator/Extensions.cs:9-18 | keeps exactly the present items: each kept item was present, and each present item is kept |
| `Extensions.WhereNotNullConcat` | CLIParserSourceGenerator/Extensions.cs:9-18 | filtering distributes over concatenation, so order is preserved |
| `Extensions.WhereNotNullCount` | CLIParserSourceGenerator/Extensions.cs:9-18 | one item per present entry |
| `Extensions.WhereNotNullAllPresent` | CLIParserSourceGenerator/Extensions.cs:9-18 | with nothing missing, the filter is the identity on values |
| `Numbers.ParseInt32` | ConsoleApp8/Parser.cs:75 | a parsed value lies within Int32; a failure carries the format or the overflow message |
| `Numbers.ParseInt32RoundTrip` | ConsoleApp8/Parser.cs:75 | parsing the decimal text of any Int32 gives it back |
| `Numbers.ParseInt32RejectsNonDigits` | ConsoleApp8/Parser.cs:75 | a non-digit in the trimmed text, other than a leading sign, is a format error |
| `Runtime.Initial` | ConsoleApp8/Parser.cs:11-46 | every option starts at its initial value, none given, help off |
| `Runtime.FindFlag` | ConsoleApp8/Parser.cs:68-125 | selects the first option with the token as its flag, or none exactly when no option has that flag |
| `Runtime.EnumLookup` | ConsoleApp8/Parser.cs:51-56 | finds a name equal to the token ignoring case, or none exactly when there is no such name |
| `Runtime.Capture` | ConsoleApp8/Parser.cs:91-106 | takes the longest run of non-boundary tokens, converting each in order, and stops at the first boundary; on failure, it names the first token in the run that does not convert |
| `Runtime.Step` | ConsoleApp8/Parser.cs:61-125 | a successful step advances and keeps the record's shape; one step never reports missing arguments |
| `Runtime.Scan` | ConsoleApp8/Parser.cs:61-126 | the loop keeps the record's shape and never reports missing arguments |
| `Runtime.MissingFlags` | ConsoleApp8/Parser.cs:129-144 | lists exactly the flags of required options not given, and is empty exactly when all were given |
| `Runtime.Parse` | ConsoleApp8/Parser.cs:58-150 | a successful parse either asked for help or has every required option given |
| `Runtime.HelpEndsScan` | ConsoleApp8/Parser.cs:118-122 | a help token in flag position that no option claims sets help and ends the loop, ignoring whatever follows |
| `Runtime.HelpAlone` | ConsoleApp8/Parser.cs:118-129 | a lone help token succeeds with the initial record and help set, skipping the required-argument check |
| `Runtime.ScanUnrecognized` | ConsoleApp8/Parser.cs:123-124 | an unrecognised-option error names a token of the input that is neither a flag nor a help token |
| `Runtime.UnrecognizedNamesToken` | ConsoleApp8/Parser.cs:123-124 | the same for a whole parse |
| `Runtime.ScanUnknown` | ConsoleApp8/Parser.cs:123-124 | a token in flag position that no option and no help token matches ends the parse with an unrecognised-option error naming it |
| `Runtime.MissingExactly` | ConsoleApp8/Parser.cs:128-147 | the parse reports missing arguments exactly when the loop succeeded without help and some required options were not given, and it lists exactly those |
| `Runtime.ScanGivenSeen` | ConsoleApp8/Parser.cs:61-126 | the loop marks an option given only if its flag is one of the tokens it reads |
| `Runtime.RequiredFlagsAppear` | ConsoleApp8/Parser.cs:128-147 | a parse that succeeds without help saw the flag of every required option among the tokens |
| `Runtime.MissingMessagePlural` | ConsoleApp8/Parser.cs:146 | the message is "Missing required argument", then "s" exactly when more than one is missing, then the flags joined with ", " |
| `Runtime.TwoTokensPerFlag` | ConsoleApp8/Parser.cs:61-90 | a scalar or presence flag consumes exactly two tokens; a scalar stores the converted next token, a presence flag stores true |
| `Runtime.ScalarStep` | ConsoleApp8/Parser.cs:70-77 | a scalar flag followed by a convertible token stores its value and moves two tokens on |
| `Runtime.ScanScalar` | ConsoleApp8/Parser.cs:70-77 | the loop continues two tokens on with that value stored |
| `Runtime.ScanPresence` | ConsoleApp8/Parser.cs:78-80 | a presence flag stores true and the loop continues two tokens on, skipping the token after the flag |
| `Runtime.ScanEnum` | ConsoleApp8/Parser.cs:110-117 | a known enum name stores that member and the loop continues two tokens on |
| `Runtime.ScanArray` | ConsoleApp8/Parser.cs:91-109 | an array flag appends the captured items to those already collected, and the loop resumes at the boundary token |
| `Runtime.CaptureToEnd` | ConsoleApp8/Parser.cs:92-106 | with no boundary before the end, every remaining token is captured |
| `Runtime.ArrayCapture` | ConsoleApp8/Parser.cs:91-109 | after an array step the option is given; its items are the earlier ones followed by the conversion of each token up to the boundary, which is re-read as a flag |
| `Runtime.UnmentionedUnchanged` | ConsoleApp8/Parser.cs:61-126 | an option whose flag is never in the remaining tokens keeps its value and given bit through the loop |
| `Runtime.StepKeepsOthers` | ConsoleApp8/Parser.cs:68-125 | a step leaves the value and given bit of every option whose flag is not the current token unchanged |
| `Runtime.UnsuppliedKeepsInitial` | ConsoleApp8/Parser.cs:29-44 | an option whose flag is not on the command line ends at its initial value (the "default" initialiser included), not given |
| `Runtime.EnumLookupIgnoresCase` | ConsoleApp8/Parser.cs:51 | tokens that differ only in case select the same member |
| `Runtime.EnumStep` | ConsoleApp8/Parser.cs:110-117 | an enum flag stores the member whose name matches ignoring case, or fails with the invalid-value error naming the token and the flag |
| `Sample.SampleRequiredGiven` | ConsoleApp8/Parser.cs:129 | every successful non-help parse of the sample has `--arg1`, `--arg2` and `--arg-name` given |
| `Sample.SampleShaped` | ConsoleApp8/Parser.cs:68-125 | the sample schema has the eight switch sections, their kinds and conversions, and the initial values the `Options` class declares |
| `Sample.SampleUnknowns` | CLIParserTests/UnitTest1.cs:62-74 | "--not-an-option" and "x" select no section |
| `Sample.HelpSelectsNothing` | ConsoleApp8/Parser.cs:118-120 | no option of the sample has a help token as its flag |
| `Sample.ShapedInitial` | ConsoleApp8/Parser.cs:11-46 | a new `Options` has every property at its declared initial value |
| `Sample.ShapedMissingList` | ConsoleApp8/Parser.cs:132-144 | the missing list holds `--arg1`, `--arg2`, `--arg-name` in that order, each only when not given |
| `Sample.Finish` | ConsoleApp8/Parser.cs:128-149 | after the loop, the parse returns the record, or the missing-arguments error with the sample's list |
| `Sample.Defaulted` | CLIParserTests/UnitTest1.cs:11-18 | after the default arguments, the three required options hold "value1", 2 and 2 and are given; everything else is untouched |
| `Sample.DefaultedComplete` | ConsoleApp8/Parser.cs:129 | the default arguments satisfy the required check, even after one more non-required option |
| `Sample.SampleDefaulted` | CLIParserTests/UnitTest1.cs:11-18 | for the sample, that record is the expected one |
| `Sample.ReadDefaults` | CLIParserTests/UnitTest1.cs:11-18 | reading the six default tokens from the initial record gives that record |
| `Sample.DefaultArgsTest` | CLIParserTests/UnitTest1.cs:20-60 | parsing the default arguments gives arg1 "value1", arg2 2, argName 2, arg3 false and argWithDefault "default" |
| `Sample.DefaultsOnly` | CLIParserTests/UnitTest1.cs:20-60 | for any schema of the sample's shape, the default arguments parse to the defaulted record |
| `Sample.BasicBoolTest` | CLIParserTests/UnitTest1.cs:106-119 | adding "--arg3" sets arg3 to true |
| `Sample.PresenceAfterDefaults` | CLIParserTests/UnitTest1.cs:106-119 | the same for any schema of the sample's shape |
| `Sample.ArrayArgTest` | CLIParserTests/UnitTest1.cs:135-154 | "--arg-array 1 2 3" collects [1, 2, 3] |
| `Sample.ArrayAfterDefaults` | CLIParserTests/UnitTest1.cs:135-154 | the same for any schema of the sample's shape and any capture up to the end |
| `Sample.CaptureNumbers` | CLIParserTests/UnitTest1.cs:135-154 | "1", "2", "3" capture as the numbers 1, 2, 3 |
| `Sample.EnumTests` | CLIParserTests/UnitTest1.cs:170-200 | "value2" and "VALUE2" both select the second enum member |
| `Sample.EnumCase` | CLIParserTests/UnitTest1.cs:186-200 | any spelling of "value2" in any case selects the second member |
| `Sample.EnumAfterDefaults` | ConsoleApp8/Parser.cs:110-117 | after the defaults, an enum flag with a known name stores that member and the parse succeeds |
| `Sample.SecondMember` | ConsoleApp8/Parser.cs:51-56 | every case variant of "value2" is the second entry of the enum map |
| `Sample.UnknownOptionTest` | CLIParserTests/UnitTest1.cs:62-74 | "--not-an-option 2" fails as an unrecognised option with the test's message |
| `Sample.UnknownMessage` | ConsoleApp8/Parser.cs:124 | the unrecognised-option message quotes the token |
| `Sample.MissingOptionTests` | CLIParserTests/UnitTest1.cs:76-104 | without `--arg-name` the parse reports it missing; with only `--arg1` it reports `--arg2, --arg-name` |
| `Sample.TwoScalarsOnly` | CLIParserTests/UnitTest1.cs:76-90 | the first of those for any schema of the sample's shape |
| `Sample.OneScalarOnly` | CLIParserTests/UnitTest1.cs:92-104 | the second of those for any schema of the sample's shape |
| `Sample.MissingMessages` | ConsoleApp8/Parser.cs:146 | the singular and plural messages the tests expect |
| `Sample.HelpCallTest` | CLIParserTests/UnitTest1.cs:202-217 | each of "-h", "-?" and "--help" alone succeeds with help set and nothing else changed |
| `Sample.PresenceSkipsNextToken` | ConsoleApp8/Parser.cs:61-80 | "--arg3 --arg-optional x" swallows "--arg-optional" and then rejects "x" as unrecognised |
| `Sample.PresenceThenUnknown` | ConsoleApp8/Parser.cs:61-80 | the same for any schema of the sample's shape |
| `Sample.ArrayStopsAtHelp` | ConsoleApp8/Parser.cs:91-122 | "--arg-array -5 -h" collects -5 (a negative number is a value, not a boundary) and then shows help |
| `Sample.ArrayThenHelp` | ConsoleApp8/Parser.cs:91-122 | the same for any schema of the sample's shape |
| `Sample.CaptureMinusFive` | ConsoleApp8/Parser.cs:95 | "-5" is captured and "-h" stops the capture |
| `Sample.NotBoundary` | ConsoleApp8/Parser.cs:95 | a token not starting with '-' never ends a capture |
| `Sample.TrailingScalarTest` | ConsoleApp8/Parser.cs:66-71 | a scalar flag with no token after it fails with the index-out-of-range error |

## Left out

- Console I/O is not modelled: printing the help text and the user's program are outside the model.
- `OverallSourceGenerator.GenerateSource`, `OptionsClassGenerator` and `ParserGenerator` are not part of this model. The semantics of the parser they generate are modelled directly, in `Runtime` and `Sample`.
- Roslyn syntax trees are modelled as text: property declarations are strings, and switch sections and the program class are lines in a fixed layout. `NormalizeWhitespace` is taken to produce that layout.
- Case mapping and white space are ASCII only; `ToLower` uses no culture.
- Text searches and prefix/suffix tests are ordinal. The source calls `StartsWith(string)`, `EndsWith(string)` and `IndexOf(string)` without a `StringComparison`, and .NET then compares culture-sensitively and skips ignorable code points such as U+00AD. So for a token or comment line holding such a code point, `Runtime.IsBoundary`, `Sample.NotBoundary`, `Comments.Create`, `Overall.ParamLines`, `Overall.ExtractDescription` and the array-type tests of `Options.Create` and `Options.GetArrayConversionMethod` may differ from ConsoleApp8/Parser.cs:95, CLIParserSourceGenerator/CommentInfo.cs:31-46, PitayaSourceGenerator/OverallSourceGenerator.cs:49-60 and CLIParserSourceGenerator/OptionInfo.cs:52 and 136-140.
- Sample.NotBoundary: states the boundary test under ordinal comparison only; see the line above for tokens with ignorable code points.
- Naming.Optionify: the regular expression's `$` is taken as the end of the string only. .NET's `$` also matches before a final '\n', so PitayaSourceGenerator/Utilities.cs:12-14 gives "--a-b\n" for "aB\n" where the model gives "--ab\n". Parameter names are C# identifiers and comment names come from one line, so no name that reaches it contains '\n'.
- Naming.MarkWordsSeparated: relates the scan to the positional reference with `$` read as the end of the string; the match before a final '\n' is not modelled (see `Naming.Optionify` above).
- Naming.OptionifySeparated: the same gap, carried into the positional statement of `Optionify`.
- `int.Parse`, `T.Parse`, `new Uri` and string constructors are library code. The runtime takes each conversion as a function. `Numbers.ParseInt32` is a stand-in for `int.Parse` with `NumberStyles.Integer`, without culture-specific signs or digits.
- `HashSet<string>` enumeration order is taken to be insertion order (an ordered list without repeats).
- Files.GenerateSourceLines follows PitayaSourceGenerator/FileGenerator.cs. The test of the older generator, CLIParserSourceGeneratorTests/FileGeneratorTests.cs:23-37, expects `using System.Threading.Tasks;` and no `#nullable enable`; the Pitaya generator drops the first and adds the second.
- Programs.MainArguments follows the code, which writes `@name: options.@Name`. The expectation at PitayaSourceGeneratorTests/ProgramGeneratorTests.cs:47 omits the `@`.
- Every option has a "given" bit in the runtime record. The source keeps a set flag only for required and array options, and only reads those, so this has no observable effect.
- The `MainReturnTypeEnum` file is not part of this model. It is represented by a datatype with the four named members and an undefined value carrying its number.
- The `Lazy<string>` in `CommentInfo.Create` only delays building the message, so it has no observable effect.
- Options.GetDefaultValue: an explicit default is taken as its printed text. The source interpolates the default object, so C# formatting such as `True` for a bool default is not modelled.
- Options.Create uses the newer `Optionify`. It takes the newer generator's parameter description, and its tests live with the newer generator (PitayaSourceGeneratorTests/OptionInfoTests.cs).
- Comments.Create uses the newer `Optionify`. Its tests live with the newer generator, and both variants give "--foo" and "--foo-bar" for the tested names.
- The element type of an array or list type is a field of the type symbol, not computed from Roslyn.
- A null description passed to `HelpTextGenerator` is not modelled: `ExtractDescription` never returns null.
- `Options.ValueSetProperty` and `Options.ListBackingProperty` are single string templates with no contract; `GenerateOptionProperties` states where they appear.
- `GenerateArrayLikeParseStatement` becomes a `CaptureLoop` statement; what that loop does is stated by `Runtime.Capture`.
- Programs.Generate: its own contract gives only the line count and the failure case; the content of the lines is stated by `Programs.HelpBeforeCall`.
- Help.Generate: its own contract says only that the text ends in a newline; the line-by-line content is stated by `Help.LinesShape`, `Help.RowAlignment` and the two test replays.
- `Help.GenerateExample` and `Help.WithoutCommentsExample` compare lines, not the final string, and end each line with "\n" rather than the platform's line ending.

## Findings

| source | as written | input that shows it | evidently intended | confidence | as-written member | corrected member |
|---|---|---|---|---|---|---|
| CLIParserSourceGenerator/Utilities.cs:12-13 | a leading capital also gets a '-' separator | "FirstChar" gives "---first-char" | "--first-char", as PitayaSourceGeneratorTests/UtilitiesTests.cs:13 expects of the later version | not executed | `Naming.LegacyOptionifyFirstChar` | `Naming.OptionifyFirstChar` |
| CLIParserSourceGenerator/Utilities.cs:12-13 | a trailing run of capitals gets no separator | "userID" gives "--userid" | "--user-id", as PitayaSourceGeneratorTests/UtilitiesTests.cs:14 expects of the later version | not executed | `Naming.LegacyOptionifyUserID` | `Naming.OptionifyUserID` |

The later generator fixes both (PitayaSourceGenerator/Utilities.cs:12-14).
`Naming.OptionifyFirstCharacter` and `Naming.MarkWordsSeparated` prove the
corrected rule for every name. The rest of the model, `Comments` and
`Options`, uses the corrected `Optionify`.

=== FILE: comment_info.dfy ===
/** `CommentInfo` (CLIParserSourceGenerator/CommentInfo.cs): one
    `<param name="...">...</param>` line of a documentation comment, parsed
    into the flag it documents and its description. */
module Comments {
  import opened Wrappers
  import opened Text
  import Naming

  datatype CommentInfo = CommentInfo(optionName: string, comment: string)

  const ClosingTag := "</param>"
  const NameAttribute := "name=\""

  /** `CommentInfo.ToString`. */
  function ToString(c: CommentInfo): string {
    "OptionName: " + c.optionName + ", Comment: " + c.comment
  }

  function OpeningTagError(text: string): string {
    "Comment '" + text + "' does not contain an opening tag."
  }

  function ClosingTagError(text: string): string {
    "Comment '" + text + "' does not contain a closing tag."
  }

  function MissingNameError(text: string): string {
    "Comment '" + text + "' does not contain a name."
  }

  /** `CommentInfo.Create`. The checks run in order — an opening '>', then a
      "</param>" at or after it, then a `name="` with a closing quote — and
      the first that fails is reported. The description is the trimmed text
      between the first '>' and the next "</param>"; the flag is the quoted
      name run through `Optionify`. */
  function Create(text: string): (r: Result<CommentInfo, string>)
    ensures r == Err(OpeningTagError(text)) <==> '>' !in text
    ensures r == Err(ClosingTagError(text)) <==>
              '>' in text && forall k :: IndexOfChar(text, '>').value <= k ==> !OccursAt(text, ClosingTag, k)
    ensures r.Ok? ==> '>' in text && StartsWith(r.value.optionName, "--")
    ensures r.Ok? ==> Trimmed(r.value.comment)
    ensures r.Ok? ==> exists k :: OccursAt(text, NameAttribute, k)
  {
    ErrorsDistinct(text);
    var comment :- ReadComment(text);
    var optionName :- ReadName(text);
    Ok(CommentInfo(optionName, comment))
  }

  /** Both tags are there: a '>' and a "</param>" at or after the first one. */
  predicate HasTags(text: string) {
    '>' in text && IndexOfFrom(text, ClosingTag, IndexOfChar(text, '>').value).Some?
  }

  /** There is no `name="`, or no quote after the first one. */
  predicate NameMissing(text: string) {
    || IndexOfFrom(text, NameAttribute, 0).None?
    || IndexOfFrom(text, "\"", IndexOfFrom(text, NameAttribute, 0).value + 6).None?
  }

  /** The quote that ends the name comes straight after the first `name="`. */
  predicate NameEmpty(text: string) {
    && IndexOfFrom(text, NameAttribute, 0).Some?
    && IndexOfFrom(text, "\"", IndexOfFrom(text, NameAttribute, 0).value + 6)
       == Some(IndexOfFrom(text, NameAttribute, 0).value + 6)
  }

  /** Past the two tag checks, `Create` reports the missing-name error
      exactly when there is no `name="` or no quote after it. */
  lemma {:induction false} CreateMissingName(text: string)
    ensures Create(text) == Err(MissingNameError(text)) <==> HasTags(text) && NameMissing(text)
  {
    match ReadComment(text)
    case Err(e) =>
      assert e != MissingNameError(text) by { ErrorsDistinct(text); }
    case Ok(comment) =>
      match ReadName(text)
      case Err(e) =>
        assert Create(text) == Err(e);
      case Ok(optionName) =>
        assert Create(text).Ok?;
  }

  /** Past the two tag checks, `Create` reports the out-of-range error of
      `Optionify` exactly when the quoted name is empty. */
  lemma {:induction false} CreateEmptyName(text: string)
    ensures Create(text) == Err(Naming.IndexOutOfBounds) <==> HasTags(text) && NameEmpty(text)
  {
    match ReadComment(text)
    case Err(e) =>
      assert e != Naming.IndexOutOfBounds by { ErrorsDistinct(text); }
    case Ok(comment) =>
      match ReadName(text)
      case Err(e) =>
        assert Create(text) == Err(e);
      case Ok(optionName) =>
        assert Create(text).Ok?;
  }

  /** A successful `Create` holds the trimmed text between the first '>'
      and the next "</param>", under the flag of the quoted name. */
  lemma {:induction false} CreateFields(text: string)
    ensures Create(text).Ok? ==>
              var gt := IndexOfChar(text, '>').value;
              var close := IndexOfFrom(text, ClosingTag, gt).value;
              var start := IndexOfFrom(text, NameAttribute, 0).value + 6;
              var quote := IndexOfFrom(text, "\"", start).value;
              && gt < close && start < quote
              && Create(text).value.comment == Trim(text[gt + 1..close])
              && Naming.Optionify(text[start..quote]) == Ok(Create(text).value.optionName)
  {
    match ReadComment(text)
    case Err(e) =>
    case Ok(comment) =>
      match ReadName(text)
      case Err(e) =>
      case Ok(optionName) =>
        assert Create(text) == Ok(CommentInfo(optionName, comment));
  }

  /** The description part of `Create`: the trimmed text between the first
      '>' and the next "</param>". */
  function ReadComment(text: string): (r: Result<string, string>)
    ensures r.Err? ==> r.error == OpeningTagError(text) || r.error == ClosingTagError(text)
    ensures r == Err(OpeningTagError(text)) <==> '>' !in text
    ensures r == Err(ClosingTagError(text)) <==> '>' in text && !HasTags(text)
    ensures r.Ok? <==> HasTags(text)
    ensures r.Ok? ==>
              var gt := IndexOfChar(text, '>').value;
              var close := IndexOfFrom(text, ClosingTag, gt).value;
              && gt < close
              && r.value == Trim(text[gt + 1..close])
  {
    assert OpeningTagError(text) != ClosingTagError(text) by {
      assert OpeningTagError(text)[|text| + 29] != ClosingTagError(text)[|text| + 29];
    }
    match IndexOfChar(text, '>')
    case None => Err(OpeningTagError(text))
    case Some(endOfOpeningTag) =>
      match IndexOfFrom(text, ClosingTag, endOfOpeningTag)
      case None => Err(ClosingTagError(text))
      case Some(startOfClosingTag) =>
        assert startOfClosingTag != endOfOpeningTag by {
          OccursAtHead(text, ClosingTag, startOfClosingTag);
          assert ClosingTag[0] == '<';
        }
        Ok(Trim(text[endOfOpeningTag + 1..startOfClosingTag]))
  }

  /** The name part of `Create`: the text from the first `name="` to the
      next quote, run through `Optionify`. */
  function ReadName(text: string): (r: Result<string, string>)
    ensures r.Err? ==> r.error == MissingNameError(text) || r.error == Naming.IndexOutOfBounds
    ensures r == Err(MissingNameError(text)) <==> NameMissing(text)
    ensures r == Err(Naming.IndexOutOfBounds) <==> NameEmpty(text)
    ensures r.Ok? ==>
              var start := IndexOfFrom(text, NameAttribute, 0).value + 6;
              var quote := IndexOfFrom(text, "\"", start).value;
              && start < quote
              && Naming.Optionify(text[start..quote]) == Ok(r.value)
              && exists k :: OccursAt(text, NameAttribute, k)
  {
    ErrorsDistinct(text);
    match IndexOfFrom(text, NameAttribute, 0)
    case None => Err(MissingNameError(text))
    case Some(startOfName) =>
      match IndexOfFrom(text, "\"", startOfName + 6)
      case None => Err(MissingNameError(text))
      case Some(endOfName) => Naming.Optionify(text[startOfName + 6..endOfName])
  }

  /** The error texts of `Create` are pairwise different, and different from
      the one `Optionify` reports. */
  lemma {:induction false} ErrorsDistinct(text: string)
    ensures OpeningTagError(text) != ClosingTagError(text)
    ensures OpeningTagError(text) != MissingNameError(text)
    ensures ClosingTagError(text) != MissingNameError(text)
    ensures Naming.Optionify("").error != ClosingTagError(text)
    ensures Naming.Optionify("").error != OpeningTagError(text)
    ensures Naming.Optionify("").error != MissingNameError(text)
  {
    var k := |text| + 29;
    assert OpeningTagError(text)[k] == 'n';
    assert ClosingTagError(text)[k] == ' ' && ClosingTagError(text)[k + 1] == 'c';
    assert MissingNameError(text)[k] == ' ' && MissingNameError(text)[k + 1] == 'n';
    assert Naming.Optionify("").error != ClosingTagError(text) && Naming.Optionify("").error != OpeningTagError(text)
           && Naming.Optionify("").error != MissingNameError(text) by {
      assert Naming.Optionify("").error == Naming.IndexOutOfBounds;
      assert Naming.IndexOutOfBounds[0] == 'I';
      assert ClosingTagError(text)[0] == 'C' && OpeningTagError(text)[0] == 'C' && MissingNameError(text)[0] == 'C';
    }
  }

  /** The line a documentation comment holds for parameter `name` with
      description `comment`. */
  function ParamLine(name: string, comment: string): string {
    "<param name=\"" + name + "\">" + comment + ClosingTag
  }

  /** The layout of a `ParamLine`: the 13-character opening up to the
      name, the name, `">`, the description and the closing tag. */
  lemma {:induction false} ParamLineLayout(name: string, comment: string)
    ensures var text := ParamLine(name, comment);
            && |text| == 23 + |name| + |comment|
            && text[..13] == "<param name=\""
            && text[13..13 + |name|] == name
            && text[13 + |name|] == '"' && text[14 + |name|] == '>'
            && text[15 + |name|..15 + |name| + |comment|] == comment
            && text[15 + |name| + |comment|..] == ClosingTag
  {
  }

  /** The first '>' of a `ParamLine` is the one that ends the opening tag. */
  lemma {:induction false} ParamLineOpening(name: string, comment: string)
    requires '>' !in name
    ensures IndexOfChar(ParamLine(name, comment), '>') == Some(14 + |name|)
  {
    var text := ParamLine(name, comment);
    ParamLineLayout(name, comment);
    var prefix := "<param name=\"";
    forall k | 0 <= k < 14 + |name| ensures text[k] != '>' {
      if k < 13 {
        assert text[k] == text[..13][k] == prefix[k];
      } else if k < 13 + |name| {
        assert text[k] == text[13..13 + |name|][k - 13] == name[k - 13];
      }
    }
    assert '>' !in text[..14 + |name|];
  }

  /** The first "</param>" after the opening tag is the one after the
      description. */
  lemma {:induction false} ParamLineClosing(text: string, name: string, comment: string)
    requires text == ParamLine(name, comment) && '<' !in comment
    ensures IndexOfFrom(text, ClosingTag, 14 + |name|) == Some(15 + |name| + |comment|)
  {
    var gt, close := 14 + |name|, 15 + |name| + |comment|;
    assert |text| == close + 8 && text[gt] == '>'
           && text[gt + 1..close] == comment && text[close..] == ClosingTag by {
      ParamLineLayout(name, comment);
    }
    ClosingTagAfter(text, gt, comment, close);
  }

  /** When a '>' is followed by text free of '<' and then "</param>", that
      is the first "</param>" from the '>' on. */
  lemma {:induction false} ClosingTagAfter(text: string, gt: nat, comment: string, close: nat)
    requires close == gt + 1 + |comment| && close + 8 == |text|
    requires text[gt] == '>' && text[gt + 1..close] == comment && '<' !in comment
    requires text[close..] == ClosingTag
    ensures IndexOfFrom(text, ClosingTag, gt) == Some(close)
  {
    assert OccursAt(text, ClosingTag, close);
    forall k | gt <= k < close ensures !OccursAt(text, ClosingTag, k) {
      if k > gt {
        assert text[k] == comment[k - gt - 1];
      }
      assert text[k] != ClosingTag[0];
    }
    IndexOfFromFirst(text, ClosingTag, gt, close);
  }

  /** The name attribute of a `ParamLine` starts right after "<param ". */
  lemma {:induction false} ParamLineName(name: string, comment: string)
    requires '"' !in name
    ensures IndexOfFrom(ParamLine(name, comment), NameAttribute, 0) == Some(7)
    ensures IndexOfFrom(ParamLine(name, comment), "\"", 13) == Some(13 + |name|)
  {
    var text := ParamLine(name, comment);
    ParamLineLayout(name, comment);
    var prefix := "<param name=\"";
    assert text[7..13] == prefix[7..13] == NameAttribute;
    assert OccursAt(text, NameAttribute, 7);
    forall k | 0 <= k < 7 ensures !OccursAt(text, NameAttribute, k) {
      assert text[k] == text[..13][k] == prefix[k];
    }
    assert OccursAt(text, "\"", 13 + |name|);
    forall k | 13 <= k < 13 + |name| ensures !OccursAt(text, "\"", k) {
      assert text[k] == text[13..13 + |name|][k - 13] == name[k - 13];
    }
  }

  /** Parsing a well-formed `<param>` line gives back the flag of its name
      and its description: the name is non-empty and holds no quote or '>',
      the description holds no '<' and is already trimmed. */
  lemma {:induction false} CreateParamLine(name: string, comment: string)
    requires |name| > 0 && '"' !in name && '>' !in name
    requires '<' !in comment && Trim(comment) == comment
    ensures Create(ParamLine(name, comment)) == Ok(CommentInfo(Naming.Optionify(name).value, comment))
  {
    var text := ParamLine(name, comment);
    ParamLineLayout(name, comment);
    ParamLineOpening(name, comment);
    ParamLineClosing(text, name, comment);
    ParamLineName(name, comment);
    assert ReadComment(text) == Ok(comment);
    assert ReadName(text) == Naming.Optionify(name);
  }

  /** The rendered text splits back into its two fields at the first
      ", Comment: ", as long as the flag holds no comma. */
  lemma {:induction false} ToStringSplits(c: CommentInfo)
    requires ',' !in c.optionName
    ensures IndexOfFrom(ToString(c), ", Comment: ", 0) == Some(12 + |c.optionName|)
    ensures ToString(c)[12..12 + |c.optionName|] == c.optionName
    ensures ToString(c)[23 + |c.optionName|..] == c.comment
  {
    var s := ToString(c);
    var n := |c.optionName|;
    var head, separator := "OptionName: ", ", Comment: ";
    assert s[..12] == head;
    assert s[12..12 + n] == c.optionName;
    assert s[12 + n..23 + n] == separator;
    assert ',' !in head;
    assert separator[0] == ',';
    forall k | 0 <= k < 12 + n
      ensures !OccursAt(s, separator, k)
    {
      if k < 12 {
        assert s[k] == s[..12][k];
      } else {
        assert s[k] == s[12..12 + n][k - 12];
      }
      NotOccursAtHead(s, separator, k);
    }
    IndexOfFromFirst(s, separator, 0, 12 + n);
  }

  /** The first line of CommentInfoTests. */
  lemma {:induction false} CreateSimpleComment(text: string)
    requires text == "<param name=\"foo\">This is a comment.</param>"
    ensures Create(text) == Ok(CommentInfo("--foo", "This is a comment."))
  {
    var name, c := "foo", "This is a comment.";
    SimpleLine(text, name, c);
    SimpleComment(c);
    assert '"' !in name && '>' !in name;
    CreateParamLine(name, c);
    FooFlag(name);
  }

  /** That line is the `ParamLine` of "foo" and its description. */
  lemma {:induction false} SimpleLine(text: string, name: string, comment: string)
    requires text == "<param name=\"foo\">This is a comment.</param>"
    requires name == "foo" && comment == "This is a comment."
    ensures text == ParamLine(name, comment)
  {
    assert "<param name=\"" + name == "<param name=\"foo";
    assert "<param name=\"foo" + "\">" == "<param name=\"foo\">";
    assert "<param name=\"foo\">" + comment == "<param name=\"foo\">This is a comment.";
    assert "<param name=\"foo\">This is a comment." + ClosingTag == text;
  }

  /** Its description is trimmed and free of '<'. */
  lemma {:induction false} SimpleComment(comment: string)
    requires comment == "This is a comment."
    ensures '<' !in comment && Trim(comment) == comment
  {
    TrimmedUnchanged(comment);
    NoAngleBracket(comment, "This is ", "a comment.");
  }

  lemma {:induction false} FooFlag(name: string)
    requires name == "foo"
    ensures Naming.Optionify(name) == Ok("--foo")
  {
    Naming.OptionifyNoUpper(name);
    assert "--" + "foo" == "--foo";
  }

  /** The second line of CommentInfoTests: a name with a capital. */
  lemma {:induction false} CreateComplexNameComment(name: string, comment: string)
    requires name == "fooBar" && comment == "This is a comment with name and param in it."
    ensures Create(ParamLine(name, comment)) == Ok(CommentInfo("--foo-bar", comment))
  {
    ComplexComment(comment);
    FooBarName(name);
    CreateParamLine(name, comment);
    Naming.OptionifyFooBar(name);
  }

  lemma FooBarName(name: string)
    requires name == "fooBar"
    ensures '"' !in name && '>' !in name
  {
  }

  /** The description of that line is trimmed and free of '<'. */
  lemma {:induction false} ComplexComment(comment: string)
    requires comment == "This is a comment with name and param in it."
    ensures '<' !in comment && Trim(comment) == comment
  {
    TrimmedUnchanged(comment);
    var a, b, c, d := "This is a co", "mment with n", "ame and para", "m in it.";
    ComplexPieces(comment, a, b, c, d);
    NoAngleBracket(a + b, a, b);
    NoAngleBracket(c + d, c, d);
    NoAngleBracket(comment, a + b, c + d);
  }

  lemma {:induction false} ComplexPieces(comment: string, a: string, b: string, c: string, d: string)
    requires comment == "This is a comment with name and param in it."
    requires a == "This is a co" && b == "mment with n" && c == "ame and para" && d == "m in it."
    ensures comment == (a + b) + (c + d)
  {
  }

  lemma {:induction false} NoAngleBracket(s: string, a: string, b: string)
    requires s == a + b && '<' !in a && '<' !in b
    ensures '<' !in s
  {
  }
}

=== FILE: description_list.dfy ===
/** `ParameterDescriptionList` (PitayaSourceGenerator/ParameterDescriptionList.cs):
    the options paired with their documentation comments, in help order —
    first one entry per comment that names an option, in comment order, then
    every option no comment named, in declaration order. */
module Descriptions {
  import opened Wrappers
  import opened Options
  import opened Comments

  datatype ParameterDescription = ParameterDescription(option: OptionInfo, comment: Option<CommentInfo>)

  /** `options.FirstOrDefault(o => o.OptionName == name)`. */
  function FirstNamed(options: seq<OptionInfo>, name: string): (r: Option<OptionInfo>)
    ensures r.Some? ==> r.value in options && r.value.optionName == name
    ensures r.None? <==> forall k :: 0 <= k < |options| ==> options[k].optionName != name
  {
    if |options| == 0 then None
    else if options[0].optionName == name then Some(options[0])
    else FirstNamed(options[1..], name)
  }

  /** The first loop: an entry for each comment whose flag some option has. */
  function Commented(options: seq<OptionInfo>, comments: seq<CommentInfo>): (r: seq<ParameterDescription>)
    ensures |r| <= |comments|
    ensures forall d :: d in r ==>
              d.comment.Some? && d.comment.value in comments
              && d.option in options && d.option.optionName == d.comment.value.optionName
  {
    if |comments| == 0 then []
    else
      var rest := Commented(options, comments[1..]);
      match FirstNamed(options, comments[0].optionName)
      case None => rest
      case Some(o) => [ParameterDescription(o, Some(comments[0]))] + rest
  }

  /** The flags the first loop added. */
  function Added(options: seq<OptionInfo>, comments: seq<CommentInfo>): set<string> {
    set c | c in comments && FirstNamed(options, c.optionName).Some? :: c.optionName
  }

  /** The second loop: an uncommented entry for each option whose flag was
      not added. */
  function Uncommented(options: seq<OptionInfo>, added: set<string>): (r: seq<ParameterDescription>)
    ensures |r| <= |options|
    ensures forall d :: d in r ==> d.comment.None? && d.option in options && d.option.optionName !in added
  {
    if |options| == 0 then []
    else
      var rest := Uncommented(options[1..], added);
      if options[0].optionName in added then rest
      else [ParameterDescription(options[0], None)] + rest
  }

  /** `ParameterDescriptionList.Create`, enumerated. */
  function Create(options: seq<OptionInfo>, comments: seq<CommentInfo>): (r: seq<ParameterDescription>)
    ensures |r| <= |comments| + |options|
    ensures forall d :: d in r ==> d.option in options
    ensures forall d :: d in r && d.comment.Some? ==> d.comment.value in comments && d.comment.value.optionName == d.option.optionName
  {
    Commented(options, comments) + Uncommented(options, Added(options, comments))
  }

  lemma {:induction false} CommentedContains(options: seq<OptionInfo>, comments: seq<CommentInfo>, c: CommentInfo)
    requires c in comments && FirstNamed(options, c.optionName).Some?
    ensures ParameterDescription(FirstNamed(options, c.optionName).value, Some(c)) in Commented(options, comments)
  {
    if comments[0] != c {
      CommentedContains(options, comments[1..], c);
    }
  }

  lemma {:induction false} UncommentedContains(options: seq<OptionInfo>, added: set<string>, o: OptionInfo)
    requires o in options && o.optionName !in added
    ensures ParameterDescription(o, None) in Uncommented(options, added)
  {
    if options[0] != o {
      UncommentedContains(options[1..], added, o);
    }
  }

  /** Every option's flag is described: with the first comment naming it,
      or else without a comment. */
  lemma {:induction false} EveryOptionListed(options: seq<OptionInfo>, comments: seq<CommentInfo>, o: OptionInfo)
    requires o in options
    ensures exists d :: d in Create(options, comments) && d.option.optionName == o.optionName
  {
    var r := Create(options, comments);
    if o.optionName in Added(options, comments) {
      var c :| c in comments && FirstNamed(options, c.optionName).Some? && c.optionName == o.optionName;
      CommentedContains(options, comments, c);
      var d := ParameterDescription(FirstNamed(options, c.optionName).value, Some(c));
      assert d in r;
    } else {
      UncommentedContains(options, Added(options, comments), o);
      assert ParameterDescription(o, None) in r;
    }
  }

  /** The options have pairwise different flags. */
  predicate DistinctFlags(options: seq<OptionInfo>) {
    forall i, j :: 0 <= i < j < |options| ==> options[i].optionName != options[j].optionName
  }

  /** The comments name pairwise different flags. */
  predicate DistinctCommentFlags(comments: seq<CommentInfo>) {
    forall i, j :: 0 <= i < j < |comments| ==> comments[i].optionName != comments[j].optionName
  }

  lemma {:induction false} DistinctFirstNamed(options: seq<OptionInfo>, o: OptionInfo)
    requires DistinctFlags(options) && o in options
    ensures FirstNamed(options, o.optionName) == Some(o)
  {
    var r := FirstNamed(options, o.optionName);
    var i :| 0 <= i < |options| && options[i] == o;
    var j :| 0 <= j < |options| && options[j] == r.value;
    assert i == j by {
      if i < j {} else if j < i {}
    }
  }

  /** With pairwise different flags every option itself is listed. */
  lemma {:induction false} EveryOptionItselfListed(options: seq<OptionInfo>, comments: seq<CommentInfo>, o: OptionInfo)
    requires DistinctFlags(options) && o in options
    ensures exists d :: d in Create(options, comments) && d.option == o
  {
    EveryOptionListed(options, comments, o);
    var d :| d in Create(options, comments) && d.option.optionName == o.optionName;
    var i :| 0 <= i < |options| && options[i] == o;
    var j :| 0 <= j < |options| && options[j] == d.option;
    assert i == j by {
      if i < j {} else if j < i {}
    }
  }

  /** No flag is listed twice. */
  predicate ListedOnce(r: seq<ParameterDescription>) {
    forall i, j :: 0 <= i < j < |r| ==> r[i].option.optionName != r[j].option.optionName
  }

  /** An entry whose flag the rest does not list keeps the list free of
      repeats. */
  lemma {:induction false} ConsListedOnce(x: ParameterDescription, rest: seq<ParameterDescription>)
    requires ListedOnce(rest)
    requires forall d :: d in rest ==> d.option.optionName != x.option.optionName
    ensures ListedOnce([x] + rest)
  {
    var r := [x] + rest;
    forall i, j | 0 <= i < j < |r| ensures r[i].option.optionName != r[j].option.optionName {
      assert r[j] == rest[j - 1] && rest[j - 1] in rest;
      if i > 0 {
        assert r[i] == rest[i - 1];
      }
    }
  }

  lemma {:induction false} CommentTailDistinct(comments: seq<CommentInfo>)
    requires |comments| > 0 && DistinctCommentFlags(comments)
    ensures DistinctCommentFlags(comments[1..])
    ensures forall k :: 1 <= k < |comments| ==> comments[k].optionName != comments[0].optionName
  {
    var tail := comments[1..];
    forall i, j | 0 <= i < j < |tail| ensures tail[i].optionName != tail[j].optionName {
      assert tail[i] == comments[i + 1] && tail[j] == comments[j + 1];
    }
  }

  lemma {:induction false} OptionTailDistinct(options: seq<OptionInfo>)
    requires |options| > 0 && DistinctFlags(options)
    ensures DistinctFlags(options[1..])
    ensures forall k :: 1 <= k < |options| ==> options[k].optionName != options[0].optionName
  {
    var tail := options[1..];
    forall i, j | 0 <= i < j < |tail| ensures tail[i].optionName != tail[j].optionName {
      assert tail[i] == options[i + 1] && tail[j] == options[j + 1];
    }
  }

  lemma {:induction false} CommentedDistinct(options: seq<OptionInfo>, comments: seq<CommentInfo>)
    requires DistinctCommentFlags(comments)
    ensures ListedOnce(Commented(options, comments))
  {
    if |comments| > 0 {
      var tail := comments[1..];
      CommentTailDistinct(comments);
      CommentedDistinct(options, tail);
      var rest := Commented(options, tail);
      forall d | d in rest ensures d.option.optionName != comments[0].optionName {
        var k :| 0 <= k < |tail| && tail[k] == d.comment.value;
        assert tail[k] == comments[k + 1];
      }
      match FirstNamed(options, comments[0].optionName)
      case None =>
      case Some(o) =>
        ConsListedOnce(ParameterDescription(o, Some(comments[0])), rest);
    }
  }

  lemma {:induction false} UncommentedDistinct(options: seq<OptionInfo>, added: set<string>)
    requires DistinctFlags(options)
    ensures ListedOnce(Uncommented(options, added))
  {
    if |options| > 0 {
      var tail := options[1..];
      OptionTailDistinct(options);
      UncommentedDistinct(tail, added);
      var rest := Uncommented(tail, added);
      forall d | d in rest ensures d.option.optionName != options[0].optionName {
        var k :| 0 <= k < |tail| && tail[k] == d.option;
        assert tail[k] == options[k + 1];
      }
      if options[0].optionName !in added {
        ConsListedOnce(ParameterDescription(options[0], None), rest);
      }
    }
  }

  /** With pairwise different flags among the options and among the
      comments, no flag is listed twice: together with
      `EveryOptionItselfListed`, each option is listed exactly once. */
  lemma {:induction false} NoFlagListedTwice(options: seq<OptionInfo>, comments: seq<CommentInfo>)
    requires DistinctFlags(options) && DistinctCommentFlags(comments)
    ensures ListedOnce(Create(options, comments))
  {
    var a := Commented(options, comments);
    var added := Added(options, comments);
    var b := Uncommented(options, added);
    CommentedDistinct(options, comments);
    UncommentedDistinct(options, added);
    forall d | d in a ensures d.option.optionName in added {
      assert d.comment.value in comments && FirstNamed(options, d.comment.value.optionName).Some?;
    }
    var r := a + b;
    forall i, j | 0 <= i < j < |r| ensures r[i].option.optionName != r[j].option.optionName {
      if j < |a| {
        assert r[i] == a[i] && r[j] == a[j];
        assert a[i].option.optionName != a[j].option.optionName;
      } else if i < |a| {
        assert r[i] == a[i] && a[i] in a;
        assert r[j] == b[j - |a|] && b[j - |a|] in b;
      } else {
        assert r[i] == b[i - |a|] && r[j] == b[j - |a|];
        assert b[i - |a|].option.optionName != b[j - |a|].option.optionName;
      }
    }
  }

  /** All commented entries come before all uncommented ones. */
  lemma {:induction false} CommentedFirst(options: seq<OptionInfo>, comments: seq<CommentInfo>)
    ensures var r := Create(options, comments);
            forall i, j :: 0 <= i < j < |r| && r[i].comment.None? ==> r[j].comment.None?
  {
    var a := Commented(options, comments);
    var b := Uncommented(options, Added(options, comments));
    var r := a + b;
    forall i, j | 0 <= i < j < |r| && r[i].comment.None? ensures r[j].comment.None? {
      assert |a| <= i;
      assert r[j] == b[j - |a|] && b[j - |a|] in b;
    }
  }

  /** A flag named by two comments is listed twice: the list does not
      merge repeated `<param>` lines. */
  lemma {:induction false} RepeatedCommentListedTwice(options: seq<OptionInfo>, c: CommentInfo, c2: CommentInfo)
    requires FirstNamed(options, c.optionName).Some? && c2.optionName == c.optionName
    ensures var r := Create(options, [c, c2]);
            |r| >= 2 && r[0].option == r[1].option
  {
    var o := FirstNamed(options, c.optionName).value;
    assert [c, c2][1..] == [c2];
    assert [c2][1..] == [];
    assert Commented(options, [c2]) == [ParameterDescription(o, Some(c2))];
    assert Commented(options, [c, c2]) == [ParameterDescription(o, Some(c)), ParameterDescription(o, Some(c2))];
  }
  /** The first loop visits the comments in order: the commented half of
      `a + b` is that of `a` followed by that of `b`. */
  lemma {:induction false} CommentedConcat(options: seq<OptionInfo>, a: seq<CommentInfo>, b: seq<CommentInfo>)
    ensures Commented(options, a + b) == Commented(options, a) + Commented(options, b)
    decreases |a|
  {
    if |a| > 0 {
      assert (a + b)[0] == a[0] && (a + b)[1..] == a[1..] + b;
      CommentedConcat(options, a[1..], b);
    } else {
      assert a + b == b;
    }
  }

  /** The second loop visits the options in declaration order. */
  lemma {:induction false} UncommentedConcat(a: seq<OptionInfo>, b: seq<OptionInfo>, added: set<string>)
    ensures Uncommented(a + b, added) == Uncommented(a, added) + Uncommented(b, added)
    decreases |a|
  {
    if |a| > 0 {
      assert (a + b)[0] == a[0] && (a + b)[1..] == a[1..] + b;
      UncommentedConcat(a[1..], b, added);
    } else {
      assert a + b == b;
    }
  }

  /** A sequence of flags without repeats. */
  predicate NoRepeats(flags: seq<string>) {
    forall i, j :: 0 <= i < j < |flags| ==> flags[i] != flags[j]
  }

  /** A sequence without repeats has as many elements as its set. */
  lemma {:induction false} NoRepeatsCardinality(flags: seq<string>)
    requires NoRepeats(flags)
    ensures |set f | f in flags| == |flags|
    decreases |flags|
  {
    if |flags| > 0 {
      var tail := flags[1..];
      assert NoRepeats(tail) by {
        forall i, j | 0 <= i < j < |tail| ensures tail[i] != tail[j] {
          assert tail[i] == flags[i + 1] && tail[j] == flags[j + 1];
        }
      }
      NoRepeatsCardinality(tail);
      assert flags[0] !in tail by {
        forall k | 0 <= k < |tail| ensures tail[k] != flags[0] {
          assert tail[k] == flags[k + 1];
        }
      }
      assert (set f | f in flags) == {flags[0]} + (set f | f in tail) by {
        assert flags == [flags[0]] + tail;
      }
    }
  }

  /** The flags of the listed options, in list order. */
  function ListedFlags(r: seq<ParameterDescription>): (flags: seq<string>)
    ensures |flags| == |r| && forall i :: 0 <= i < |r| ==> flags[i] == r[i].option.optionName
  {
    seq(|r|, i requires 0 <= i < |r| => r[i].option.optionName)
  }

  /** The flags of the options, in declaration order. */
  function DeclaredFlags(options: seq<OptionInfo>): (flags: seq<string>)
    ensures |flags| == |options| && forall i :: 0 <= i < |options| ==> flags[i] == options[i].optionName
  {
    seq(|options|, i requires 0 <= i < |options| => options[i].optionName)
  }

  /** The list names exactly the flags the options declare. */
  lemma {:induction false} SameFlags(options: seq<OptionInfo>, comments: seq<CommentInfo>)
    ensures (set f | f in ListedFlags(Create(options, comments))) == (set f | f in DeclaredFlags(options))
  {
    var r := Create(options, comments);
    var listed, declared := ListedFlags(r), DeclaredFlags(options);
    forall f | f in listed ensures f in declared {
      var i :| 0 <= i < |r| && listed[i] == f;
      assert r[i] in r;
      var k :| 0 <= k < |options| && options[k] == r[i].option;
      assert declared[k] == f;
    }
    forall f | f in declared ensures f in listed {
      var k :| 0 <= k < |options| && declared[k] == f;
      EveryOptionListed(options, comments, options[k]);
      var d :| d in r && d.option.optionName == options[k].optionName;
      var i :| 0 <= i < |r| && r[i] == d;
      assert listed[i] == f;
    }
  }

  /** With pairwise different flags among the options and among the
      comments, the list has exactly one entry per option. */
  lemma {:induction false} CreateLength(options: seq<OptionInfo>, comments: seq<CommentInfo>)
    requires DistinctFlags(options) && DistinctCommentFlags(comments)
    ensures |Create(options, comments)| == |options|
  {
    var r := Create(options, comments);
    var listed, declared := ListedFlags(r), DeclaredFlags(options);
    assert NoRepeats(listed) by {
      NoFlagListedTwice(options, comments);
    }
    assert NoRepeats(declared);
    NoRepeatsCardinality(listed);
    NoRepeatsCardinality(declared);
    SameFlags(options, comments);
  }
}

=== FILE: extensions.dfy ===
/** `Extensions` (CLIParserSourceGenerator/Extensions.cs): dropping the
    nulls of a sequence, and reading the declared return type of the user's
    `Main` into the four shapes the generator supports. */
module Extensions {
  import opened Wrappers
  import opened Text

  /** `MainReturnTypeEnum`. The four named members, or any other value of
      the enum's underlying integer (`(MainReturnTypeEnum)111`), which
      prints as that number. */
  datatype MainReturnType = Void | Int | Task | TaskInt | Undefined(value: int)

  /** The display string of the return type each named member stands for. */
  function DeclaredName(t: MainReturnType): (s: string)
    requires !t.Undefined?
  {
    match t
    case Void => "void"
    case Int => "int"
    case Task => "System.Threading.Tasks.Task"
    case TaskInt => "System.Threading.Tasks.Task<int>"
  }

  /** `MainReturnTypeEnum.ToString()`. */
  function EnumText(t: MainReturnType): string {
    match t
    case Void => "Void"
    case Int => "Int"
    case Task => "Task"
    case TaskInt => "TaskInt"
    case Undefined(n) => IntToString(n)
  }

  function UnexpectedReturnType(text: string): string {
    "Unexpected return type '" + text + "'."
  }

  /** `ToMainReturnTypeEnum`: an exact, case-sensitive match of the display
      string; anything else is an `ArgumentException` naming the string. */
  function ToMainReturnTypeEnum(returnType: string): (r: Result<MainReturnType, string>)
    ensures r.Ok? ==> !r.value.Undefined? && DeclaredName(r.value) == returnType
    ensures r.Err? ==> r.error == UnexpectedReturnType(returnType)
  {
    if returnType == "void" then Ok(Void)
    else if returnType == "int" then Ok(Int)
    else if returnType == "System.Threading.Tasks.Task" then Ok(Task)
    else if returnType == "System.Threading.Tasks.Task<int>" then Ok(TaskInt)
    else Err(UnexpectedReturnType(returnType))
  }

  /** Every named member is recognised from its display string, so together
      with the contract of `ToMainReturnTypeEnum` the two are inverse on the
      four supported return types. */
  lemma {:induction false} ReturnTypeRoundTrip(t: MainReturnType)
    requires !t.Undefined?
    ensures ToMainReturnTypeEnum(DeclaredName(t)) == Ok(t)
  {
  }

  /** The match is exact: a string is accepted exactly when it is one of
      the four display strings (so `"Void"`, `"Task<int>"` or `"Int32"` are
      rejected). */
  lemma {:induction false} AcceptedExactly(returnType: string)
    ensures ToMainReturnTypeEnum(returnType).Ok? <==>
              exists t: MainReturnType :: !t.Undefined? && DeclaredName(t) == returnType
  {
    if exists t: MainReturnType :: !t.Undefined? && DeclaredName(t) == returnType {
      var t: MainReturnType :| !t.Undefined? && DeclaredName(t) == returnType;
      ReturnTypeRoundTrip(t);
    }
  }

  /** `WhereNotNull`: the present items, in order. */
  function WhereNotNull<T(==)>(source: seq<Option<T>>): (r: seq<T>)
    ensures |r| <= |source|
    ensures forall k :: 0 <= k < |r| ==> Some(r[k]) in source
    ensures forall k :: 0 <= k < |source| && source[k].Some? ==> source[k].value in r
  {
    if |source| == 0 then []
    else
      var rest := WhereNotNull(source[1..]);
      assert forall k :: 1 <= k < |source| ==> source[k] == source[1..][k - 1];
      match source[0]
      case None => rest
      case Some(x) => [x] + rest
  }

  /** Filtering distributes over concatenation, so the relative order of the
      present items is kept. */
  lemma {:induction false} WhereNotNullConcat<T>(a: seq<Option<T>>, b: seq<Option<T>>)
    ensures WhereNotNull(a + b) == WhereNotNull(a) + WhereNotNull(b)
  {
    if |a| == 0 {
      assert a + b == b;
    } else {
      assert (a + b)[1..] == a[1..] + b;
      WhereNotNullConcat(a[1..], b);
    }
  }

  /** How many items are present. */
  function PresentCount<T>(source: seq<Option<T>>): nat {
    if |source| == 0 then 0 else (if source[0].Some? then 1 else 0) + PresentCount(source[1..])
  }

  /** One item per present entry. */
  lemma {:induction false} WhereNotNullCount<T>(source: seq<Option<T>>)
    ensures |WhereNotNull(source)| == PresentCount(source)
  {
    if |source| > 0 {
      WhereNotNullCount(source[1..]);
    }
  }

  /** Nothing is dropped or reordered when every entry is present. */
  lemma {:induction false} WhereNotNullAllPresent<T>(source: seq<Option<T>>)
    requires forall k :: 0 <= k < |source| ==> source[k].Some?
    ensures |WhereNotNull(source)| == |source|
    ensures forall k :: 0 <= k < |source| ==> WhereNotNull(source)[k] == source[k].value
  {
    if |source| > 0 {
      var tail := source[1..];
      assert forall k :: 0 <= k < |tail| ==> tail[k] == source[k + 1];
      WhereNotNullAllPresent(tail);
    }
  }
}

=== FILE: file_generator.dfy ===
/** `FileGenerator` (PitayaSourceGenerator/FileGenerator.cs): the one
    generated file — a banner, `#nullable enable`, the `using` directives,
    then the program, parser and options classes inside the user's
    namespace. */
module Files {
  import opened Text
  import Options

  const Banner := "// auto-generated by SampleGenerator"
  const NullableDirective := "#nullable enable"
  const BaseNamespaces := ["System", "System.Collections.Generic"]

  /** No namespace is repeated. */
  predicate Distinct(namespaces: seq<string>) {
    forall i, j :: 0 <= i < j < |namespaces| ==> namespaces[i] != namespaces[j]
  }

  /** `HashSet<string>.Add`. A set that has only ever been added to
      enumerates in insertion order, so it is kept here as the sequence of
      first insertions. */
  function AddNamespace(namespaces: seq<string>, n: string): (r: seq<string>)
    ensures forall m :: m in r <==> m in namespaces || m == n
    ensures Distinct(namespaces) ==> Distinct(r)
    ensures |r| >= |namespaces| && r[..|namespaces|] == namespaces
    ensures |r| == (if n in namespaces then |namespaces| else |namespaces| + 1)
  {
    if n in namespaces then namespaces else namespaces + [n]
  }

  /** An option whose values are collected into a list: it needs
      `System.Linq` for `ToArray` and the namespace of its element type. */
  predicate NeedsElementNamespace(o: Options.OptionInfo) {
    o.isArrayLike && o.elementType.Some?
  }

  /** The `foreach` over the options, from the set built so far. */
  function CollectNamespaces(namespaces: seq<string>, options: seq<Options.OptionInfo>): (r: seq<string>)
    ensures |r| >= |namespaces| && r[..|namespaces|] == namespaces
    decreases |options|
  {
    if |options| == 0 then namespaces
    else
      var o := options[0];
      var next := if NeedsElementNamespace(o)
                  then AddNamespace(AddNamespace(namespaces, "System.Linq"), o.elementType.value.containingNamespace)
                  else namespaces;
      var r := CollectNamespaces(next, options[1..]);
      assert r[..|namespaces|] == r[..|next|][..|namespaces|];
      r
  }

  /** The namespaces of the `using` directives, in order. */
  function Namespaces(options: seq<Options.OptionInfo>): seq<string> {
    CollectNamespaces(BaseNamespaces, options)
  }

  /** `namespaces.Select(n => $"using {n};")`. */
  function UsingLines(namespaces: seq<string>): (r: seq<string>)
    ensures |r| == |namespaces|
    ensures forall k :: 0 <= k < |r| ==> r[k] == "using " + namespaces[k] + ";"
  {
    seq(|namespaces|, k requires 0 <= k < |namespaces| => "using " + namespaces[k] + ";")
  }

  /** `FileGenerator.GenerateSource`: the interpolated raw string literal,
      its pieces grouped from the right. */
  function GenerateSource(namespace: string, programSource: string, parserSource: string,
                          optionsSource: string, options: seq<Options.OptionInfo>): string
  {
    var usings := Join("\n", UsingLines(Namespaces(options)));
    Banner + ("\n" + (NullableDirective + ("\n" + (usings + ("\n" + NamespaceBlock(namespace, programSource, parserSource, optionsSource))))))
  }

  /** The literal from the blank line after the `using` directives to the
      closing brace. */
  function NamespaceBlock(namespace: string, programSource: string, parserSource: string, optionsSource: string): string {
    "" + ("\n" + (("namespace " + namespace) + ("\n" + ("{" + ("\n" + (programSource + ("\n" + ("" + ("\n"
    + (parserSource + ("\n" + ("" + ("\n" + (optionsSource + ("\n" + "}")))))))))))))))
  }

  /** The same file written line by line, as the raw string literal lays it
      out. */
  function FileLines(namespace: string, programSource: string, parserSource: string,
                     optionsSource: string, options: seq<Options.OptionInfo>): seq<string>
  {
    [Banner, NullableDirective] + UsingLines(Namespaces(options))
    + ["", "namespace " + namespace, "{", programSource, "", parserSource, "", optionsSource, "}"]
  }

  // ---------------------------------------------------------------------
  // Properties
  // ---------------------------------------------------------------------

  /** The namespaces collected from `options`: the starting ones, plus
      `System.Linq` and the element type's namespace of every option that
      collects into a list. */
  predicate Collected(start: seq<string>, options: seq<Options.OptionInfo>, m: string) {
    || m in start
    || exists k :: 0 <= k < |options| && NeedsElementNamespace(options[k])
                   && (m == "System.Linq" || m == options[k].elementType.value.containingNamespace)
  }

  /** Each pass of the loop keeps the set free of repeats and adds exactly
      the namespaces the option needs. */
  lemma {:induction false} CollectNamespacesContents(namespaces: seq<string>, options: seq<Options.OptionInfo>)
    requires Distinct(namespaces)
    ensures Distinct(CollectNamespaces(namespaces, options))
    ensures forall m :: m in CollectNamespaces(namespaces, options) <==> Collected(namespaces, options, m)
    decreases |options|
  {
    if |options| > 0 {
      var o := options[0];
      var next := if NeedsElementNamespace(o)
                  then AddNamespace(AddNamespace(namespaces, "System.Linq"), o.elementType.value.containingNamespace)
                  else namespaces;
      CollectNamespacesContents(next, options[1..]);
      forall m ensures Collected(next, options[1..], m) <==> Collected(namespaces, options, m) {
        CollectedStep(namespaces, options, next, m);
      }
    }
  }

  /** One pass of the loop moves the first option's namespaces from the
      options still to visit into the set built so far. */
  lemma {:induction false} CollectedStep(namespaces: seq<string>, options: seq<Options.OptionInfo>, next: seq<string>, m: string)
    requires |options| > 0
    requires forall n :: n in next <==>
               (|| n in namespaces
                || (NeedsElementNamespace(options[0])
                    && (n == "System.Linq" || n == options[0].elementType.value.containingNamespace)))
    ensures Collected(next, options[1..], m) <==> Collected(namespaces, options, m)
  {
    if Collected(namespaces, options, m) && m !in namespaces {
      var k :| 0 <= k < |options| && NeedsElementNamespace(options[k])
               && (m == "System.Linq" || m == options[k].elementType.value.containingNamespace);
      if k > 0 {
        assert options[1..][k - 1] == options[k];
      }
    }
    if Collected(next, options[1..], m) && m !in next {
      var k :| 0 <= k < |options[1..]| && NeedsElementNamespace(options[1..][k])
               && (m == "System.Linq" || m == options[1..][k].elementType.value.containingNamespace);
      assert options[1..][k] == options[k + 1];
    }
  }

  /** The `using` directives: `System` and `System.Collections.Generic`
      first, never a namespace twice, and beyond those exactly `System.Linq`
      and the element namespaces when some option collects into a list. */
  lemma {:induction false} NamespacesContents(options: seq<Options.OptionInfo>)
    ensures var ns := Namespaces(options);
            && |ns| >= 2 && ns[0] == "System" && ns[1] == "System.Collections.Generic"
            && Distinct(ns)
            && (forall m :: m in ns <==> Collected(BaseNamespaces, options, m))
  {
    CollectNamespacesContents(BaseNamespaces, options);
    assert Namespaces(options)[..2] == BaseNamespaces;
  }

  /** `System.Linq` is imported exactly when some option collects into a
      list. */
  lemma {:induction false} LinqWhenCollecting(options: seq<Options.OptionInfo>)
    ensures "System.Linq" in Namespaces(options) <==>
              exists k :: 0 <= k < |options| && NeedsElementNamespace(options[k])
  {
    NamespacesContents(options);
  }

  /** The literal is the file's lines joined by "\n": the banner, the
      nullable directive, one `using` line per namespace, a blank line, the
      namespace block holding the three classes separated by blank lines. */
  lemma {:induction false} GenerateSourceLines(namespace: string, programSource: string, parserSource: string,
                            optionsSource: string, options: seq<Options.OptionInfo>)
    ensures GenerateSource(namespace, programSource, parserSource, optionsSource, options)
            == Join("\n", FileLines(namespace, programSource, parserSource, optionsSource, options))
  {
    var usings := UsingLines(Namespaces(options));
    NamespacesContents(options);
    var tail := ["", "namespace " + namespace, "{", programSource, "", parserSource, "", optionsSource, "}"];
    JoinNine("\n", "", "namespace " + namespace, "{", programSource, "", parserSource, "", optionsSource, "}");
    FileJoin("\n", Banner, NullableDirective, usings, tail,
             NamespaceBlock(namespace, programSource, parserSource, optionsSource));
  }

  /** Joining the two header lines, the `using` lines and the rest. */
  lemma {:induction false} FileJoin(sep: string, a: string, b: string, usings: seq<string>, tail: seq<string>, block: string)
    requires |usings| > 0 && |tail| > 0 && block == Join(sep, tail)
    ensures Join(sep, [a, b] + usings + tail) == a + (sep + (b + (sep + (Join(sep, usings) + (sep + block)))))
  {
    var u := Join(sep, usings);
    JoinConcat(sep, [a, b] + usings, tail);
    JoinConcat(sep, [a, b], usings);
    JoinCons(sep, a, [b]);
    var h := Join(sep, [a, b] + usings);
    assert h == a + (sep + (b + (sep + u))) by {
      Associate(a + sep + b, sep, u);
      Associate(a + sep, b, sep + u);
      Associate(a, sep, b + (sep + u));
    }
    Associate(h, sep, block);
    Associate(a, sep + (b + (sep + u)), sep + block);
    Associate(sep, b + (sep + u), sep + block);
    Associate(b, sep + u, sep + block);
    Associate(sep, u, sep + block);
  }

  lemma {:induction false} Associate(x: string, y: string, z: string)
    ensures x + y + z == x + (y + z)
  {
  }

  lemma {:induction false} JoinCons(sep: string, x: string, rest: seq<string>)
    requires |rest| > 0
    ensures Join(sep, [x] + rest) == x + sep + Join(sep, rest)
  {
    assert ([x] + rest)[1..] == rest;
  }

  /** A list of nine parts joined, written out right-nested. */
  lemma {:induction false} JoinNine(sep: string, a0: string, a1: string, a2: string, a3: string, a4: string,
                 a5: string, a6: string, a7: string, a8: string)
    ensures Join(sep, [a0, a1, a2, a3, a4, a5, a6, a7, a8])
            == a0 + (sep + (a1 + (sep + (a2 + (sep + (a3 + (sep + (a4 + (sep + (a5 + (sep + (a6 + (sep + (a7 + (sep + a8)))))))))))))))
  {
    var j7 := a7 + (sep + a8);
    assert Join(sep, [a7, a8]) == j7 by { JoinPrepend(sep, a7, [a8], a8); }
    var j6 := a6 + (sep + j7);
    assert Join(sep, [a6, a7, a8]) == j6 by { JoinPrepend(sep, a6, [a7, a8], j7); }
    var j5 := a5 + (sep + j6);
    assert Join(sep, [a5, a6, a7, a8]) == j5 by { JoinPrepend(sep, a5, [a6, a7, a8], j6); }
    var j4 := a4 + (sep + j5);
    assert Join(sep, [a4, a5, a6, a7, a8]) == j4 by { JoinPrepend(sep, a4, [a5, a6, a7, a8], j5); }
    var j3 := a3 + (sep + j4);
    assert Join(sep, [a3, a4, a5, a6, a7, a8]) == j3 by { JoinPrepend(sep, a3, [a4, a5, a6, a7, a8], j4); }
    var j2 := a2 + (sep + j3);
    assert Join(sep, [a2, a3, a4, a5, a6, a7, a8]) == j2 by { JoinPrepend(sep, a2, [a3, a4, a5, a6, a7, a8], j3); }
    var j1 := a1 + (sep + j2);
    assert Join(sep, [a1, a2, a3, a4, a5, a6, a7, a8]) == j1 by { JoinPrepend(sep, a1, [a2, a3, a4, a5, a6, a7, a8], j2); }
    JoinPrepend(sep, a0, [a1, a2, a3, a4, a5, a6, a7, a8], j1);
  }

  /** One more part in front of a joined list. */
  lemma {:induction false} JoinPrepend(sep: string, x: string, rest: seq<string>, joined: string)
    requires |rest| > 0 && Join(sep, rest) == joined
    ensures Join(sep, [x] + rest) == x + (sep + joined)
  {
    JoinCons(sep, x, rest);
    Associate(x, sep, joined);
  }

  /** With no options the file imports exactly `System` and
      `System.Collections.Generic`, after the nullable directive. */
  lemma {:induction false} NoOptionsUsings(namespace: string, programSource: string, parserSource: string, optionsSource: string)
    ensures FileLines(namespace, programSource, parserSource, optionsSource, [])[..4]
            == [Banner, NullableDirective, "using System;", "using System.Collections.Generic;"]
  {
    var usings := UsingLines(Namespaces([]));
    assert Namespaces([]) == BaseNamespaces;
    assert usings[0] == "using System;" by {
      assert usings[0] == "using " + "System" + ";";
    }
    assert usings[1] == "using System.Collections.Generic;" by {
      assert usings[1] == "using " + "System.Collections.Generic" + ";";
      UsingGeneric();
    }
    var lines := FileLines(namespace, programSource, parserSource, optionsSource, []);
    assert lines[..4] == [Banner, NullableDirective, usings[0], usings[1]] by {
      assert lines[2] == usings[0] && lines[3] == usings[1];
    }
  }

  lemma UsingGeneric()
    ensures "using " + "System.Collections.Generic" + ";" == "using System.Collections.Generic;"
  {
  }
}

=== FILE: help_text.dfy ===
/** `HelpTextGenerator.Generate` (PitayaSourceGenerator/HelpTextGenerator.cs):
    the text printed for `-h`. An optional description block, the usage
    line, then one row per described option and a final row for the help
    flags; the descriptions of all commented rows start in one column, two
    spaces after the widest row text. */
module Help {
  import opened Wrappers
  import opened Text
  import opened Options
  import opened Comments
  import opened Descriptions

  /** A row of the options table: its text and its optional description. */
  datatype Row = Row(text: string, comment: Option<string>)

  const HelpFlagsRow := Row("  -?, -h, --help", Some("Show help and usage information"))

  /** The row of one described option: two spaces and the flag, then the
      type in angle brackets unless the type is `bool`. */
  function OptionRow(d: ParameterDescription): (r: Row)
    ensures StartsWith(r.text, "  " + d.option.optionName)
    ensures r.text == "  " + d.option.optionName <==> TypeDisplay(d.option) == "bool"
    ensures TypeDisplay(d.option) != "bool" ==>
              r.text[|d.option.optionName| + 2..] == " <" + TypeDisplay(d.option) + ">"
    ensures r.comment.Some? <==> d.comment.Some?
    ensures r.comment.Some? ==> r.comment.value == d.comment.value.comment
  {
    var flag := "  " + d.option.optionName;
    var text := if TypeDisplay(d.option) != "bool" then flag + " <" + TypeDisplay(d.option) + ">" else flag;
    assert text[..|flag|] == flag;
    Row(text, if d.comment.Some? then Some(d.comment.value.comment) else None)
  }

  /** One row per description, in order, then the help-flags row. */
  function Rows(descriptions: seq<ParameterDescription>): (r: seq<Row>)
    ensures |r| == |descriptions| + 1 && r[|descriptions|] == HelpFlagsRow
    ensures forall k :: 0 <= k < |descriptions| ==> r[k] == OptionRow(descriptions[k])
  {
    seq(|descriptions|, k requires 0 <= k < |descriptions| => OptionRow(descriptions[k])) + [HelpFlagsRow]
  }

  /** `lines.Max(l => l.optionText.Length)`. */
  function MaxWidth(rows: seq<Row>): (w: nat)
    requires |rows| > 0
    ensures forall k :: 0 <= k < |rows| ==> |rows[k].text| <= w
    ensures exists k :: 0 <= k < |rows| && |rows[k].text| == w
  {
    if |rows| == 1 then |rows[0].text|
    else
      var m := MaxWidth(rows[1..]);
      assert forall k :: 1 <= k < |rows| ==> rows[k] == rows[1..][k - 1];
      if |rows[0].text| >= m then |rows[0].text| else m
  }

  /** A row as printed: a commented row padded to `width` and followed by two
      spaces and the comment; an uncommented row as is. */
  function RenderRow(row: Row, width: nat): string {
    match row.comment
    case None => row.text
    case Some(c) => PadRight(row.text, width) + "  " + c
  }

  /** The lines before the options table. */
  function HeaderLines(assemblyName: string, description: string): (r: seq<string>)
    ensures |r| == if Trim(description) == "" then 4 else 7
    ensures r[|r| - 1] == "Options:"
    ensures r[|r| - 4] == "Usage:"
    ensures r[|r| - 3] == "  " + assemblyName + " [options]"
    ensures r[0] == "Description:" <==> Trim(description) != ""
    ensures Trim(description) != "" ==> r[1] == "  " + description && r[2] == ""
  {
    var block := if Trim(description) != "" then ["Description:", "  " + description, ""] else [];
    block + ["Usage:", "  " + assemblyName + " [options]", "", "Options:"]
  }

  /** All lines of the help text. */
  function Lines(assemblyName: string, description: string, descriptions: seq<ParameterDescription>): seq<string> {
    var rows := Rows(descriptions);
    var width := MaxWidth(rows);
    HeaderLines(assemblyName, description) + seq(|rows|, k requires 0 <= k < |rows| => RenderRow(rows[k], width))
  }

  /** `StringBuilder.AppendLine` of each line in turn. */
  function Unlines(lines: seq<string>): (r: string)
    ensures |lines| > 0 ==> |r| > 0 && r[|r| - 1] == '\n'
  {
    if |lines| == 0 then "" else lines[0] + "\n" + Unlines(lines[1..])
  }

  /** `HelpTextGenerator.Generate`, with the descriptions the constructor
      builds from the options and comments. */
  function Generate(assemblyName: string, description: string,
                    options: seq<OptionInfo>, comments: seq<CommentInfo>): (r: string)
    ensures |r| > 0 && r[|r| - 1] == '\n'
  {
    var lines := Lines(assemblyName, description, Descriptions.Create(options, comments));
    assert |lines| > 0;
    Unlines(lines)
  }

  // ---------------------------------------------------------------------
  // Properties
  // ---------------------------------------------------------------------

  lemma {:induction false} UnlinesConcat(a: seq<string>, b: seq<string>)
    ensures Unlines(a + b) == Unlines(a) + Unlines(b)
  {
    if |a| > 0 {
      assert (a + b)[1..] == a[1..] + b;
      UnlinesConcat(a[1..], b);
    } else {
      assert a + b == b;
    }
  }

  /** The help text is the header, then one line per options-table row,
      the help-flags row last. */
  lemma {:induction false} LinesShape(assemblyName: string, description: string, descriptions: seq<ParameterDescription>)
    ensures var lines := Lines(assemblyName, description, descriptions);
            var h := |HeaderLines(assemblyName, description)|;
            var rows := Rows(descriptions);
            && |lines| == h + |descriptions| + 1
            && lines[..h] == HeaderLines(assemblyName, description)
            && (forall k :: 0 <= k < |rows| ==> lines[h + k] == RenderRow(rows[k], MaxWidth(rows)))
            && rows[|rows| - 1] == HelpFlagsRow
  {
  }

  /** Every row text fits in the table width, and the help-flags row sets a
      minimum of 16 columns. */
  lemma {:induction false} WidthBounds(descriptions: seq<ParameterDescription>)
    ensures var w := MaxWidth(Rows(descriptions));
            && w >= 16
            && forall k :: 0 <= k < |descriptions| ==> |OptionRow(descriptions[k]).text| <= w
  {
    var rows := Rows(descriptions);
    assert rows[|descriptions|] == HelpFlagsRow;
    forall k | 0 <= k < |descriptions| ensures |OptionRow(descriptions[k]).text| <= MaxWidth(rows) {
      assert rows[k] == OptionRow(descriptions[k]);
    }
  }

  /** Alignment: each commented row prints its text, spaces up to the table
      width, two spaces, then its comment — so every comment starts in the
      same column, `width + 2`. An uncommented row prints its text alone. */
  lemma {:induction false} RowAlignment(rows: seq<Row>, k: nat)
    requires 0 <= k < |rows|
    ensures var w := MaxWidth(rows);
            var line := RenderRow(rows[k], w);
            match rows[k].comment
            case None => line == rows[k].text
            case Some(c) =>
              && |line| == w + 2 + |c|
              && line[..|rows[k].text|] == rows[k].text
              && (forall i :: |rows[k].text| <= i < w + 2 ==> line[i] == ' ')
              && line[w + 2..] == c
  {
    var w := MaxWidth(rows);
    var row := rows[k];
    if row.comment.Some? {
      var c := row.comment.value;
      var line := RenderRow(row, w);
      var padded := PadRight(row.text, w);
      assert |padded| == w;
      assert line == padded + "  " + c;
      assert line[..|row.text|] == padded[..|row.text|];
      forall i | |row.text| <= i < w + 2 ensures line[i] == ' ' {
        if i < w {
          assert line[i] == padded[i];
        } else {
          assert line[i] == "  "[i - w];
        }
      }
      assert line[w + 2..] == c;
    }
  }

  /** The description block appears exactly when the description has
      something besides white space. */
  lemma {:induction false} DescriptionBlock(assemblyName: string, description: string, descriptions: seq<ParameterDescription>)
    ensures var lines := Lines(assemblyName, description, descriptions);
            (lines[0] == "Description:" <==> Trim(description) != "")
            && (Trim(description) != "" ==> lines[1] == "  " + description)
            && (Trim(description) == "" ==> lines[0] == "Usage:")
  {
  }

  // ---------------------------------------------------------------------
  // HelpTextGeneratorTests, line by line
  // ---------------------------------------------------------------------

  /** The rows of two `int` options named "--foo" and "--foo-bar", and the
      table width they give. */
  lemma {:induction false} FooRows(ds: seq<ParameterDescription>, first: Option<string>, second: Option<string>)
    requires |ds| == 2
    requires ds[0].option.optionName == "--foo" && ds[1].option.optionName == "--foo-bar"
    requires TypeDisplay(ds[0].option) == "int" && TypeDisplay(ds[1].option) == "int"
    requires first == (if ds[0].comment.Some? then Some(ds[0].comment.value.comment) else None)
    requires second == (if ds[1].comment.Some? then Some(ds[1].comment.value.comment) else None)
    ensures Rows(ds) == [Row("  --foo <int>", first), Row("  --foo-bar <int>", second), HelpFlagsRow]
    ensures MaxWidth(Rows(ds)) == 17
  {
    assert "  " + "--foo" + " <" + "int" + ">" == "  --foo <int>";
    assert "  " + "--foo-bar" + " <" + "int" + ">" == "  --foo-bar <int>";
    var rows := Rows(ds);
    assert rows[1..][1..] == [HelpFlagsRow];
  }

  /** The help-flags row in a table 17 columns wide. */
  lemma HelpFlagsLine()
    ensures RenderRow(HelpFlagsRow, 17) == "  -?, -h, --help   Show help and usage information"
  {
    var text, c := "  -?, -h, --help", "Show help and usage information";
    assert HelpFlagsRow == Row(text, Some(c));
    assert |text| == 16;
    assert PadRight(text, 17) == text + [' '];
    assert text + [' '] + "  " + c == text + "   " + c;
    HelpFlagsLiteral(text, c);
  }

  lemma HelpFlagsLiteral(text: string, c: string)
    requires text == "  -?, -h, --help" && c == "Show help and usage information"
    ensures text + "   " + c == "  -?, -h, --help   Show help and usage information"
  {
  }

  /** With no comments, every option is listed uncommented. */
  lemma {:induction false} TwoUncommented(foo: OptionInfo, fooBar: OptionInfo)
    ensures Descriptions.Create([foo, fooBar], []) ==
            [ParameterDescription(foo, None), ParameterDescription(fooBar, None)]
  {
    var options := [foo, fooBar];
    assert Added(options, []) == {};
    assert Commented(options, []) == [];
    assert Uncommented(options[1..][1..], {}) == [];
    assert Uncommented(options[1..], {}) == [ParameterDescription(fooBar, None)];
  }

  /** Two comments naming the two options, in order, list each option once
      with its comment. */
  lemma {:induction false} TwoCommented(foo: OptionInfo, fooBar: OptionInfo, c1: CommentInfo, c2: CommentInfo)
    requires foo.optionName == c1.optionName && fooBar.optionName == c2.optionName
    requires foo.optionName != fooBar.optionName
    ensures Descriptions.Create([foo, fooBar], [c1, c2]) ==
            [ParameterDescription(foo, Some(c1)), ParameterDescription(fooBar, Some(c2))]
  {
    var options, comments := [foo, fooBar], [c1, c2];
    assert FirstNamed(options, c1.optionName) == Some(foo);
    assert FirstNamed(options, c2.optionName).Some?;
    var o2 := FirstNamed(options, c2.optionName).value;
    assert Commented(options, comments[1..][1..]) == [];
    assert Commented(options, comments[1..]) == [ParameterDescription(o2, Some(c2))];
    assert Commented(options, comments) == [ParameterDescription(foo, Some(c1)), ParameterDescription(o2, Some(c2))];
    var added := Added(options, comments);
    assert c1 in comments && c2 in comments;
    assert foo.optionName in added && fooBar.optionName in added;
    assert Uncommented(options[1..][1..], added) == [];
    assert Uncommented(options[1..], added) == [];
    assert Uncommented(options, added) == [];
    assert FirstNamed(options[1..], c2.optionName) == Some(fooBar);
  }

  /** `GenerateHelpWithoutCommentsTest`: no description block, and with no
      comments the option rows are printed unpadded. */
  lemma {:induction false} WithoutCommentsExample(foo: OptionInfo, fooBar: OptionInfo)
    requires foo.optionName == "--foo" && fooBar.optionName == "--foo-bar"
    requires TypeDisplay(foo) == "int" && TypeDisplay(fooBar) == "int"
    ensures var lines := Lines("test", "", Descriptions.Create([foo, fooBar], []));
            && |lines| == 7
            && lines[..4] == ["Usage:", "  test [options]", "", "Options:"]
            && lines[4..] == ["  --foo <int>", "  --foo-bar <int>",
                              "  -?, -h, --help   Show help and usage information"]
  {
    var ds := [ParameterDescription(foo, None), ParameterDescription(fooBar, None)];
    assert Descriptions.Create([foo, fooBar], []) == ds by {
      TwoUncommented(foo, fooBar);
    }
    UncommentedFooLines(ds);
  }

  /** The lines of `GenerateHelpWithoutCommentsTest` once its descriptions
      are built. */
  lemma {:induction false} UncommentedFooLines(ds: seq<ParameterDescription>)
    requires |ds| == 2 && ds[0].comment.None? && ds[1].comment.None?
    requires ds[0].option.optionName == "--foo" && ds[1].option.optionName == "--foo-bar"
    requires TypeDisplay(ds[0].option) == "int" && TypeDisplay(ds[1].option) == "int"
    ensures var lines := Lines("test", "", ds);
            && |lines| == 7
            && lines[..4] == ["Usage:", "  test [options]", "", "Options:"]
            && lines[4..] == ["  --foo <int>", "  --foo-bar <int>",
                              "  -?, -h, --help   Show help and usage information"]
  {
    UncommentedFooTable(ds);
    TableLines("test", "", ds, 17, "  --foo <int>", "  --foo-bar <int>",
               "  -?, -h, --help   Show help and usage information");
    EmptyDescriptionHeader("");
  }

  lemma EmptyDescriptionHeader(d: string)
    requires d == ""
    ensures HeaderLines("test", d) == ["Usage:", "  test [options]", "", "Options:"]
  {
    assert Trim(d) == "";
    assert "  " + "test" + " [options]" == "  test [options]";
  }

  /** The table of `GenerateHelpWithoutCommentsTest`, row by row. */
  lemma {:induction false} UncommentedFooTable(ds: seq<ParameterDescription>)
    requires |ds| == 2 && ds[0].comment.None? && ds[1].comment.None?
    requires ds[0].option.optionName == "--foo" && ds[1].option.optionName == "--foo-bar"
    requires TypeDisplay(ds[0].option) == "int" && TypeDisplay(ds[1].option) == "int"
    ensures var rows := Rows(ds);
            && |rows| == 3 && MaxWidth(rows) == 17
            && RenderRow(rows[0], 17) == "  --foo <int>"
            && RenderRow(rows[1], 17) == "  --foo-bar <int>"
            && RenderRow(rows[2], 17) == "  -?, -h, --help   Show help and usage information"
  {
    var rows := [Row("  --foo <int>", None), Row("  --foo-bar <int>", None), HelpFlagsRow];
    assert Rows(ds) == rows && MaxWidth(rows) == 17 by {
      FooRows(ds, None, None);
    }
    HelpFlagsLine();
  }

  /** `GenerateTest`: the description block, and both comments starting in
      column 19, two spaces after the widest row text. */
  lemma {:induction false} GenerateExample(foo: OptionInfo, fooBar: OptionInfo, c1: CommentInfo, c2: CommentInfo)
    requires foo.optionName == "--foo" && fooBar.optionName == "--foo-bar"
    requires TypeDisplay(foo) == "int" && TypeDisplay(fooBar) == "int"
    requires c1 == CommentInfo("--foo", "This is a comment.")
    requires c2 == CommentInfo("--foo-bar", "This is another comment.")
    ensures var lines := Lines("test", "This is a description", Descriptions.Create([foo, fooBar], [c1, c2]));
            && |lines| == 10
            && lines[..7] == ["Description:", "  This is a description", "",
                              "Usage:", "  test [options]", "", "Options:"]
            && lines[7..] == ["  --foo <int>      This is a comment.",
                              "  --foo-bar <int>  This is another comment.",
                              "  -?, -h, --help   Show help and usage information"]
  {
    var ds := [ParameterDescription(foo, Some(c1)), ParameterDescription(fooBar, Some(c2))];
    assert Descriptions.Create([foo, fooBar], [c1, c2]) == ds by {
      TwoCommented(foo, fooBar, c1, c2);
    }
    CommentedFooLines(ds);
  }

  /** The lines of `GenerateTest` once its descriptions are built. */
  lemma {:induction false} CommentedFooLines(ds: seq<ParameterDescription>)
    requires |ds| == 2
    requires ds[0].option.optionName == "--foo" && ds[1].option.optionName == "--foo-bar"
    requires TypeDisplay(ds[0].option) == "int" && TypeDisplay(ds[1].option) == "int"
    requires ds[0].comment == Some(CommentInfo("--foo", "This is a comment."))
    requires ds[1].comment == Some(CommentInfo("--foo-bar", "This is another comment."))
    ensures var lines := Lines("test", "This is a description", ds);
            && |lines| == 10
            && lines[..7] == ["Description:", "  This is a description", "",
                              "Usage:", "  test [options]", "", "Options:"]
            && lines[7..] == ["  --foo <int>      This is a comment.",
                              "  --foo-bar <int>  This is another comment.",
                              "  -?, -h, --help   Show help and usage information"]
  {
    CommentedFooTable(ds);
    TableLines("test", "This is a description", ds, 17,
               "  --foo <int>      This is a comment.",
               "  --foo-bar <int>  This is another comment.",
               "  -?, -h, --help   Show help and usage information");
    DescriptionHeader("This is a description");
  }

  /** The table of `GenerateTest`, row by row. */
  lemma {:induction false} CommentedFooTable(ds: seq<ParameterDescription>)
    requires |ds| == 2
    requires ds[0].option.optionName == "--foo" && ds[1].option.optionName == "--foo-bar"
    requires TypeDisplay(ds[0].option) == "int" && TypeDisplay(ds[1].option) == "int"
    requires ds[0].comment == Some(CommentInfo("--foo", "This is a comment."))
    requires ds[1].comment == Some(CommentInfo("--foo-bar", "This is another comment."))
    ensures var rows := Rows(ds);
            && |rows| == 3 && MaxWidth(rows) == 17
            && RenderRow(rows[0], 17) == "  --foo <int>      This is a comment."
            && RenderRow(rows[1], 17) == "  --foo-bar <int>  This is another comment."
            && RenderRow(rows[2], 17) == "  -?, -h, --help   Show help and usage information"
  {
    var c0, c1 := "This is a comment.", "This is another comment.";
    var rows := [Row("  --foo <int>", Some(c0)), Row("  --foo-bar <int>", Some(c1)), HelpFlagsRow];
    assert Rows(ds) == rows && MaxWidth(rows) == 17 by {
      FooRows(ds, Some(c0), Some(c1));
    }
    FooCommentLine();
    FooBarCommentLine();
    HelpFlagsLine();
  }

  /** The two commented rows of `GenerateTest`, padded to 17 columns. */
  lemma FooCommentLine()
    ensures RenderRow(Row("  --foo <int>", Some("This is a comment.")), 17)
            == "  --foo <int>      This is a comment."
  {
    assert PadRight("  --foo <int>", 17) == "  --foo <int>    ";
  }

  lemma FooBarCommentLine()
    ensures RenderRow(Row("  --foo-bar <int>", Some("This is another comment.")), 17)
            == "  --foo-bar <int>  This is another comment."
  {
    assert PadRight("  --foo-bar <int>", 17) == "  --foo-bar <int>";
  }

  lemma DescriptionHeader(d: string)
    requires d == "This is a description"
    ensures HeaderLines("test", d) == ["Description:", "  This is a description", "", "Usage:", "  test [options]", "", "Options:"]
  {
    assert !IsWhiteSpace(d[0]);
    assert Trim(d) != "" by {
      assert LeadingWhiteSpace(d) == 0;
    }
    assert "  " + d == "  This is a description";
    assert "  " + "test" + " [options]" == "  test [options]";
  }

  /** The lines of a two-option table, given its three printed rows. */
  lemma TableLines(assemblyName: string, description: string, ds: seq<ParameterDescription>,
                   w: nat, l0: string, l1: string, l2: string)
    requires |ds| == 2 && MaxWidth(Rows(ds)) == w
    requires RenderRow(Rows(ds)[0], w) == l0 && RenderRow(Rows(ds)[1], w) == l1 && RenderRow(Rows(ds)[2], w) == l2
    ensures var lines := Lines(assemblyName, description, ds);
            var h := HeaderLines(assemblyName, description);
            lines[..|h|] == h && lines[|h|..] == [l0, l1, l2]
  {
    var rows := Rows(ds);
    var table := seq(|rows|, k requires 0 <= k < |rows| => RenderRow(rows[k], w));
    assert table == [l0, l1, l2];
  }
}

=== FILE: naming.dfy ===
/** Flag-name derivation: how a C# parameter name becomes a `--kebab-case`
    command-line flag. Two generations of the rule exist in the repository:

    - `Optionify` (PitayaSourceGenerator/Utilities.cs) lowers the first
      character, then applies the regular expression `[A-Z](?=[a-z])|([A-Z]+$)`;
    - `LegacyOptionify` (CLIParserSourceGenerator/Utilities.cs) applies
      `[A-Z](?=[a-z])` to the name as it is.

    Each regular-expression replacement is written out as a left-to-right
    scan: at every position the alternatives are tried in order, a match is
    replaced by "-" followed by its lower-cased text, and the scan resumes
    after the match. The whole result is lower-cased and prefixed with "--".
    The anchor `$` is taken as the end of the string. .NET's `$` also matches
    just before a final '\n', which the scan does not model; a parameter
    name, or a name read from one comment line, never contains '\n'. */
module Naming {
  import opened Wrappers
  import opened Text

  /** Every character from position `i` on is an upper-case letter. */
  predicate AllUpperFrom(s: string, i: nat) {
    forall j :: i <= j < |s| ==> IsUpper(s[j])
  }

  /** The lookahead alternative `[A-Z](?=[a-z])` matches at position `i`. */
  predicate CapitalBeforeLower(s: string, i: nat) {
    i + 1 < |s| && IsUpper(s[i]) && IsLower(s[i + 1])
  }

  /** The scan of `[A-Z](?=[a-z])|([A-Z]+$)` over `s`, from position `i`. */
  function MarkWords(s: string, i: nat): string
    decreases |s| - i
  {
    if i >= |s| then ""
    else if CapitalBeforeLower(s, i) then "-" + [LowerChar(s[i])] + MarkWords(s, i + 1)
    else if AllUpperFrom(s, i) then "-" + Lower(s[i..])
    else [s[i]] + MarkWords(s, i + 1)
  }

  /** The scan of `[A-Z](?=[a-z])` over `s`, from position `i`. */
  function MarkLegacy(s: string, i: nat): string
    decreases |s| - i
  {
    if i >= |s| then ""
    else if CapitalBeforeLower(s, i) then "-" + [LowerChar(s[i])] + MarkLegacy(s, i + 1)
    else [s[i]] + MarkLegacy(s, i + 1)
  }

  /** The first character lowered, the rest untouched. */
  function LowerFirst(name: string): string
    requires |name| > 0
  {
    [LowerChar(name[0])] + name[1..]
  }

  /** The message of the `IndexOutOfRangeException` an empty name causes. */
  const IndexOutOfBounds := "Index was outside the bounds of the array."

  /** `Utilities.Optionify` of PitayaSourceGenerator. Indexing the first
      character of an empty name throws, which is the `Err` case. */
  function Optionify(name: string): (r: Result<string, string>)
    ensures r.Err? <==> |name| == 0
    ensures r.Ok? ==> StartsWith(r.value, "--") && NoUpper(r.value)
  {
    if |name| == 0 then Err(IndexOutOfBounds)
    else Ok("--" + Lower(MarkWords(LowerFirst(name), 0)))
  }

  /** `Utilities.Optionify` of CLIParserSourceGenerator: no first-character
      lowering and no trailing-capitals rule. */
  function LegacyOptionify(name: string): (r: string)
    ensures StartsWith(r, "--") && NoUpper(r)
    ensures |name| == 0 ==> r == "--"
  {
    "--" + Lower(MarkLegacy(name, 0))
  }

  /** `Utilities.Propertyify`: the option-holder property keeps the parameter's name. */
  function Propertyify(name: string): string {
    name
  }

  // ---------------------------------------------------------------------
  // A positional reference definition: where the separators go.
  // ---------------------------------------------------------------------

  /** A '-' goes before position `i` when a capital there is followed by a
      lower-case letter, or when position `i` starts the trailing run of
      capitals. */
  predicate DashBefore(s: string, i: nat)
    requires i < |s|
  {
    CapitalBeforeLower(s, i) || (AllUpperFrom(s, i) && (i == 0 || !IsUpper(s[i - 1])))
  }

  /** Each character of `s[i..]`, preceded by '-' exactly where `DashBefore` says. */
  function Separated(s: string, i: nat): string
    decreases |s| - i
  {
    if i >= |s| then ""
    else (if DashBefore(s, i) then "-" else "") + [s[i]] + Separated(s, i + 1)
  }

  /** The regular-expression scan puts its separators exactly where
      `DashBefore` says, once the result is lower-cased. */
  lemma {:induction false} MarkWordsSeparated(s: string, i: nat)
    requires i <= |s|
    requires i == 0 || !IsUpper(s[i - 1]) || !AllUpperFrom(s, i)
    ensures Lower(MarkWords(s, i)) == Lower(Separated(s, i))
    decreases |s| - i
  {
    if i < |s| {
      if AllUpperFrom(s, i) && !CapitalBeforeLower(s, i) {
        TrailingCapitalsSeparated(s, i);
      } else {
        MarkWordsSeparated(s, i + 1);
        MarkWordsStep(s, i);
      }
    }
  }

  /** One step of the scan outside the trailing run of capitals: both sides
      agree up to case on the first character and on what follows it. */
  lemma {:induction false} MarkWordsStep(s: string, i: nat)
    requires i < |s| && !(AllUpperFrom(s, i) && !CapitalBeforeLower(s, i))
    requires Lower(MarkWords(s, i + 1)) == Lower(Separated(s, i + 1))
    ensures Lower(MarkWords(s, i)) == Lower(Separated(s, i))
  {
    var capital := CapitalBeforeLower(s, i);
    var d: string := if capital then "-" else "";
    var a := if capital then LowerChar(s[i]) else s[i];
    MarkWordsUnfold(s, i);
    SeparatedUnfold(s, i);
    LowerSameVia(MarkWords(s, i), Separated(s, i), d, a, s[i], MarkWords(s, i + 1), Separated(s, i + 1));
  }

  /** One position of the scan outside the trailing run of capitals. */
  lemma {:induction false} MarkWordsUnfold(s: string, i: nat)
    requires i < |s| && !(AllUpperFrom(s, i) && !CapitalBeforeLower(s, i))
    ensures var capital := CapitalBeforeLower(s, i);
            MarkWords(s, i) == (if capital then "-" else "") + [if capital then LowerChar(s[i]) else s[i]] + MarkWords(s, i + 1)
  {
    if !CapitalBeforeLower(s, i) {
      assert "" + [s[i]] == [s[i]];
    }
  }

  /** Outside the trailing run the reference definition separates exactly
      where the lookahead alternative matches. */
  lemma {:induction false} SeparatedUnfold(s: string, i: nat)
    requires i < |s| && !(AllUpperFrom(s, i) && !CapitalBeforeLower(s, i))
    ensures Separated(s, i) == (if CapitalBeforeLower(s, i) then "-" else "") + [s[i]] + Separated(s, i + 1)
  {
    assert DashBefore(s, i) == CapitalBeforeLower(s, i);
  }

  /** The trailing-capitals alternative: one separator, then the run. */
  lemma {:induction false} TrailingCapitalsSeparated(s: string, i: nat)
    requires i < |s| && !CapitalBeforeLower(s, i) && AllUpperFrom(s, i)
    requires i == 0 || !IsUpper(s[i - 1])
    ensures Lower(MarkWords(s, i)) == Lower(Separated(s, i))
  {
    var rest := s[i + 1..];
    var a := LowerChar(s[i]);
    TrailingMarked(s, i);
    TrailingSeparated(s, i);
    LowerTwice(rest);
    LowerSameVia(MarkWords(s, i), Separated(s, i), "-", a, s[i], Lower(rest), rest);
  }

  /** The scan takes the trailing run of capitals in one match. */
  lemma {:induction false} TrailingMarked(s: string, i: nat)
    requires i < |s| && !CapitalBeforeLower(s, i) && AllUpperFrom(s, i)
    ensures MarkWords(s, i) == "-" + [LowerChar(s[i])] + Lower(s[i + 1..])
  {
    LowerSuffix(s, i);
  }

  /** The reference definition puts one separator before the run. */
  lemma {:induction false} TrailingSeparated(s: string, i: nat)
    requires i < |s| && !CapitalBeforeLower(s, i) && AllUpperFrom(s, i)
    requires i == 0 || !IsUpper(s[i - 1])
    ensures Separated(s, i) == "-" + [s[i]] + s[i + 1..]
  {
    assert DashBefore(s, i);
    AllUpperSeparated(s, i + 1);
  }

  /** Two strings built from the same front, characters that lower alike
      and tails that lower alike, lower alike. */
  lemma {:induction false} LowerSameVia(m: string, t: string, d: string, a: char, b: char, x: string, y: string)
    requires m == d + [a] + x && t == d + [b] + y
    requires LowerChar(a) == LowerChar(b) && Lower(x) == Lower(y)
    ensures Lower(m) == Lower(t)
  {
    LowerSameFront(d, a, b, x, y);
  }

  /** Strings that agree up to case after the same front still do with it. */
  lemma {:induction false} LowerSameFront(d: string, a: char, b: char, x: string, y: string)
    requires LowerChar(a) == LowerChar(b) && Lower(x) == Lower(y)
    ensures Lower(d + [a] + x) == Lower(d + [b] + y)
  {
    LowerConcat(d + [a], x);
    LowerConcat(d + [b], y);
    LowerConcat(d, [a]);
    LowerConcat(d, [b]);
  }

  lemma {:induction false} LowerTwice(s: string)
    ensures Lower(Lower(s)) == Lower(s)
  {
  }

  /** Inside the trailing run of capitals no further separator goes in. */
  lemma {:induction false} AllUpperSeparated(s: string, i: nat)
    requires 0 < i <= |s| && AllUpperFrom(s, i - 1)
    ensures Separated(s, i) == s[i..]
    decreases |s| - i
  {
    if i < |s| {
      assert !DashBefore(s, i);
      AllUpperSeparated(s, i + 1);
    }
  }

  /** `Optionify` against the positional reference definition. */
  lemma {:induction false} OptionifySeparated(name: string)
    requires |name| > 0
    ensures Optionify(name) == Ok("--" + Lower(Separated(LowerFirst(name), 0)))
  {
    MarkWordsSeparated(LowerFirst(name), 0);
  }

  /** The first character is lowered before matching, so the flag never gets
      a separator right after "--": it continues with the lowered first
      character of the name. */
  lemma {:induction false} OptionifyFirstCharacter(name: string)
    requires |name| > 0
    ensures Optionify(name).Ok? && |Optionify(name).value| > 2
    ensures Optionify(name).value[2] == LowerChar(name[0])
  {
    var s := LowerFirst(name);
    OptionifySeparated(name);
    assert !DashBefore(s, 0);
    LowerConcat([s[0]], Separated(s, 1));
  }

  // ---------------------------------------------------------------------
  // Only '-' characters are added.
  // ---------------------------------------------------------------------

  /** Lower-casing a separator, a character and a tail, then deleting the
      dashes, leaves the lowered character before the tail's result. */
  lemma {:induction false} RemoveDashLowered(d: string, c: char, rest: string)
    requires (d == "" || d == "-") && c != '-'
    ensures Remove(Lower(d + [c] + rest), '-') == [LowerChar(c)] + Remove(Lower(rest), '-')
  {
    LowerConcat(d + [c], rest);
    RemoveConcat(Lower(d + [c]), Lower(rest), '-');
    assert Lower(d + [c]) == d + [LowerChar(c)];
    assert Remove(d + [LowerChar(c)], '-') == [LowerChar(c)] by {
      RemoveConcat(d, [LowerChar(c)], '-');
      assert Remove([LowerChar(c)], '-') == [LowerChar(c)] + Remove([], '-');
    }
  }

  /** Lower-casing a suffix one character at a time. */
  lemma {:induction false} LowerSuffix(s: string, i: nat)
    requires i < |s|
    ensures Lower(s[i..]) == [LowerChar(s[i])] + Lower(s[i + 1..])
  {
    assert s[i..] == [s[i]] + s[i + 1..];
    LowerConcat([s[i]], s[i + 1..]);
  }

  lemma {:induction false} SeparatedRemovesToInput(s: string, i: nat)
    requires i <= |s| && '-' !in s
    ensures Remove(Lower(Separated(s, i)), '-') == Lower(s[i..])
    decreases |s| - i
  {
    if i < |s| {
      SeparatedRemovesToInput(s, i + 1);
      SeparatedRemoveStep(s, i);
    }
  }

  /** One step of the reference definition, as `MarkLegacyRemoveStep`. */
  lemma {:induction false} SeparatedRemoveStep(s: string, i: nat)
    requires i < |s| && s[i] != '-'
    requires Remove(Lower(Separated(s, i + 1)), '-') == Lower(s[i + 1..])
    ensures Remove(Lower(Separated(s, i)), '-') == Lower(s[i..])
  {
    var d: string := if DashBefore(s, i) then "-" else "";
    var next := Separated(s, i + 1);
    assert Separated(s, i) == d + [s[i]] + next;
    assert Lower(s[i..]) == [LowerChar(s[i])] + Lower(s[i + 1..]) by { LowerSuffix(s, i); }
    RemoveDashStep(Separated(s, i), d, s[i], next, s[i], Lower(s[i + 1..]), Lower(s[i..]));
  }

  lemma {:induction false} MarkLegacyRemovesToInput(s: string, i: nat)
    requires i <= |s| && '-' !in s
    ensures Remove(Lower(MarkLegacy(s, i)), '-') == Lower(s[i..])
    decreases |s| - i
  {
    if i < |s| {
      MarkLegacyRemovesToInput(s, i + 1);
      MarkLegacyRemoveStep(s, i);
    }
  }

  /** One step of the legacy scan: deleting the separators of what it
      produces for `s[i..]` leaves the lower-cased suffix. */
  lemma {:induction false} MarkLegacyRemoveStep(s: string, i: nat)
    requires i < |s| && s[i] != '-'
    requires Remove(Lower(MarkLegacy(s, i + 1)), '-') == Lower(s[i + 1..])
    ensures Remove(Lower(MarkLegacy(s, i)), '-') == Lower(s[i..])
  {
    var next := MarkLegacy(s, i + 1);
    var capital := CapitalBeforeLower(s, i);
    var d: string := if capital then "-" else "";
    var c := if capital then LowerChar(s[i]) else s[i];
    var tail, whole := Lower(s[i + 1..]), Lower(s[i..]);
    assert MarkLegacy(s, i) == d + [c] + next by { MarkLegacyUnfold(s, i); }
    assert c != '-' && LowerChar(c) == LowerChar(s[i]) by {
      if capital {
        assert LowerChar(LowerChar(s[i])) == LowerChar(s[i]);
      }
    }
    assert whole == [LowerChar(s[i])] + tail by { LowerSuffix(s, i); }
    RemoveDashStep(MarkLegacy(s, i), d, c, next, s[i], tail, whole);
  }

  /** One position of the legacy scan. */
  lemma {:induction false} MarkLegacyUnfold(s: string, i: nat)
    requires i < |s|
    ensures MarkLegacy(s, i) == (if CapitalBeforeLower(s, i) then "-" else "")
                                + [if CapitalBeforeLower(s, i) then LowerChar(s[i]) else s[i]] + MarkLegacy(s, i + 1)
  {
    if !CapitalBeforeLower(s, i) {
      assert "" + [s[i]] == [s[i]];
    }
  }

  /** The step shared by both scans: a separator-free character `c` that
      lowers like `x`, possibly after a '-', in front of a rest whose
      separators delete to `tail`. */
  lemma {:induction false} RemoveDashStep(m: string, d: string, c: char, next: string, x: char, tail: string, whole: string)
    requires m == d + [c] + next && (d == "" || d == "-") && c != '-' && LowerChar(c) == LowerChar(x)
    requires Remove(Lower(next), '-') == tail && whole == [LowerChar(x)] + tail
    ensures Remove(Lower(m), '-') == whole
  {
    RemoveDashLowered(d, c, next);
  }

  /** For a dash-free name, deleting every '-' after the "--" prefix gives
      back the lower-cased name. */
  lemma {:induction false} OptionifyOnlyAddsDashes(name: string)
    requires |name| > 0 && '-' !in name
    ensures Remove(Optionify(name).value[2..], '-') == Lower(name)
  {
    var s := LowerFirst(name);
    assert '-' !in s by {
      assert forall j :: 0 <= j < |s| ==> s[j] == (if j == 0 then LowerChar(name[0]) else name[j]);
    }
    MarkWordsSeparated(s, 0);
    SeparatedRemovesToInput(s, 0);
    assert s[0..] == s;
    assert Lower(s) == Lower(name) by {
      assert forall j :: 0 <= j < |s| ==> LowerChar(s[j]) == LowerChar(name[j]);
    }
  }

  lemma {:induction false} LegacyOptionifyOnlyAddsDashes(name: string)
    requires '-' !in name
    ensures Remove(LegacyOptionify(name)[2..], '-') == Lower(name)
  {
    MarkLegacyRemovesToInput(name, 0);
    assert name[0..] == name;
  }

  // ---------------------------------------------------------------------
  // Where the two generations agree.
  // ---------------------------------------------------------------------

  lemma {:induction false} MarkWordsIsLegacy(s: string, i: nat)
    requires |s| > 0 && !IsUpper(s[|s| - 1])
    ensures MarkWords(s, i) == MarkLegacy(s, i)
    decreases |s| - i
  {
    if i < |s| {
      assert !AllUpperFrom(s, i);
      MarkWordsIsLegacy(s, i + 1);
    }
  }

  /** On a name that neither starts nor ends with a capital both rules give
      the same flag. */
  lemma {:induction false} OptionifyAgreesWithLegacy(name: string)
    requires |name| > 0 && !IsUpper(name[0]) && !IsUpper(name[|name| - 1])
    ensures Optionify(name) == Ok(LegacyOptionify(name))
  {
    assert LowerFirst(name) == name;
    MarkWordsIsLegacy(name, 0);
  }

  /** Without capitals the scan copies its input. */
  lemma {:induction false} MarkWordsNoUpper(s: string, i: nat)
    requires i <= |s| && NoUpper(s)
    ensures MarkWords(s, i) == s[i..]
    decreases |s| - i
  {
    if i < |s| {
      assert !AllUpperFrom(s, i) by { assert !IsUpper(s[i]); }
      MarkWordsNoUpper(s, i + 1);
      assert s[i..] == [s[i]] + s[i + 1..];
    }
  }

  /** A name without capitals becomes its flag by prefixing "--". */
  lemma {:induction false} OptionifyNoUpper(name: string)
    requires |name| > 0 && NoUpper(name)
    ensures Optionify(name) == Ok("--" + name)
  {
    assert LowerFirst(name) == name;
    MarkWordsNoUpper(name, 0);
    LowerNoUpper(name);
  }

  // ---------------------------------------------------------------------
  // The cases the unit tests pin down.
  // ---------------------------------------------------------------------

  /** `Optionify` as its three stages: lowering the first character, the
      scan, and lower-casing behind "--". */
  lemma {:induction false} OptionifyThrough(name: string, lowered: string, marked: string, flag: string)
    requires |name| > 0 && LowerFirst(name) == lowered && MarkWords(lowered, 0) == marked
    requires flag == "--" + Lower(marked)
    ensures Optionify(name) == Ok(flag)
  {
  }

  lemma {:induction false} MarkWordsNameFrom2(s: string)
    requires s == "name"
    ensures MarkWords(s, 2) == "me"
  {
    assert MarkWords(s, 4) == "";
    assert !CapitalBeforeLower(s, 3);
    assert !IsUpper(s[3]);
    assert MarkWords(s, 3) == "e";
    assert !CapitalBeforeLower(s, 2);
    assert !IsUpper(s[2]);
    assert MarkWords(s, 2) == "me";
  }

  lemma {:induction false} MarkWordsNameFrom0(s: string)
    requires s == "name"
    ensures MarkWords(s, 0) == "name"
  {
    MarkWordsNameFrom2(s);
    assert !CapitalBeforeLower(s, 1);
    assert !IsUpper(s[1]);
    assert MarkWords(s, 1) == "ame";
    assert !CapitalBeforeLower(s, 0);
    assert !IsUpper(s[0]);
    assert MarkWords(s, 0) == "name";
  }

  lemma {:induction false} OptionifyName(name: string)
    requires name == "name"
    ensures Optionify(name) == Ok("--name")
  {
    var s := LowerFirst(name);
    assert s == "name";
    assert MarkWords(s, 0) == "name" by { MarkWordsNameFrom0(s); }
    assert Lower("name") == "name" by { LowerNoUpper("name"); }
    assert "--" + "name" == "--name";
    OptionifyThrough(name, s, "name", "--name");
  }

  lemma {:induction false} MarkWordsANameFrom3(s: string)
    requires s == "aName"
    ensures MarkWords(s, 3) == "me"
  {
    assert MarkWords(s, 5) == "";
    assert !CapitalBeforeLower(s, 4);
    assert !IsUpper(s[4]);
    assert MarkWords(s, 4) == "e";
    assert !CapitalBeforeLower(s, 3);
    assert !IsUpper(s[3]);
    assert MarkWords(s, 3) == "me";
  }

  lemma {:induction false} MarkWordsANameFrom1(s: string)
    requires s == "aName"
    ensures MarkWords(s, 1) == "-name"
  {
    MarkWordsANameFrom3(s);
    assert !CapitalBeforeLower(s, 2);
    assert !IsUpper(s[2]);
    assert MarkWords(s, 2) == "ame";
    assert MarkWords(s, 1) == "-name";
  }

  lemma {:induction false} MarkWordsANameFrom0(s: string)
    requires s == "aName"
    ensures MarkWords(s, 0) == "a-name"
  {
    MarkWordsANameFrom1(s);
    assert !CapitalBeforeLower(s, 0);
    assert !IsUpper(s[0]);
    assert MarkWords(s, 0) == "a-name";
  }

  lemma {:induction false} OptionifyAName(name: string)
    requires name == "aName"
    ensures Optionify(name) == Ok("--a-name")
  {
    var s := LowerFirst(name);
    assert s == "aName";
    assert MarkWords(s, 0) == "a-name" by { MarkWordsANameFrom0(s); }
    assert Lower("a-name") == "a-name" by { LowerNoUpper("a-name"); }
    assert "--" + "a-name" == "--a-name";
    OptionifyThrough(name, s, "a-name", "--a-name");
  }

  lemma {:induction false} MarkWordsFooBarFrom4(s: string)
    requires s == "fooBar"
    ensures MarkWords(s, 4) == "ar"
  {
    assert MarkWords(s, 6) == "";
    assert !CapitalBeforeLower(s, 5);
    assert !IsUpper(s[5]);
    assert MarkWords(s, 5) == "r";
    assert !CapitalBeforeLower(s, 4);
    assert !IsUpper(s[4]);
    assert MarkWords(s, 4) == "ar";
  }

  lemma {:induction false} MarkWordsFooBarFrom2(s: string)
    requires s == "fooBar"
    ensures MarkWords(s, 2) == "o-bar"
  {
    MarkWordsFooBarFrom4(s);
    assert MarkWords(s, 3) == "-bar";
    assert !CapitalBeforeLower(s, 2);
    assert !IsUpper(s[2]);
    assert MarkWords(s, 2) == "o-bar";
  }

  lemma {:induction false} MarkWordsFooBarFrom0(s: string)
    requires s == "fooBar"
    ensures MarkWords(s, 0) == "foo-bar"
  {
    MarkWordsFooBarFrom2(s);
    assert !CapitalBeforeLower(s, 1);
    assert !IsUpper(s[1]);
    assert MarkWords(s, 1) == "oo-bar";
    assert !CapitalBeforeLower(s, 0);
    assert !IsUpper(s[0]);
    assert MarkWords(s, 0) == "foo-bar";
  }

  lemma {:induction false} OptionifyFooBar(name: string)
    requires name == "fooBar"
    ensures Optionify(name) == Ok("--foo-bar")
  {
    var s := LowerFirst(name);
    assert s == "fooBar";
    assert MarkWords(s, 0) == "foo-bar" by { MarkWordsFooBarFrom0(s); }
    assert Lower("foo-bar") == "foo-bar" by { LowerNoUpper("foo-bar"); }
    assert "--" + "foo-bar" == "--foo-bar";
    OptionifyThrough(name, s, "foo-bar", "--foo-bar");
  }

  lemma {:induction false} MarkWordsABCValueFrom6(s: string)
    requires s == "aBCValue"
    ensures MarkWords(s, 6) == "ue"
  {
    assert MarkWords(s, 8) == "";
    assert !CapitalBeforeLower(s, 7);
    assert !IsUpper(s[7]);
    assert MarkWords(s, 7) == "e";
    assert !CapitalBeforeLower(s, 6);
    assert !IsUpper(s[6]);
    assert MarkWords(s, 6) == "ue";
  }

  lemma {:induction false} MarkWordsABCValueFrom4(s: string)
    requires s == "aBCValue"
    ensures MarkWords(s, 4) == "alue"
  {
    MarkWordsABCValueFrom6(s);
    assert !CapitalBeforeLower(s, 5);
    assert !IsUpper(s[5]);
    assert MarkWords(s, 5) == "lue";
    assert !CapitalBeforeLower(s, 4);
    assert !IsUpper(s[4]);
    assert MarkWords(s, 4) == "alue";
  }

  lemma {:induction false} MarkWordsABCValueFrom2(s: string)
    requires s == "aBCValue"
    ensures MarkWords(s, 2) == "C-value"
  {
    MarkWordsABCValueFrom4(s);
    assert MarkWords(s, 3) == "-value";
    assert !CapitalBeforeLower(s, 2);
    assert !IsUpper(s[4]);
    assert MarkWords(s, 2) == "C-value";
  }

  lemma {:induction false} MarkWordsABCValueFrom0(s: string)
    requires s == "aBCValue"
    ensures MarkWords(s, 0) == "aBC-value"
  {
    MarkWordsABCValueFrom2(s);
    assert !CapitalBeforeLower(s, 1);
    assert !IsUpper(s[4]);
    assert MarkWords(s, 1) == "BC-value";
    assert !CapitalBeforeLower(s, 0);
    assert !IsUpper(s[0]);
    assert MarkWords(s, 0) == "aBC-value";
  }

  lemma {:induction false} LowerMarkedABCValue(m: string)
    requires m == "aBC-value"
    ensures Lower(m) == "abc-value"
  {
    assert m == "aBC" + "-value";
    LowerConcat("aBC", "-value");
    LowerNoUpper("-value");
    assert Lower("aBC") == "abc";
  }

  lemma {:induction false} OptionifyABCValue(name: string)
    requires name == "ABCValue"
    ensures Optionify(name) == Ok("--abc-value")
  {
    var s := LowerFirst(name);
    assert s == "aBCValue";
    assert MarkWords(s, 0) == "aBC-value" by { MarkWordsABCValueFrom0(s); }
    assert Lower("aBC-value") == "abc-value" by { LowerMarkedABCValue("aBC-value"); }
    assert "--" + "abc-value" == "--abc-value";
    OptionifyThrough(name, s, "aBC-value", "--abc-value");
  }

  lemma {:induction false} MarkWordsFirstCharFrom7(s: string)
    requires s == "firstChar"
    ensures MarkWords(s, 7) == "ar"
  {
    assert MarkWords(s, 9) == "";
    assert !CapitalBeforeLower(s, 8);
    assert !IsUpper(s[8]);
    assert MarkWords(s, 8) == "r";
    assert !CapitalBeforeLower(s, 7);
    assert !IsUpper(s[7]);
    assert MarkWords(s, 7) == "ar";
  }

  lemma {:induction false} MarkWordsFirstCharFrom5(s: string)
    requires s == "firstChar"
    ensures MarkWords(s, 5) == "-char"
  {
    MarkWordsFirstCharFrom7(s);
    assert !CapitalBeforeLower(s, 6);
    assert !IsUpper(s[6]);
    assert MarkWords(s, 6) == "har";
    assert MarkWords(s, 5) == "-char";
  }

  lemma {:induction false} MarkWordsFirstCharFrom3(s: string)
    requires s == "firstChar"
    ensures MarkWords(s, 3) == "st-char"
  {
    MarkWordsFirstCharFrom5(s);
    assert !CapitalBeforeLower(s, 4);
    assert !IsUpper(s[4]);
    assert MarkWords(s, 4) == "t-char";
    assert !CapitalBeforeLower(s, 3);
    assert !IsUpper(s[3]);
    assert MarkWords(s, 3) == "st-char";
  }

  lemma {:induction false} MarkWordsFirstCharFrom1(s: string)
    requires s == "firstChar"
    ensures MarkWords(s, 1) == "irst-char"
  {
    MarkWordsFirstCharFrom3(s);
    assert !CapitalBeforeLower(s, 2);
    assert !IsUpper(s[2]);
    assert MarkWords(s, 2) == "rst-char";
    assert !CapitalBeforeLower(s, 1);
    assert !IsUpper(s[1]);
    assert MarkWords(s, 1) == "irst-char";
  }

  lemma {:induction false} MarkWordsFirstCharFrom0(s: string)
    requires s == "firstChar"
    ensures MarkWords(s, 0) == "first-char"
  {
    MarkWordsFirstCharFrom1(s);
    assert !CapitalBeforeLower(s, 0);
    assert !IsUpper(s[0]);
    assert MarkWords(s, 0) == "first-char";
  }

  lemma {:induction false} OptionifyFirstChar(name: string)
    requires name == "FirstChar"
    ensures Optionify(name) == Ok("--first-char")
  {
    var s := LowerFirst(name);
    assert s == "firstChar";
    assert MarkWords(s, 0) == "first-char" by { MarkWordsFirstCharFrom0(s); }
    assert Lower("first-char") == "first-char" by { LowerNoUpper("first-char"); }
    assert "--" + "first-char" == "--first-char";
    OptionifyThrough(name, s, "first-char", "--first-char");
  }

  lemma {:induction false} MarkWordsUserIDFrom2(s: string)
    requires s == "userID"
    ensures MarkWords(s, 2) == "er-id"
  {
    assert AllUpperFrom(s, 4);
    assert s[4..] == "ID";
    assert MarkWords(s, 4) == "-id";
    assert !CapitalBeforeLower(s, 3);
    assert !IsUpper(s[3]);
    assert MarkWords(s, 3) == "r-id";
    assert !CapitalBeforeLower(s, 2);
    assert !IsUpper(s[2]);
    assert MarkWords(s, 2) == "er-id";
  }

  lemma {:induction false} MarkWordsUserIDFrom0(s: string)
    requires s == "userID"
    ensures MarkWords(s, 0) == "user-id"
  {
    MarkWordsUserIDFrom2(s);
    assert !CapitalBeforeLower(s, 1);
    assert !IsUpper(s[1]);
    assert MarkWords(s, 1) == "ser-id";
    assert !CapitalBeforeLower(s, 0);
    assert !IsUpper(s[0]);
    assert MarkWords(s, 0) == "user-id";
  }

  lemma {:induction false} OptionifyUserID(name: string)
    requires name == "userID"
    ensures Optionify(name) == Ok("--user-id")
  {
    var s := LowerFirst(name);
    assert s == "userID";
    assert MarkWords(s, 0) == "user-id" by { MarkWordsUserIDFrom0(s); }
    assert Lower("user-id") == "user-id" by { LowerNoUpper("user-id"); }
    assert "--" + "user-id" == "--user-id";
    OptionifyThrough(name, s, "user-id", "--user-id");
  }

  lemma {:induction false} MarkLegacyNameFrom2(s: string)
    requires s == "name"
    ensures MarkLegacy(s, 2) == "me"
  {
    assert MarkLegacy(s, 4) == "";
    assert !CapitalBeforeLower(s, 3);
    assert MarkLegacy(s, 3) == "e";
    assert !CapitalBeforeLower(s, 2);
    assert MarkLegacy(s, 2) == "me";
  }

  lemma {:induction false} MarkLegacyNameFrom0(s: string)
    requires s == "name"
    ensures MarkLegacy(s, 0) == "name"
  {
    MarkLegacyNameFrom2(s);
    assert !CapitalBeforeLower(s, 1);
    assert MarkLegacy(s, 1) == "ame";
    assert !CapitalBeforeLower(s, 0);
    assert MarkLegacy(s, 0) == "name";
  }

  lemma {:induction false} LegacyOptionifyName(name: string)
    requires name == "name"
    ensures LegacyOptionify(name) == "--name"
  {
    assert MarkLegacy(name, 0) == "name" by { MarkLegacyNameFrom0(name); }
    assert Lower("name") == "name" by { LowerNoUpper("name"); }
    assert "--" + "name" == "--name";
  }

  lemma {:induction false} MarkLegacyANameFrom3(s: string)
    requires s == "aName"
    ensures MarkLegacy(s, 3) == "me"
  {
    assert MarkLegacy(s, 5) == "";
    assert !CapitalBeforeLower(s, 4);
    assert MarkLegacy(s, 4) == "e";
    assert !CapitalBeforeLower(s, 3);
    assert MarkLegacy(s, 3) == "me";
  }

  lemma {:induction false} MarkLegacyANameFrom1(s: string)
    requires s == "aName"
    ensures MarkLegacy(s, 1) == "-name"
  {
    MarkLegacyANameFrom3(s);
    assert !CapitalBeforeLower(s, 2);
    assert MarkLegacy(s, 2) == "ame";
    assert MarkLegacy(s, 1) == "-name";
  }

  lemma {:induction false} MarkLegacyANameFrom0(s: string)
    requires s == "aName"
    ensures MarkLegacy(s, 0) == "a-name"
  {
    MarkLegacyANameFrom1(s);
    assert !CapitalBeforeLower(s, 0);
    assert MarkLegacy(s, 0) == "a-name";
  }

  lemma {:induction false} LegacyOptionifyAName(name: string)
    requires name == "aName"
    ensures LegacyOptionify(name) == "--a-name"
  {
    assert MarkLegacy(name, 0) == "a-name" by { MarkLegacyANameFrom0(name); }
    assert Lower("a-name") == "a-name" by { LowerNoUpper("a-name"); }
    assert "--" + "a-name" == "--a-name";
  }

  lemma {:induction false} MarkLegacyABCValueFrom6(s: string)
    requires s == "ABCValue"
    ensures MarkLegacy(s, 6) == "ue"
  {
    assert MarkLegacy(s, 8) == "";
    assert !CapitalBeforeLower(s, 7);
    assert MarkLegacy(s, 7) == "e";
    assert !CapitalBeforeLower(s, 6);
    assert MarkLegacy(s, 6) == "ue";
  }

  lemma {:induction false} MarkLegacyABCValueFrom4(s: string)
    requires s == "ABCValue"
    ensures MarkLegacy(s, 4) == "alue"
  {
    MarkLegacyABCValueFrom6(s);
    assert !CapitalBeforeLower(s, 5);
    assert MarkLegacy(s, 5) == "lue";
    assert !CapitalBeforeLower(s, 4);
    assert MarkLegacy(s, 4) == "alue";
  }

  lemma {:induction false} MarkLegacyABCValueFrom2(s: string)
    requires s == "ABCValue"
    ensures MarkLegacy(s, 2) == "C-value"
  {
    MarkLegacyABCValueFrom4(s);
    assert MarkLegacy(s, 3) == "-value";
    assert !CapitalBeforeLower(s, 2);
    assert MarkLegacy(s, 2) == "C-value";
  }

  lemma {:induction false} MarkLegacyABCValueFrom0(s: string)
    requires s == "ABCValue"
    ensures MarkLegacy(s, 0) == "ABC-value"
  {
    MarkLegacyABCValueFrom2(s);
    assert !CapitalBeforeLower(s, 1);
    assert MarkLegacy(s, 1) == "BC-value";
    assert !CapitalBeforeLower(s, 0);
    assert MarkLegacy(s, 0) == "ABC-value";
  }

  lemma {:induction false} LowerLegacyABCValue(m: string)
    requires m == "ABC-value"
    ensures Lower(m) == "abc-value"
  {
    assert m == "ABC" + "-value";
    LowerConcat("ABC", "-value");
    LowerNoUpper("-value");
    assert Lower("ABC") == "abc";
  }

  lemma {:induction false} LegacyOptionifyABCValue(name: string)
    requires name == "ABCValue"
    ensures LegacyOptionify(name) == "--abc-value"
  {
    assert MarkLegacy(name, 0) == "ABC-value" by { MarkLegacyABCValueFrom0(name); }
    assert Lower("ABC-value") == "abc-value" by { LowerLegacyABCValue("ABC-value"); }
    assert "--" + "abc-value" == "--abc-value";
  }

  lemma {:induction false} MarkLegacyMyOptionNameFrom10(s: string)
    requires s == "myOptionName"
    ensures MarkLegacy(s, 10) == "me"
  {
    assert MarkLegacy(s, 12) == "";
    assert !CapitalBeforeLower(s, 11);
    assert MarkLegacy(s, 11) == "e";
    assert !CapitalBeforeLower(s, 10);
    assert MarkLegacy(s, 10) == "me";
  }

  lemma {:induction false} MarkLegacyMyOptionNameFrom8(s: string)
    requires s == "myOptionName"
    ensures MarkLegacy(s, 8) == "-name"
  {
    MarkLegacyMyOptionNameFrom10(s);
    assert !CapitalBeforeLower(s, 9);
    assert MarkLegacy(s, 9) == "ame";
    assert MarkLegacy(s, 8) == "-name";
  }

  lemma {:induction false} MarkLegacyMyOptionNameFrom6(s: string)
    requires s == "myOptionName"
    ensures MarkLegacy(s, 6) == "on-name"
  {
    MarkLegacyMyOptionNameFrom8(s);
    assert !CapitalBeforeLower(s, 7);
    assert MarkLegacy(s, 7) == "n-name";
    assert !CapitalBeforeLower(s, 6);
    assert MarkLegacy(s, 6) == "on-name";
  }

  lemma {:induction false} MarkLegacyMyOptionNameFrom4(s: string)
    requires s == "myOptionName"
    ensures MarkLegacy(s, 4) == "tion-name"
  {
    MarkLegacyMyOptionNameFrom6(s);
    assert !CapitalBeforeLower(s, 5);
    assert MarkLegacy(s, 5) == "ion-name";
    assert !CapitalBeforeLower(s, 4);
    assert MarkLegacy(s, 4) == "tion-name";
  }

  lemma {:induction false} MarkLegacyMyOptionNameFrom2(s: string)
    requires s == "myOptionName"
    ensures MarkLegacy(s, 2) == "-option-name"
  {
    MarkLegacyMyOptionNameFrom4(s);
    assert !CapitalBeforeLower(s, 3);
    assert MarkLegacy(s, 3) == "ption-name";
    assert MarkLegacy(s, 2) == "-option-name";
  }

  lemma {:induction false} MarkLegacyMyOptionNameFrom0(s: string)
    requires s == "myOptionName"
    ensures MarkLegacy(s, 0) == "my-option-name"
  {
    MarkLegacyMyOptionNameFrom2(s);
    assert !CapitalBeforeLower(s, 1);
    assert MarkLegacy(s, 1) == "y-option-name";
    assert !CapitalBeforeLower(s, 0);
    assert MarkLegacy(s, 0) == "my-option-name";
  }

  lemma {:induction false} LegacyOptionifyMyOptionName(name: string)
    requires name == "myOptionName"
    ensures LegacyOptionify(name) == "--my-option-name"
  {
    assert MarkLegacy(name, 0) == "my-option-name" by { MarkLegacyMyOptionNameFrom0(name); }
    assert Lower("my-option-name") == "my-option-name" by { LowerNoUpper("my-option-name"); }
    assert "--" + "my-option-name" == "--my-option-name";
  }

  /** Where no capital letter is followed by a lower-case one, the legacy marking copies the text. */
  lemma {:induction false} MarkLegacyUnmarkedTail(s: string, i: nat)
    requires i <= |s|
    requires forall j :: i <= j < |s| ==> !CapitalBeforeLower(s, j)
    ensures MarkLegacy(s, i) == s[i..]
    decreases |s| - i
  {
    if i < |s| {
      MarkLegacyUnmarkedTail(s, i + 1);
      assert s[i..] == [s[i]] + s[i + 1..];
    }
  }

  lemma {:induction false} MarkLegacyADCOptionFrom5(s: string)
    requires s == "ADCOption"
    ensures MarkLegacy(s, 5) == "tion"
  {
    assert MarkLegacy(s, 7) == "on" by {
      assert !CapitalBeforeLower(s, 7) && !CapitalBeforeLower(s, 8);
      MarkLegacyUnmarkedTail(s, 7);
    }
    assert !CapitalBeforeLower(s, 6);
    assert MarkLegacy(s, 6) == "ion";
    assert !CapitalBeforeLower(s, 5);
    assert MarkLegacy(s, 5) == "tion";
  }

  lemma {:induction false} MarkLegacyADCOptionFrom3(s: string)
    requires s == "ADCOption"
    ensures MarkLegacy(s, 3) == "-option"
  {
    MarkLegacyADCOptionFrom5(s);
    assert !CapitalBeforeLower(s, 4);
    assert MarkLegacy(s, 4) == "ption";
    assert MarkLegacy(s, 3) == "-option";
  }

  lemma {:induction false} MarkLegacyADCOptionFrom1(s: string)
    requires s == "ADCOption"
    ensures MarkLegacy(s, 1) == "DC-option"
  {
    MarkLegacyADCOptionFrom3(s);
    assert !CapitalBeforeLower(s, 2);
    assert MarkLegacy(s, 2) == "C-option";
    assert !CapitalBeforeLower(s, 1);
    assert MarkLegacy(s, 1) == "DC-option";
  }

  lemma {:induction false} MarkLegacyADCOptionFrom0(s: string)
    requires s == "ADCOption"
    ensures MarkLegacy(s, 0) == "ADC-option"
  {
    MarkLegacyADCOptionFrom1(s);
    assert !CapitalBeforeLower(s, 0);
    assert MarkLegacy(s, 0) == "ADC-option";
  }

  lemma {:induction false} LowerLegacyADCOption(m: string)
    requires m == "ADC-option"
    ensures Lower(m) == "adc-option"
  {
    assert m == "ADC" + "-option";
    LowerConcat("ADC", "-option");
    LowerNoUpper("-option");
    assert Lower("ADC") == "adc";
  }

  lemma {:induction false} LegacyOptionifyADCOption(name: string)
    requires name == "ADCOption"
    ensures LegacyOptionify(name) == "--adc-option"
  {
    assert MarkLegacy(name, 0) == "ADC-option" by { MarkLegacyADCOptionFrom0(name); }
    assert Lower("ADC-option") == "adc-option" by { LowerLegacyADCOption("ADC-option"); }
    assert "--" + "adc-option" == "--adc-option";
  }

  lemma {:induction false} MarkLegacyFirstCharFrom5(s: string)
    requires s == "FirstChar"
    ensures MarkLegacy(s, 5) == "-char"
  {
    assert MarkLegacy(s, 7) == "ar" by {
      assert !CapitalBeforeLower(s, 7) && !CapitalBeforeLower(s, 8);
      MarkLegacyUnmarkedTail(s, 7);
    }
    assert !CapitalBeforeLower(s, 6);
    assert MarkLegacy(s, 6) == "har";
    assert MarkLegacy(s, 5) == "-char";
  }

  lemma {:induction false} MarkLegacyFirstCharFrom3(s: string)
    requires s == "FirstChar"
    ensures MarkLegacy(s, 3) == "st-char"
  {
    MarkLegacyFirstCharFrom5(s);
    assert !CapitalBeforeLower(s, 4);
    assert MarkLegacy(s, 4) == "t-char";
    assert !CapitalBeforeLower(s, 3);
    assert MarkLegacy(s, 3) == "st-char";
  }

  lemma {:induction false} MarkLegacyFirstCharFrom1(s: string)
    requires s == "FirstChar"
    ensures MarkLegacy(s, 1) == "irst-char"
  {
    MarkLegacyFirstCharFrom3(s);
    assert !CapitalBeforeLower(s, 2);
    assert MarkLegacy(s, 2) == "rst-char";
    assert !CapitalBeforeLower(s, 1);
    assert MarkLegacy(s, 1) == "irst-char";
  }

  lemma {:induction false} MarkLegacyFirstCharFrom0(s: string)
    requires s == "FirstChar"
    ensures MarkLegacy(s, 0) == "-first-char"
  {
    MarkLegacyFirstCharFrom1(s);
    assert MarkLegacy(s, 0) == "-first-char";
  }

  lemma {:induction false} LegacyOptionifyFirstChar(name: string)
    requires name == "FirstChar"
    ensures LegacyOptionify(name) == "---first-char"
  {
    assert MarkLegacy(name, 0) == "-first-char" by { MarkLegacyFirstCharFrom0(name); }
    assert Lower("-first-char") == "-first-char" by { LowerNoUpper("-first-char"); }
    assert "--" + "-first-char" == "---first-char";
  }

  lemma {:induction false} MarkLegacyUserIDFrom4(s: string)
    requires s == "userID"
    ensures MarkLegacy(s, 4) == "ID"
  {
    assert MarkLegacy(s, 6) == "";
    assert !CapitalBeforeLower(s, 5);
    assert MarkLegacy(s, 5) == "D";
    assert !CapitalBeforeLower(s, 4);
    assert MarkLegacy(s, 4) == "ID";
  }

  lemma {:induction false} MarkLegacyUserIDFrom2(s: string)
    requires s == "userID"
    ensures MarkLegacy(s, 2) == "erID"
  {
    MarkLegacyUserIDFrom4(s);
    assert !CapitalBeforeLower(s, 3);
    assert MarkLegacy(s, 3) == "rID";
    assert !CapitalBeforeLower(s, 2);
    assert MarkLegacy(s, 2) == "erID";
  }

  lemma {:induction false} MarkLegacyUserIDFrom0(s: string)
    requires s == "userID"
    ensures MarkLegacy(s, 0) == "userID"
  {
    MarkLegacyUserIDFrom2(s);
    assert !CapitalBeforeLower(s, 1);
    assert MarkLegacy(s, 1) == "serID";
    assert !CapitalBeforeLower(s, 0);
    assert MarkLegacy(s, 0) == "userID";
  }

  lemma {:induction false} LowerLegacyUserID(m: string)
    requires m == "userID"
    ensures Lower(m) == "userid"
  {
    assert m == "userID" + "";
    LowerConcat("userID", "");
    LowerNoUpper("");
    assert Lower("userID") == "userid";
  }

  lemma {:induction false} LegacyOptionifyUserID(name: string)
    requires name == "userID"
    ensures LegacyOptionify(name) == "--userid"
  {
    assert MarkLegacy(name, 0) == "userID" by { MarkLegacyUserIDFrom0(name); }
    assert Lower("userID") == "userid" by { LowerLegacyUserID("userID"); }
    assert "--" + "userid" == "--userid";
  }

  lemma PropertyifyExamples()
    ensures Propertyify("name") == "name"
    ensures Propertyify("aName") == "aName"
    ensures Propertyify("ABCValue") == "ABCValue"
  {
  }
}

=== FILE: numbers.dfy ===
/** A stand-in for `int.Parse` with the default `NumberStyles.Integer` and
    an invariant culture: optional white space around an optional '+' or
    '-' sign and one or more decimal digits, the value within the 32-bit
    range. `int.Parse` itself is library code; the parsers built from the
    options call it for every `int` option. */
module Numbers {
  import opened Wrappers
  import opened Text

  const Int32Min := -0x8000_0000
  const Int32Max := 0x7FFF_FFFF

  predicate IsDigit(c: char) {
    '0' <= c <= '9'
  }

  predicate AllDigits(s: string) {
    forall i :: 0 <= i < |s| ==> IsDigit(s[i])
  }

  /** The value of a run of decimal digits, most significant first. */
  function DigitsValue(s: string): nat
    requires AllDigits(s)
  {
    if |s| == 0 then 0 else DigitsValue(s[..|s| - 1]) * 10 + (s[|s| - 1] as int - '0' as int)
  }

  /** `FormatException.Message`. */
  function FormatMessage(s: string): string {
    "The input string '" + s + "' was not in a correct format."
  }

  /** `OverflowException.Message`. */
  const OverflowMessage := "Value was either too large or too small for an Int32."

  /** `int.Parse(s)`: the value, or the message of the exception it throws. */
  function ParseInt32(s: string): (r: Result<int, string>)
    ensures r.Ok? ==> Int32Min <= r.value <= Int32Max
    ensures r.Err? ==> r.error == FormatMessage(s) || r.error == OverflowMessage
  {
    var t := Trim(s);
    var signed := |t| > 0 && (t[0] == '-' || t[0] == '+');
    var digits := if signed then t[1..] else t;
    if |digits| == 0 || !AllDigits(digits) then Err(FormatMessage(s))
    else
      var magnitude := DigitsValue(digits);
      var n: int := if signed && t[0] == '-' then -(magnitude as int) else magnitude;
      if n < Int32Min || n > Int32Max then Err(OverflowMessage) else Ok(n)
  }

  /** Reading back the decimal digits of a number gives the number. */
  lemma {:induction false} DigitsValueOfNatToString(n: nat)
    ensures AllDigits(NatToString(n)) && DigitsValue(NatToString(n)) == n
    decreases n
  {
    NatToStringDigits(n);
    if n >= 10 {
      DigitsValueOfNatToString(n / 10);
      var d := NatToString(n);
      assert d[..|d| - 1] == NatToString(n / 10);
    }
  }

  /** `int.Parse` reads back what `int.ToString` prints, for every 32-bit
      value. */
  lemma {:induction false} ParseInt32RoundTrip(n: int)
    requires Int32Min <= n <= Int32Max
    ensures ParseInt32(IntToString(n)) == Ok(n)
  {
    var m: nat := if n < 0 then -n else n;
    DigitsValueOfNatToString(m);
    if n < 0 {
      var d := NatToString(m);
      var s := IntToString(n);
      assert s == "-" + d;
      assert s[0] == '-';
      assert s[1..] == d;
      assert s[|s| - 1] == d[|d| - 1];
      assert IsDigit(d[|d| - 1]);
      TrimmedUnchanged(s);
      ParseMinus(s);
    } else {
      ParseDigits(NatToString(m));
    }
  }

  /** A bare run of digits reads as its value. */
  lemma {:induction false} ParseDigits(d: string)
    requires |d| > 0 && AllDigits(d) && DigitsValue(d) <= Int32Max
    ensures ParseInt32(d) == Ok(DigitsValue(d) as int)
  {
    assert IsDigit(d[0]) && IsDigit(d[|d| - 1]);
    TrimmedUnchanged(d);
    var t := Trim(d);
    assert t == d;
    assert !(t[0] == '-' || t[0] == '+');
  }

  /** A trimmed '-' followed by digits reads as the negated digits. */
  lemma {:induction false} ParseMinus(s: string)
    requires Trim(s) == s && |s| > 1 && s[0] == '-' && AllDigits(s[1..]) && DigitsValue(s[1..]) <= -Int32Min
    ensures ParseInt32(s) == Ok(-(DigitsValue(s[1..]) as int))
  {
  }

  /** A sign without digits, or any character besides the sign and the
      digits inside the white space, is a format error. */
  lemma {:induction false} ParseInt32RejectsNonDigits(s: string, i: nat)
    requires var t := Trim(s); i < |t| && !IsDigit(t[i]) && !(i == 0 && (t[0] == '-' || t[0] == '+'))
    ensures ParseInt32(s) == Err(FormatMessage(s))
  {
    var t := Trim(s);
    if |t| > 0 && (t[0] == '-' || t[0] == '+') {
      assert t[1..][i - 1] == t[i];
    }
  }
}

=== FILE: option_info.dfy ===
/** `OptionInfo` (CLIParserSourceGenerator/OptionInfo.cs): the per-option
    metadata the generator derives from a parameter, and the pieces of C#
    text it emits for that option — the option-holder properties, the
    conversion expression, the `switch` section of the parser and the
    missing-option check. Roslyn syntax trees are modelled as the text they
    print as (after `NormalizeWhitespace` where a unit test pins it). */
module Options {
  import opened Wrappers
  import opened Text
  import opened Symbols
  import opened Parameters
  import Naming

  datatype OptionInfo = OptionInfo(
    optionName: string,
    propertyName: string,
    parameter: ParameterInfo,
    isArrayLike: bool,
    backingListName: Option<string>,
    valueSetPropertyName: Option<string>,
    elementType: Option<TypeSymbol>)

  const ListPrefix := "System.Collections.Generic.List<"

  /** The display string names an array or a generic list. */
  predicate IsArrayLikeType(display: string) {
    EndsWith(display, "[]") || StartsWith(display, ListPrefix)
  }

  /** A set flag exists: the parser must see this option. */
  predicate IsRequired(o: OptionInfo) {
    o.valueSetPropertyName.Some?
  }

  /** How C# prints an interpolated string that may be null. */
  function NullText(s: Option<string>): string {
    if s.Some? then s.value else ""
  }

  function TypeDisplay(o: OptionInfo): string {
    o.parameter.declaredType.display
  }

  /** `OptionInfo.Create`. Deriving the flag name throws on an empty
      parameter name. */
  function Create(p: ParameterInfo): (r: Result<OptionInfo, string>)
    ensures r.Err? <==> |p.parameterName| == 0
    ensures r.Ok? ==> Naming.Optionify(p.parameterName) == Ok(r.value.optionName)
    ensures r.Ok? ==> r.value.propertyName == p.parameterName && r.value.parameter == p
    ensures r.Ok? ==> (r.value.isArrayLike <==> IsArrayLikeType(p.declaredType.display))
    ensures r.Ok? ==> (r.value.backingListName.Some? <==> r.value.isArrayLike)
    ensures r.Ok? && r.value.isArrayLike ==> r.value.backingListName == Some("_" + p.parameterName + "BackingList")
    ensures r.Ok? ==> (IsRequired(r.value) <==> !p.hasDefaultValue && !p.isNullable)
    ensures r.Ok? && IsRequired(r.value) ==> r.value.valueSetPropertyName == Some("_" + p.parameterName + "ValueSet")
    ensures r.Ok? ==> r.value.elementType == if r.value.isArrayLike then p.declaredType.elementType else None
  {
    var optionName :- Naming.Optionify(p.parameterName);
    var isArrayLike := IsArrayLikeType(p.declaredType.display);
    var propertyName := Naming.Propertyify(p.parameterName);
    Ok(OptionInfo(
      optionName,
      propertyName,
      p,
      isArrayLike,
      if isArrayLike then Some("_" + propertyName + "BackingList") else None,
      if !(p.hasDefaultValue || p.isNullable) then Some("_" + propertyName + "ValueSet") else None,
      if isArrayLike then p.declaredType.elementType else None))
  }

  /** Whether an option is required depends on its defaults and nullability
      only: the same parameter declared with an array type gets the same
      answer. */
  lemma {:induction false} RequiredIgnoresArrayLike(p: ParameterInfo, q: ParameterInfo)
    requires |p.parameterName| > 0 && |q.parameterName| > 0
    requires p.hasDefaultValue == q.hasDefaultValue && p.isNullable == q.isNullable
    requires IsArrayLikeType(p.declaredType.display) && !IsArrayLikeType(q.declaredType.display)
    ensures Create(p).value.isArrayLike && !Create(q).value.isArrayLike
    ensures IsRequired(Create(p).value) <==> IsRequired(Create(q).value)
  {
  }

  /** A parameter whose type is named "bool", or which has an explicit
      default, never becomes a required option. */
  lemma {:induction false} BoolOrDefaultedNeverRequired(symbol: ParameterSymbol)
    requires |symbol.name| > 0
    requires IsBoolNamed(symbol.declaredType) || symbol.hasExplicitDefaultValue
    ensures Create(Parameters.Create(symbol)).Ok?
    ensures !IsRequired(Create(Parameters.Create(symbol)).value)
  {
  }

  // ---------------------------------------------------------------------
  // Option-holder properties
  // ---------------------------------------------------------------------

  /** `GetArrayConversionMethod`: how the backing list becomes the declared
      collection type. */
  function GetArrayConversionMethod(o: OptionInfo): (r: Result<string, string>)
    ensures r.Ok? <==> IsArrayLikeType(TypeDisplay(o))
    ensures r.Ok? ==> (r.value == ".ToArray()" <==> EndsWith(TypeDisplay(o), "[]"))
    ensures r.Ok? ==> r.value == ".ToArray()" || r.value == ""
  {
    var t := TypeDisplay(o);
    if EndsWith(t, "[]") then Ok(".ToArray()")
    else if StartsWith(t, ListPrefix) then Ok("")
    else Err("Failed to determine array conversion method for option " + o.optionName)
  }

  /** Every array-like option `Create` builds has a conversion method. */
  lemma {:induction false} CreatedArrayHasConversion(p: ParameterInfo)
    requires Create(p).Ok? && Create(p).value.isArrayLike
    ensures GetArrayConversionMethod(Create(p).value).Ok?
  {
  }

  /** `GetDefaultValue`: the default as C# source text; a string default is
      put in double quotes. */
  function GetDefaultValue(o: OptionInfo): (r: Result<string, string>)
    ensures r.Ok? <==> o.parameter.defaultValue.Some?
    ensures r.Ok? && TypeDisplay(o) == "string" ==>
              |r.value| == |o.parameter.defaultValue.value| + 2
              && r.value[0] == '"' && r.value[|r.value| - 1] == '"'
              && r.value[1..|r.value| - 1] == o.parameter.defaultValue.value
    ensures r.Ok? && TypeDisplay(o) != "string" ==> r.value == o.parameter.defaultValue.value
  {
    match o.parameter.defaultValue
    case None => Err("Failed to get default value for option " + o.optionName)
    case Some(v) =>
      if TypeDisplay(o) == "string" then Ok("\"" + v + "\"") else Ok(v)
  }

  /** For options built from a parameter symbol, the default is missing only
      when the symbol's explicit default is `null`; a `bool` without an
      explicit default yields the text "false". */
  lemma {:induction false} CreatedDefaultValue(symbol: ParameterSymbol)
    requires |symbol.name| > 0
    ensures Create(Parameters.Create(symbol)).Ok?
    ensures var o := Create(Parameters.Create(symbol)).value;
            o.parameter.hasDefaultValue ==>
              (GetDefaultValue(o).Err? <==> symbol.hasExplicitDefaultValue && symbol.explicitDefaultValue.None?)
    ensures var o := Create(Parameters.Create(symbol)).value;
            !symbol.hasExplicitDefaultValue && IsBoolNamed(symbol.declaredType) && TypeDisplay(o) != "string" ==>
              GetDefaultValue(o) == Ok("false")
  {
  }

  /** `BasicProperty`: an auto-property of the declared type, '?' for a
      nullable one, with an initialiser for a defaulted one. */
  function BasicProperty(o: OptionInfo): (r: Result<string, string>)
    ensures r.Err? <==> o.parameter.hasDefaultValue && o.parameter.defaultValue.None?
    ensures r.Ok? ==> StartsWith(r.value, "public " + TypeDisplay(o))
    ensures r.Ok? ==> |r.value| > 7 + |TypeDisplay(o)|
    ensures r.Ok? ==> (r.value[7 + |TypeDisplay(o)|] == '?' <==> o.parameter.isNullable)
    ensures r.Ok? && !o.parameter.hasDefaultValue ==> EndsWith(r.value, " " + o.propertyName + " { get; set; }")
    ensures r.Ok? && o.parameter.hasDefaultValue ==>
              GetDefaultValue(o).Ok? && EndsWith(r.value, " " + o.propertyName + " { get; set; } = " + GetDefaultValue(o).value + ";")
    ensures r.Ok? ==>
              |r.value| == 7 + |TypeDisplay(o)| + (if o.parameter.isNullable then 1 else 0) + |" " + o.propertyName + " { get; set; }"|
                           + (if o.parameter.hasDefaultValue then |" = " + GetDefaultValue(o).value + ";"| else 0)
  {
    var nullable := if o.parameter.isNullable then "?" else "";
    var initialiser :- if o.parameter.hasDefaultValue then
                         var d :- GetDefaultValue(o);
                         assert (" " + o.propertyName + " { get; set; }") + (" = " + d + ";")
                                == " " + o.propertyName + " { get; set; } = " + d + ";";
                         Ok(" = " + d + ";")
                       else Ok("");
    PropertyLayout("public " + TypeDisplay(o), nullable, o.propertyName, initialiser);
    Ok("public " + TypeDisplay(o) + nullable + (" " + o.propertyName + " { get; set; }") + initialiser)
  }

  /** How a property declaration is laid out: type, optional '?', then the
      name and accessors, then an optional initialiser. */
  lemma {:induction false} PropertyLayout(head: string, nullable: string, name: string, initialiser: string)
    requires nullable == "" || nullable == "?"
    ensures var s := head + nullable + (" " + name + " { get; set; }") + initialiser;
            && StartsWith(s, head)
            && |s| == |head| + |nullable| + |" " + name + " { get; set; }"| + |initialiser|
            && (s[|head|] == '?' <==> nullable == "?")
            && EndsWith(s, (" " + name + " { get; set; }") + initialiser)
  {
    var tail := " " + name + " { get; set; }";
    var s := head + nullable + tail + initialiser;
    assert s == head + (nullable + tail + initialiser);
    assert s[|head|] == (nullable + tail)[0];
    assert s[|s| - |tail + initialiser|..] == tail + initialiser;
  }

  /** `ValueSetProperty`: the boolean set flag. */
  function ValueSetProperty(o: OptionInfo): string {
    "public bool " + NullText(o.valueSetPropertyName) + " { get; set; }"
  }

  /** `ListBackingProperty`: the list the parser appends captured elements to. */
  function ListBackingProperty(o: OptionInfo): string {
    var element := if o.elementType.Some? then o.elementType.value.display else "";
    "public List<" + element + "> " + NullText(o.backingListName) + " = new();"
  }

  /** `BasicArrayProperty`: a read-only view of the backing list as the
      declared collection type. */
  function BasicArrayProperty(o: OptionInfo): (r: Result<string, string>)
    ensures r.Ok? <==> IsArrayLikeType(TypeDisplay(o))
    ensures r.Ok? ==> StartsWith(r.value, "public " + TypeDisplay(o) + " " + o.propertyName
                                          + " { get { return this." + NullText(o.backingListName))
    ensures r.Ok? ==> EndsWith(r.value, (if EndsWith(TypeDisplay(o), "[]") then ".ToArray()" else "") + "; } }")
  {
    var conversion :- GetArrayConversionMethod(o);
    var head := "public " + TypeDisplay(o) + " " + o.propertyName + " { get { return this." + NullText(o.backingListName);
    var tail := conversion + "; } }";
    assert StartsWith(head + tail, head) && EndsWith(head + tail, tail) by {
      assert (head + tail)[..|head|] == head && (head + tail)[|head|..] == tail;
    }
    Ok(head + tail)
  }

  /** `BasicArrayPropertyTest`: a `string[]` option reads its backing list
      through `ToArray`. */
  lemma {:induction false} BasicArrayPropertyArray(p: ParameterInfo)
    requires p.parameterName == "aValue" && p.declaredType.display == "string[]"
    ensures Create(p).Ok?
    ensures BasicArrayProperty(Create(p).value)
            == Ok("public string[] aValue { get { return this._aValueBackingList.ToArray(); } }")
  {
    assert EndsWith(p.declaredType.display, "[]");
    var o := Create(p).value;
    assert o.isArrayLike && o.backingListName == Some("_" + "aValue" + "BackingList");
    assert "_" + "aValue" + "BackingList" == "_aValueBackingList";
    assert GetArrayConversionMethod(o) == Ok(".ToArray()");
    ArrayPropertyText("string[]", "aValue", "_aValueBackingList", ".ToArray()");
  }

  /** `BasicListPropertyTest`: a `List<string>` option returns its backing
      list itself. */
  lemma {:induction false} BasicArrayPropertyList(p: ParameterInfo)
    requires p.parameterName == "aValue" && p.declaredType.display == "System.Collections.Generic.List<string>"
    ensures Create(p).Ok?
    ensures BasicArrayProperty(Create(p).value)
            == Ok("public System.Collections.Generic.List<string> aValue { get { return this._aValueBackingList; } }")
  {
    assert StartsWith(p.declaredType.display, ListPrefix);
    assert !EndsWith(p.declaredType.display, "[]") by {
      assert p.declaredType.display[|p.declaredType.display| - 1] == '>';
    }
    var o := Create(p).value;
    assert o.isArrayLike && o.backingListName == Some("_" + "aValue" + "BackingList");
    assert "_" + "aValue" + "BackingList" == "_aValueBackingList";
    assert GetArrayConversionMethod(o) == Ok("");
    ListPropertyText("System.Collections.Generic.List<string>", "aValue", "_aValueBackingList", "");
  }

  /** The expected text of `BasicArrayPropertyTest`, joined one literal at a time. */
  lemma {:induction false} ArrayPropertyText(display: string, name: string, list: string, conversion: string)
    requires display == "string[]" && conversion == ".ToArray()"
    requires name == "aValue" && list == "_aValueBackingList"
    ensures "public " + display + " " + name + " { get { return this." + list + (conversion + "; } }")
            == "public string[] aValue { get { return this._aValueBackingList.ToArray(); } }"
  {
    ArrayPropertyName(display, name);
    ArrayPropertyList("public " + display + " " + name, list);
    ArrayPropertyConversion("public " + display + " " + name + " { get { return this." + list, conversion);
  }

  lemma {:induction false} ArrayPropertyName(display: string, name: string)
    requires display == "string[]" && name == "aValue"
    ensures "public " + display + " " + name == "public string[] aValue"
  {
    ArrayPropertyType(display);
  }

  lemma ArrayPropertyType(display: string)
    requires display == "string[]"
    ensures "public " + display == "public string[]"
  {
  }

  lemma ArrayPropertyList(head: string, list: string)
    requires head == "public string[] aValue" && list == "_aValueBackingList"
    ensures head + " { get { return this." + list == "public string[] aValue { get { return this._aValueBackingList"
  {
  }

  lemma ArrayPropertyConversion(head: string, conversion: string)
    requires head == "public string[] aValue { get { return this._aValueBackingList" && conversion == ".ToArray()"
    ensures head + (conversion + "; } }") == "public string[] aValue { get { return this._aValueBackingList.ToArray(); } }"
  {
  }

  /** The expected text of `BasicListPropertyTest`, joined one literal at a time. */
  lemma {:induction false} ListPropertyText(display: string, name: string, list: string, conversion: string)
    requires display == "System.Collections.Generic.List<string>" && conversion == ""
    requires name == "aValue" && list == "_aValueBackingList"
    ensures "public " + display + " " + name + " { get { return this." + list + (conversion + "; } }")
            == "public System.Collections.Generic.List<string> aValue { get { return this._aValueBackingList; } }"
  {
    ListPropertyName(display, name);
    ListPropertyList("public " + display + " " + name, list);
    ListPropertyConversion("public " + display + " " + name + " { get { return this." + list, conversion);
  }

  lemma {:induction false} ListPropertyName(display: string, name: string)
    requires display == "System.Collections.Generic.List<string>" && name == "aValue"
    ensures "public " + display + " " + name == "public System.Collections.Generic.List<string> aValue"
  {
    ListPropertyType(display);
  }

  lemma ListPropertyType(display: string)
    requires display == "System.Collections.Generic.List<string>"
    ensures "public " + display == "public System.Collections.Generic.List<string>"
  {
  }

  lemma ListPropertyList(head: string, list: string)
    requires head == "public System.Collections.Generic.List<string> aValue" && list == "_aValueBackingList"
    ensures head + " { get { return this." + list == "public System.Collections.Generic.List<string> aValue { get { return this._aValueBackingList"
  {
  }

  lemma ListPropertyConversion(head: string, conversion: string)
    requires head == "public System.Collections.Generic.List<string> aValue { get { return this._aValueBackingList" && conversion == ""
    ensures head + (conversion + "; } }") == "public System.Collections.Generic.List<string> aValue { get { return this._aValueBackingList; } }"
  {
  }

  /** `GenerateOptionProperties`: the value property (or the array view and
      its backing list), followed by the set flag when the option is
      required. */
  function GenerateOptionProperties(o: OptionInfo): (r: Result<seq<string>, string>)
    ensures r.Err? <==> if o.isArrayLike then !IsArrayLikeType(TypeDisplay(o))
                        else o.parameter.hasDefaultValue && o.parameter.defaultValue.None?
    ensures r.Ok? ==> |r.value| == (if o.isArrayLike then 2 else 1) + (if IsRequired(o) then 1 else 0)
    ensures r.Ok? && IsRequired(o) ==> r.value[|r.value| - 1] == ValueSetProperty(o)
    ensures r.Ok? && o.isArrayLike ==> r.value[1] == ListBackingProperty(o)
    ensures r.Ok? ==> r.value[0] == (if o.isArrayLike then BasicArrayProperty(o).value else BasicProperty(o).value)
  {
    var main :- if o.isArrayLike then
                  var a :- BasicArrayProperty(o); Ok([a, ListBackingProperty(o)])
                else
                  var b :- BasicProperty(o); Ok([b]);
    Ok(main + if IsRequired(o) then [ValueSetProperty(o)] else [])
  }

  /** Options built from parameter symbols always yield their properties,
      unless an explicit default is `null`. */
  lemma {:induction false} CreatedPropertiesSucceed(symbol: ParameterSymbol)
    requires |symbol.name| > 0
    requires symbol.hasExplicitDefaultValue ==> symbol.explicitDefaultValue.Some?
    ensures Create(Parameters.Create(symbol)).Ok?
    ensures GenerateOptionProperties(Create(Parameters.Create(symbol)).value).Ok?
  {
  }

  // ---------------------------------------------------------------------
  // Conversion dispatch
  // ---------------------------------------------------------------------

  /** The ways the generated parser turns a token into a value. */
  datatype Conversion =
    | Verbatim           // the token itself
    | UriConstructor     // new Uri(token)
    | ValueTypeParse     // T.Parse(token) on a value type
    | ParseFactory       // a static T.Parse(string, ...) found on the type
    | StringConstructor  // new T(string, ...) found on the type

  /** An attribute whose class displays literally as "Obsolete". */
  predicate IsObsolete(m: MethodSymbol) {
    Some("Obsolete") in m.attributes
  }

  /** A member the generator may call to build a `t` from a token: named
      `Parse` or a constructor, first parameter a `string`, every further
      parameter optional; a `Parse` must also be static and return `t`; no
      member marked obsolete. */
  predicate IsCreationMember(t: TypeSymbol, m: MethodSymbol) {
    && (m.name == "Parse" || m.name == ".ctor")
    && |m.parameters| >= 1
    && m.parameters[0].typeDisplay == "string"
    && (|m.parameters| == 1 || forall k :: 1 <= k < |m.parameters| ==> m.parameters[k].isOptional)
    && (m.name == ".ctor" || m.returnType == t.display)
    && (m.name == ".ctor" || m.isStatic)
    && !IsObsolete(m)
  }

  /** `t` declares an eligible creation member with the given name. */
  predicate HasCreationMember(t: TypeSymbol, name: string) {
    exists k :: 0 <= k < |t.members| && t.members[k].name == name && IsCreationMember(t, t.members[k])
  }

  /** The decision inside `GenerateParseExpression`, in priority order. */
  function ChooseConversion(t: TypeSymbol): (r: Result<Conversion, string>)
    ensures r == Ok(Verbatim) <==> t.display == "string"
    ensures r == Ok(UriConstructor) <==> t.display == "System.Uri"
    ensures r == Ok(ValueTypeParse) <==> t.display != "string" && t.display != "System.Uri" && t.isValueType
    ensures r == Ok(ParseFactory) <==>
              t.display != "string" && t.display != "System.Uri" && !t.isValueType && HasCreationMember(t, "Parse")
    ensures r == Ok(StringConstructor) <==>
              && t.display != "string" && t.display != "System.Uri" && !t.isValueType
              && !HasCreationMember(t, "Parse") && HasCreationMember(t, ".ctor")
    ensures r.Err? <==> t.display != "string" && t.display != "System.Uri" && !t.isValueType
                        && !HasCreationMember(t, "Parse") && !HasCreationMember(t, ".ctor")
  {
    if t.display == "string" then Ok(Verbatim)
    else if t.display == "System.Uri" then Ok(UriConstructor)
    else if t.isValueType then Ok(ValueTypeParse)
    else if HasCreationMember(t, "Parse") then Ok(ParseFactory)
    else if HasCreationMember(t, ".ctor") then Ok(StringConstructor)
    else Err("Failed to find a way to parse " + t.display)
  }

  /** The C# expression for a conversion of `args[i]`. */
  function ConversionText(c: Conversion, display: string): string {
    match c
    case Verbatim => "args[i]"
    case UriConstructor => "new Uri(args[i])"
    case ValueTypeParse => display + ".Parse(args[i])"
    case ParseFactory => display + ".Parse(args[i])"
    case StringConstructor => "new " + display + "(args[i])"
  }

  /** `GenerateParseExpression`. */
  function GenerateParseExpression(t: TypeSymbol): (r: Result<string, string>)
    ensures r.Ok? <==> ChooseConversion(t).Ok?
    ensures ChooseConversion(t) == Ok(Verbatim) ==> r == Ok("args[i]")
    ensures ChooseConversion(t) == Ok(UriConstructor) ==> r == Ok("new Uri(args[i])")
    ensures ChooseConversion(t) == Ok(ValueTypeParse) || ChooseConversion(t) == Ok(ParseFactory) ==>
              r == Ok(t.display + ".Parse(args[i])")
    ensures ChooseConversion(t) == Ok(StringConstructor) ==> r == Ok("new " + t.display + "(args[i])")
  {
    var c :- ChooseConversion(t);
    Ok(ConversionText(c, t.display))
  }

  /** A member marked obsolete is never chosen: when every `Parse` and
      constructor the type declares is obsolete, a reference type other than
      `string` and `System.Uri` cannot be converted. */
  lemma {:induction false} ObsoleteMembersIgnored(t: TypeSymbol)
    requires t.display != "string" && t.display != "System.Uri" && !t.isValueType
    requires forall k :: 0 <= k < |t.members| ==> IsObsolete(t.members[k])
    ensures ChooseConversion(t).Err?
  {
  }

  /** A reference type other than `string` and `System.Uri` with an
      eligible static `Parse` is read with it, even when it also has a
      suitable constructor; without one, a suitable constructor is used. */
  lemma {:induction false} ReferenceTypeConversion(t: TypeSymbol)
    requires t.display != "string" && t.display != "System.Uri" && !t.isValueType
    ensures HasCreationMember(t, "Parse") ==> GenerateParseExpression(t) == Ok(t.display + ".Parse(args[i])")
    ensures !HasCreationMember(t, "Parse") && HasCreationMember(t, ".ctor") ==>
              GenerateParseExpression(t) == Ok("new " + t.display + "(args[i])")
  {
    assert ChooseConversion(t).Ok? ==> ChooseConversion(t).value.ParseFactory? || ChooseConversion(t).value.StringConstructor?;
  }

  /** A value type is parsed with its own `Parse` whatever members it
      declares — `bool` included, which therefore reads the next token
      instead of acting as a presence flag. */
  lemma {:induction false} ValueTypesUseParse(t: TypeSymbol)
    requires t.isValueType && t.display != "string" && t.display != "System.Uri"
    ensures GenerateParseExpression(t) == Ok(t.display + ".Parse(args[i])")
  {
  }

  // ---------------------------------------------------------------------
  // The parser's switch section and the missing-option check
  // ---------------------------------------------------------------------

  /** A statement of a generated `switch` section. */
  datatype Statement =
    | Assign(property: string, expression: string)       // options.P = E;
    | CaptureLoop(backingList: string, expression: string) // the boundary-stopping loop adding E to options.L
    | SetFlag(flag: string)                                // options.F = true;
    | Break

  datatype SwitchSection = SwitchSection(caseLabel: string, statements: seq<Statement>)

  /** `GenerateSwitchSection`: labelled with the flag; reads the value (or
      the run of array elements), sets the set flag of a required option,
      and breaks. An array-like option without an element type dereferences
      null. */
  function GenerateSwitchSection(o: OptionInfo): (r: Result<SwitchSection, string>)
    ensures r.Ok? ==> r.value.caseLabel == o.optionName
    ensures r.Ok? ==> |r.value.statements| == (if IsRequired(o) then 3 else 2)
    ensures r.Ok? ==> r.value.statements[|r.value.statements| - 1] == Break
    ensures r.Ok? ==> (r.value.statements[0].CaptureLoop? <==> o.isArrayLike)
    ensures r.Ok? ==> (SetFlag(NullText(o.valueSetPropertyName)) in r.value.statements <==> IsRequired(o))
    ensures r.Ok? && o.isArrayLike ==>
              && o.elementType.Some? && GenerateParseExpression(o.elementType.value).Ok?
              && r.value.statements[0] == CaptureLoop(NullText(o.backingListName), GenerateParseExpression(o.elementType.value).value)
    ensures r.Ok? && !o.isArrayLike ==>
              GenerateParseExpression(o.parameter.declaredType).Ok?
              && r.value.statements[0] == Assign(o.propertyName, GenerateParseExpression(o.parameter.declaredType).value)
    ensures r.Err? <==> if o.isArrayLike then o.elementType.None? || ChooseConversion(o.elementType.value).Err?
                        else ChooseConversion(o.parameter.declaredType).Err?
  {
    var first :- if o.isArrayLike then
                   if o.elementType.None? then Err("Object reference not set to an instance of an object.")
                   else
                     var e :- GenerateParseExpression(o.elementType.value);
                     Ok(CaptureLoop(NullText(o.backingListName), e))
                 else
                   var e :- GenerateParseExpression(o.parameter.declaredType);
                   Ok(Assign(o.propertyName, e));
    var flag := if IsRequired(o) then [SetFlag(o.valueSetPropertyName.value)] else [];
    Ok(SwitchSection(o.optionName, [first] + flag + [Break]))
  }

  /** The boundary test of the generated capture loop, as C# text. */
  const BoundaryTestText := "arg.StartsWith(\"-\") && (arg.StartsWith(\"--\") || arg == \"-h\" || arg == \"-?\")"

  function StatementText(s: Statement): string {
    match s
    case Assign(p, e) => "options." + p + " = " + e + ";"
    case CaptureLoop(l, e) =>
      "for (; i < args.Length; i++) { arg = args[i]; if (" + BoundaryTestText
      + ") { i--; break; } else { options." + l + ".Add(" + e + "); } }"
    case SetFlag(f) => "options." + f + " = true;"
    case Break => "break;"
  }

  /** The section as normalised text lines: the label, then each statement
      indented by four spaces. */
  function SwitchSectionLines(s: SwitchSection): (r: seq<string>)
    ensures |r| == |s.statements| + 1 && r[0] == "case \"" + s.caseLabel + "\":"
    ensures forall k :: 0 <= k < |s.statements| ==> r[k + 1] == "    " + StatementText(s.statements[k])
  {
    ["case \"" + s.caseLabel + "\":"] + seq(|s.statements|, k requires 0 <= k < |s.statements| => "    " + StatementText(s.statements[k]))
  }

  /** `GenerateSetValueAccess`: the set-flag expression of a required option. */
  function GenerateSetValueAccess(o: OptionInfo): (r: Option<string>)
    ensures r.Some? <==> IsRequired(o)
    ensures r.Some? ==> r.value == "options." + o.valueSetPropertyName.value
  {
    if o.valueSetPropertyName.Some? then Some("options." + o.valueSetPropertyName.value) else None
  }

  /** `GenerateSpecificMissingOptionCheck`: for a required option, the
      statement adding its flag to the missing list when the set flag is
      false, as normalised text lines. */
  function GenerateSpecificMissingOptionCheck(o: OptionInfo): (r: Option<seq<string>>)
    ensures r.Some? <==> IsRequired(o)
    ensures r.Some? ==> |r.value| == 4 && r.value[0] == "if (!" + GenerateSetValueAccess(o).value + ")"
    ensures r.Some? ==> r.value[2] == "    missing.Add(\"" + o.optionName + "\");"
  {
    match GenerateSetValueAccess(o)
    case None => None
    case Some(access) =>
      Some(["if (!" + access + ")", "{", "    missing.Add(\"" + o.optionName + "\");", "}"])
  }
}

=== FILE: overall.dfy ===
/** The help-text half of `OverallSourceGenerator`
    (PitayaSourceGenerator/OverallSourceGenerator.cs): the description is
    the lines of the `<summary>` block of the documentation comment, and the
    option descriptions are its `<param name...>` lines. */
module Overall {
  import opened Wrappers
  import opened Text
  import Options
  import Comments
  import Help

  /** `SkipWhile(t => !t.StartsWith(prefix))`. */
  function SkipUntil(lines: seq<string>, prefix: string): (r: seq<string>)
    ensures |r| <= |lines| && r == lines[|lines| - |r|..]
    ensures forall k :: 0 <= k < |lines| - |r| ==> !StartsWith(lines[k], prefix)
    ensures |r| > 0 ==> StartsWith(r[0], prefix)
  {
    if |lines| == 0 || StartsWith(lines[0], prefix) then lines
    else SkipUntil(lines[1..], prefix)
  }

  /** `TakeWhile(t => !t.StartsWith(prefix))`. */
  function TakeUntil(lines: seq<string>, prefix: string): (r: seq<string>)
    ensures |r| <= |lines| && r == lines[..|r|]
    ensures forall k :: 0 <= k < |r| ==> !StartsWith(lines[k], prefix)
    ensures |r| < |lines| ==> StartsWith(lines[|r|], prefix)
  {
    if |lines| == 0 || StartsWith(lines[0], prefix) then []
    else [lines[0]] + TakeUntil(lines[1..], prefix)
  }

  /** `.Skip(1)`. */
  function Skip1(lines: seq<string>): seq<string> {
    if |lines| == 0 then [] else lines[1..]
  }

  /** The lines after the first one starting with `open`, up to the next
      one starting with `close`. */
  function Between(lines: seq<string>, open: string, close: string): seq<string> {
    TakeUntil(Skip1(SkipUntil(lines, open)), close)
  }

  /** `OverallSourceGenerator.ExtractDescription`. */
  function ExtractDescription(commentLines: seq<string>): string {
    Join("\n", Between(commentLines, "<summary>", "</summary>"))
  }

  // ---------------------------------------------------------------------
  // A positional reference definition of the description
  // ---------------------------------------------------------------------

  /** The first position at or after `from` whose line starts with `prefix`. */
  function FirstStarting(lines: seq<string>, prefix: string, from: nat): (r: Option<nat>)
    decreases |lines| - from
    ensures r.Some? ==> from <= r.value < |lines| && StartsWith(lines[r.value], prefix)
    ensures forall k :: from <= k < |lines| && (r.None? || k < r.value) ==> !StartsWith(lines[k], prefix)
  {
    if from >= |lines| then None
    else if StartsWith(lines[from], prefix) then Some(from)
    else FirstStarting(lines, prefix, from + 1)
  }

  /** The lines strictly between the first line starting with `open` and
      the next line starting with `close` (or the end); none without an
      opening line. */
  function Block(lines: seq<string>, open: string, close: string): seq<string> {
    match FirstStarting(lines, open, 0)
    case None => []
    case Some(s) =>
      match FirstStarting(lines, close, s + 1)
      case None => lines[s + 1..]
      case Some(e) => lines[s + 1..e]
  }

  /** `SkipUntil` stops at the first line with the prefix. */
  lemma {:induction false} SkipUntilFirst(lines: seq<string>, prefix: string, s: nat)
    requires FirstStarting(lines, prefix, 0) == Some(s)
    ensures SkipUntil(lines, prefix) == lines[s..]
  {
    var skipped := SkipUntil(lines, prefix);
    var t := |lines| - |skipped|;
    assert |skipped| > 0 ==> skipped[0] == lines[t];
    assert t == s;
  }

  /** With no line carrying the prefix, `SkipUntil` skips everything. */
  lemma {:induction false} SkipUntilNone(lines: seq<string>, prefix: string)
    requires FirstStarting(lines, prefix, 0).None?
    ensures SkipUntil(lines, prefix) == []
  {
  }

  /** `TakeUntil` from position `from` stops at the first later line with
      the prefix. */
  lemma {:induction false} TakeUntilFirst(lines: seq<string>, prefix: string, from: nat, e: nat)
    requires from <= |lines| && FirstStarting(lines, prefix, from) == Some(e)
    ensures TakeUntil(lines[from..], prefix) == lines[from..e]
  {
    var body := lines[from..];
    var taken := TakeUntil(body, prefix);
    assert |taken| < |body| ==> body[|taken|] == lines[from + |taken|];
    assert forall k :: 0 <= k < |taken| ==> taken[k] == body[k] == lines[from + k];
    assert |taken| == e - from;
  }

  /** With no later line carrying the prefix, `TakeUntil` takes the rest. */
  lemma {:induction false} TakeUntilNone(lines: seq<string>, prefix: string, from: nat)
    requires from <= |lines| && FirstStarting(lines, prefix, from).None?
    ensures TakeUntil(lines[from..], prefix) == lines[from..]
  {
  }

  /** The two scans select exactly the block. */
  lemma {:induction false} BetweenIsBlock(lines: seq<string>, open: string, close: string)
    ensures Between(lines, open, close) == Block(lines, open, close)
  {
    match FirstStarting(lines, open, 0)
    case None =>
      assert SkipUntil(lines, open) == [] by { SkipUntilNone(lines, open); }
    case Some(s) =>
      assert Skip1(SkipUntil(lines, open)) == lines[s + 1..] by { SkipUntilFirst(lines, open, s); }
      match FirstStarting(lines, close, s + 1)
      case None =>
        assert TakeUntil(lines[s + 1..], close) == lines[s + 1..] by { TakeUntilNone(lines, close, s + 1); }
      case Some(e) =>
        assert TakeUntil(lines[s + 1..], close) == lines[s + 1..e] by { TakeUntilFirst(lines, close, s + 1, e); }
  }

  /** The description is the summary block's lines joined by "\n". */
  lemma {:induction false} ExtractDescriptionIsSummary(lines: seq<string>)
    ensures ExtractDescription(lines) == Join("\n", Block(lines, "<summary>", "</summary>"))
  {
    BetweenIsBlock(lines, "<summary>", "</summary>");
  }

  /** A block read back: whatever precedes an opening line (with no opening
      line of its own), then body lines none of which closes the block, then
      the closing line and anything after, gives the body. */
  lemma {:induction false} BlockOf(before: seq<string>, openLine: string, body: seq<string>, closeLine: string, after: seq<string>,
                open: string, close: string)
    requires forall k :: 0 <= k < |before| ==> !StartsWith(before[k], open)
    requires StartsWith(openLine, open) && StartsWith(closeLine, close)
    requires forall k :: 0 <= k < |body| ==> !StartsWith(body[k], close)
    ensures Block(before + [openLine] + body + [closeLine] + after, open, close) == body
  {
    var lines := before + [openLine] + body + [closeLine] + after;
    var s := |before|;
    assert lines[s] == openLine;
    assert forall k :: 0 <= k < s ==> lines[k] == before[k];
    var f := FirstStarting(lines, open, 0);
    assert f.Some? && f.value <= s;
    assert f.value == s;
    var e := s + 1 + |body|;
    assert lines[e] == closeLine;
    assert forall k :: s + 1 <= k < e ==> lines[k] == body[k - s - 1];
    var g := FirstStarting(lines, close, s + 1);
    assert g.Some? && g.value <= e;
    assert g.value == e;
    assert lines[s + 1..e] == body;
  }

  /** A summary block read back: the description is its body joined by "\n". */
  lemma {:induction false} ExtractDescriptionOfBlock(before: seq<string>, openLine: string, body: seq<string>, closeLine: string, after: seq<string>)
    requires forall k :: 0 <= k < |before| ==> !StartsWith(before[k], "<summary>")
    requires StartsWith(openLine, "<summary>") && StartsWith(closeLine, "</summary>")
    requires forall k :: 0 <= k < |body| ==> !StartsWith(body[k], "</summary>")
    ensures ExtractDescription(before + [openLine] + body + [closeLine] + after) == Join("\n", body)
  {
    BlockOf(before, openLine, body, closeLine, after, "<summary>", "</summary>");
    ExtractDescriptionIsSummary(before + [openLine] + body + [closeLine] + after);
  }

  // ---------------------------------------------------------------------
  // GenerateHelpText
  // ---------------------------------------------------------------------

  /** The `<param name` lines, in order. */
  function ParamLines(lines: seq<string>): (r: seq<string>)
    ensures forall k :: 0 <= k < |r| ==> StartsWith(r[k], "<param name")
    ensures forall k :: 0 <= k < |lines| && StartsWith(lines[k], "<param name") ==> lines[k] in r
    ensures forall l :: l in r ==> l in lines
  {
    if |lines| == 0 then []
    else (if StartsWith(lines[0], "<param name") then [lines[0]] else []) + ParamLines(lines[1..])
  }

  /** The selection keeps the order of the comment: the `<param name`
      lines of two runs of lines are those of the first run, then those of
      the second. */
  lemma {:induction false} ParamLinesConcat(a: seq<string>, b: seq<string>)
    ensures ParamLines(a + b) == ParamLines(a) + ParamLines(b)
    decreases |a|
  {
    if |a| == 0 {
      assert a + b == b;
    } else {
      assert (a + b)[0] == a[0] && (a + b)[1..] == a[1..] + b;
      ParamLinesConcat(a[1..], b);
    }
  }

  /** A single line is kept exactly when it starts a parameter comment. */
  lemma {:induction false} ParamLinesSingle(l: string)
    ensures ParamLines([l]) == if StartsWith(l, "<param name") then [l] else []
  {
    assert [l][1..] == [];
  }

  /** `items.Select(f).ToList()` with an `f` that may throw: the first item
      whose conversion fails aborts the whole list with its error. */
  function SelectAll<T>(f: string -> Result<T, string>, items: seq<string>): (r: Result<seq<T>, string>)
    ensures r.Ok? <==> forall k :: 0 <= k < |items| ==> f(items[k]).Ok?
    ensures r.Ok? ==> |r.value| == |items| && forall k :: 0 <= k < |items| ==> r.value[k] == f(items[k]).value
    ensures r.Err? ==> exists k :: 0 <= k < |items| && f(items[k]) == Err(r.error)
                                   && forall j :: 0 <= j < k ==> f(items[j]).Ok?
  {
    if |items| == 0 then Ok([])
    else
      var first :- f(items[0]);
      var tail := items[1..];
      assert forall k :: 1 <= k < |items| ==> items[k] == tail[k - 1];
      var rest :- SelectAll(f, tail);
      Ok([first] + rest)
  }

  /** `lines.Select(CommentInfo.Create).ToList()`. */
  function CreateAll(lines: seq<string>): (r: Result<seq<Comments.CommentInfo>, string>)
    ensures r.Ok? <==> forall k :: 0 <= k < |lines| ==> Comments.Create(lines[k]).Ok?
    ensures r.Ok? ==> |r.value| == |lines| && forall k :: 0 <= k < |lines| ==> r.value[k] == Comments.Create(lines[k]).value
    ensures r.Err? ==> exists k :: 0 <= k < |lines| && Comments.Create(lines[k]) == Err(r.error)
                                   && forall j :: 0 <= j < k ==> Comments.Create(lines[j]).Ok?
  {
    SelectAll(Comments.Create, lines)
  }

  /** Reading the comments fails exactly when one of the lines does not
      parse. */
  lemma {:induction false} CreateAllFails(lines: seq<string>)
    ensures CreateAll(lines).Err? <==> exists l :: l in lines && Comments.Create(l).Err?
  {
    if exists l :: l in lines && Comments.Create(l).Err? {
      var l :| l in lines && Comments.Create(l).Err?;
      var k :| 0 <= k < |lines| && lines[k] == l;
      assert !Comments.Create(lines[k]).Ok?;
    }
  }

  /** `OverallSourceGenerator.GenerateHelpText`. */
  function GenerateHelpText(assemblyName: string, options: seq<Options.OptionInfo>, commentLines: seq<string>): (r: Result<string, string>)
    ensures r.Err? <==> exists l :: l in ParamLines(commentLines) && Comments.Create(l).Err?
    ensures r.Ok? ==> r.value == Help.Generate(assemblyName, ExtractDescription(commentLines), options, CreateAll(ParamLines(commentLines)).value)
  {
    var paramLines := ParamLines(commentLines);
    CreateAllFails(paramLines);
    var comments :- CreateAll(paramLines);
    Ok(Help.Generate(assemblyName, ExtractDescription(commentLines), options, comments))
  }
}

=== FILE: parameter_info.dfy ===
/** `ParameterInfo` (PitayaSourceGenerator/ParameterInfo.cs): what the
    generator records about one parameter of the user's `Main` — its name,
    its type, whether the type is annotated nullable, and whether it has a
    default value (an explicit one, or the implicit `false` of a `bool`). */
module Parameters {
  import opened Wrappers
  import opened Symbols

  datatype ParameterInfo = ParameterInfo(
    parameterName: string,
    declaredType: TypeSymbol,
    isNullable: bool,
    hasDefaultValue: bool,
    defaultValue: Option<string>)

  /** The constructor: nullability is read off the type's annotation, the
      other fields are stored as given. */
  function NewParameterInfo(parameterName: string, declaredType: TypeSymbol,
                            hasDefaultValue: bool, defaultValue: Option<string>): (p: ParameterInfo)
    ensures p.isNullable <==> declaredType.annotation == Annotated
    ensures p.parameterName == parameterName && p.declaredType == declaredType
    ensures p.hasDefaultValue == hasDefaultValue && p.defaultValue == defaultValue
  {
    ParameterInfo(parameterName, declaredType, declaredType.annotation == Annotated,
                  hasDefaultValue, defaultValue)
  }

  /** The type's metadata name is literally "bool". */
  predicate IsBoolNamed(t: TypeSymbol) {
    t.name == "bool"
  }

  /** `ParameterInfo.Create`. */
  function Create(symbol: ParameterSymbol): (p: ParameterInfo)
    ensures p.parameterName == symbol.name && p.declaredType == symbol.declaredType
    ensures p.isNullable <==> symbol.declaredType.annotation == Annotated
    ensures p.hasDefaultValue <==> symbol.hasExplicitDefaultValue || IsBoolNamed(symbol.declaredType)
    ensures symbol.hasExplicitDefaultValue ==> p.defaultValue == symbol.explicitDefaultValue
    ensures !symbol.hasExplicitDefaultValue && IsBoolNamed(symbol.declaredType) ==> p.defaultValue == Some("false")
    ensures !symbol.hasExplicitDefaultValue && !IsBoolNamed(symbol.declaredType) ==> p.defaultValue == None
  {
    var isBool := IsBoolNamed(symbol.declaredType);
    NewParameterInfo(
      symbol.name,
      symbol.declaredType,
      symbol.hasExplicitDefaultValue || isBool,
      if symbol.hasExplicitDefaultValue then symbol.explicitDefaultValue
      else if isBool then Some("false") else None)
  }

  /** A default value is only ever recorded together with the has-default
      flag, and the flag without a value arises only from an explicit `null`
      default. */
  lemma {:induction false} CreateDefaultConsistent(symbol: ParameterSymbol)
    ensures Create(symbol).defaultValue.Some? ==> Create(symbol).hasDefaultValue
    ensures (Create(symbol).hasDefaultValue && Create(symbol).defaultValue.None?)
            <==> (symbol.hasExplicitDefaultValue && symbol.explicitDefaultValue.None?)
  {
  }
}

=== FILE: program_generator.dfy ===
/** `ProgramGenerator` (PitayaSourceGenerator/ProgramGenerator.cs): the
    generated entry point. It declares `Main` with the same return shape as
    the user's `Main`, parses the arguments, prints the help text and
    returns when help was asked for, and otherwise calls the user's `Main`
    with every option as a named argument. */
module Programs {
  import opened Wrappers
  import opened Text
  import opened Extensions
  import Options
  import Parameters

  const ClassName := "AutoGeneratedProgram"

  /** The user's `Main` produces an exit code. */
  predicate ReturnsValue(t: MainReturnType) {
    t == Int || t == TaskInt
  }

  /** The user's `Main` is asynchronous. */
  predicate IsAsync(t: MainReturnType) {
    t == Task || t == TaskInt
  }

  /** The exception all three switches throw for a value outside the four
      named members. */
  function UnexpectedError(t: MainReturnType): string {
    UnexpectedReturnType(EnumText(t))
  }

  /** `GenerateHelpReturnStyle`: how the generated `Main` leaves after
      printing the help text. */
  function HelpReturnStyle(t: MainReturnType): (r: Result<string, string>)
    ensures r.Err? <==> t.Undefined?
    ensures r.Err? ==> r.error == UnexpectedError(t)
    ensures r.Ok? ==> StartsWith(r.value, "return") && EndsWith(r.value, ";")
    ensures r.Ok? ==> (r.value == "return 0;" <==> ReturnsValue(t))
  {
    match t
    case Void => Ok("return;")
    case Int => Ok("return 0;")
    case Task => Ok("return;")
    case TaskInt => Ok("return 0;")
    case Undefined(_) => Err(UnexpectedError(t))
  }

  /** `GenerateReturnStyle`: what precedes the call of the user's `Main`. */
  function ReturnStyle(t: MainReturnType): (r: Result<string, string>)
    ensures r.Err? <==> t.Undefined?
    ensures r.Err? ==> r.error == UnexpectedError(t)
    ensures r.Ok? ==> (StartsWith(r.value, "return ") <==> ReturnsValue(t))
    ensures r.Ok? ==> (EndsWith(r.value, "await ") <==> IsAsync(t))
  {
    match t
    case Void => Ok("")
    case Int => Ok("return ")
    case Task => Ok("await ")
    case TaskInt => Ok("return await ")
    case Undefined(_) => Err(UnexpectedError(t))
  }

  /** The modifiers and return type of the generated `Main`, up to its name. */
  function StubHead(t: MainReturnType): (r: Result<string, string>)
    ensures r.Err? <==> t.Undefined?
    ensures r.Err? ==> r.error == UnexpectedError(t)
    ensures r.Ok? ==> StartsWith(r.value, "static ") && EndsWith(r.value, " Main")
    ensures r.Ok? ==> (StartsWith(r.value, "static async ") <==> IsAsync(t))
  {
    match t
    case Void => assert "static void Main"[7] != "static async "[7]; Ok("static void Main")
    case Int => assert "static int Main"[7] != "static async "[7]; Ok("static int Main")
    case Task => Ok("static async Task Main")
    case TaskInt => Ok("static async Task<int> Main")
    case Undefined(_) => Err(UnexpectedError(t))
  }

  /** `GenerateMethodStub`, as `NormalizeWhitespace` prints it. */
  function MethodStub(t: MainReturnType): (r: Result<string, string>)
    ensures r.Err? <==> t.Undefined?
    ensures r.Err? ==> r.error == UnexpectedError(t)
    ensures r.Ok? ==> StartsWith(r.value, "static ") && EndsWith(r.value, " Main()")
  {
    var head :- StubHead(t);
    Ok(head + "()")
  }

  /** The named argument passing one option: `@name: options.@Property`. */
  function MainArgument(o: Options.OptionInfo): string {
    "@" + o.parameter.parameterName + ": options.@" + o.propertyName
  }

  /** The call of the user's `Main`, one named argument per option in order. */
  function MainCall(prefix: string, options: seq<Options.OptionInfo>): string {
    prefix + "Program.Main(" + Join(", ", MainArguments(options)) + ");"
  }

  /** The named arguments, in the order of the options. */
  function MainArguments(options: seq<Options.OptionInfo>): (r: seq<string>)
    ensures |r| == |options|
    ensures forall k :: 0 <= k < |options| ==> r[k] == MainArgument(options[k])
  {
    seq(|options|, k requires 0 <= k < |options| => MainArgument(options[k]))
  }

  /** The generated class, line by line as `NormalizeWhitespace` lays it out
      (four spaces per level); the help text goes inside a raw string
      literal whose delimiters sit on their own lines. The first switch to
      meet an undefined return type throws. */
  function Generate(options: seq<Options.OptionInfo>, optionsClassName: string, parserClassName: string,
                    helpText: string, t: MainReturnType): (r: Result<seq<string>, string>)
    ensures r.Err? <==> t.Undefined?
    ensures r.Err? ==> r.error == UnexpectedError(t)
    ensures r.Ok? ==> |r.value| == 18
  {
    var head :- StubHead(t);
    var helpReturn := HelpReturnStyle(t).value;
    var prefix := ReturnStyle(t).value;
    Ok([
      "internal class " + ClassName,
      "{",
      "    " + head + "(string[] args)",
      "    {",
      "        string helpText = \"\"\"",
      helpText,
      "\"\"\";",
      "        " + parserClassName + " parser = new();",
      "        " + optionsClassName + " options = parser.Parse(args);",
      "        if (options.___ShowHelp___)",
      "        {",
      "            Console.WriteLine(helpText);",
      "            " + helpReturn,
      "        }",
      "",
      "        " + MainCall(prefix, options),
      "    }",
      "}"
    ])
  }

  // ---------------------------------------------------------------------
  // Properties
  // ---------------------------------------------------------------------

  /** The user's `Main` produces an exit code exactly when its declared type
      is `int` or `Task<int>`. */
  lemma {:induction false} ReturnsValueFromDeclaredType(t: MainReturnType)
    requires !t.Undefined?
    ensures ReturnsValue(t) <==> DeclaredName(t) == "int" || EndsWith(DeclaredName(t), "<int>")
  {
    match t
    case Void =>
    case Int =>
    case Task =>
      assert DeclaredName(t)[|DeclaredName(t)| - 1] == 'k';
    case TaskInt =>
      assert DeclaredName(t)[|DeclaredName(t)| - 5..] == "<int>";
  }

  /** The user's `Main` is asynchronous exactly when its declared type is a
      `System.Threading.Tasks.Task`. */
  lemma {:induction false} IsAsyncFromDeclaredType(t: MainReturnType)
    requires !t.Undefined?
    ensures IsAsync(t) <==> StartsWith(DeclaredName(t), "System.Threading.Tasks.Task")
  {
    match t
    case Void =>
    case Int =>
    case Task =>
    case TaskInt =>
      assert DeclaredName(t)[..27] == "System.Threading.Tasks.Task";
  }

  /** The return shape of the generated `Main` follows the user's: the help
      path returns 0 exactly when the user's `Main` produces an exit code,
      the call is returned exactly then, and awaited exactly when the user's
      `Main` is asynchronous. */
  lemma {:induction false} ReturnStylesFollowShape(t: MainReturnType)
    requires !t.Undefined?
    ensures HelpReturnStyle(t) == Ok(if ReturnsValue(t) then "return 0;" else "return;")
    ensures ReturnStyle(t) == Ok((if ReturnsValue(t) then "return " else "") + (if IsAsync(t) then "await " else ""))
  {
    match t
    case Void =>
      assert "" + "" == "";
    case Int =>
      assert "return " + "" == "return ";
    case Task =>
      assert "" + "await " == "await ";
    case TaskInt =>
      assert "return " + "await " == "return await ";
  }

  /** The generated `Main` is declared `async` exactly when the user's is,
      with the user's return type minus the `System.Threading.Tasks`
      namespace. */
  lemma {:induction false} StubFollowsShape(t: MainReturnType)
    requires !t.Undefined?
    ensures StubHead(t).value == "static " + (if IsAsync(t) then "async " else "") + ShortName(t) + " Main"
  {
    ShortNames();
    match t
    case Void =>
      assert "static " + "" + "void" + " Main" == "static void Main";
    case Int =>
      assert "static " + "" + "int" + " Main" == "static int Main";
    case Task =>
      assert "static " + "async " + "Task" + " Main" == "static async Task Main";
    case TaskInt =>
      assert "static " + "async " + "Task<int>" + " Main" == "static async Task<int> Main";
  }

  /** The short spelling of each supported type. */
  lemma ShortNames()
    ensures ShortName(Void) == "void" && ShortName(Int) == "int"
    ensures ShortName(Task) == "Task" && ShortName(TaskInt) == "Task<int>"
  {
    assert ShortName(Void) == "void" by {
      assert |DeclaredName(Void)| < 23;
    }
    assert ShortName(Int) == "int" by {
      assert |DeclaredName(Int)| < 23;
    }
    assert ShortName(Task) == "Task" by {
      assert DeclaredName(Task)[..23] == "System.Threading.Tasks.";
    }
    assert ShortName(TaskInt) == "Task<int>" by {
      assert DeclaredName(TaskInt)[..23] == "System.Threading.Tasks.";
    }
  }

  /** The declared type as the generated `Main` spells it: the `Task` types
      without their namespace. */
  function ShortName(t: MainReturnType): (r: string)
    requires !t.Undefined?
    ensures EndsWith(DeclaredName(t), r)
  {
    var n := DeclaredName(t);
    if StartsWith(n, "System.Threading.Tasks.") then n[23..] else n
  }

  /** Exactly the four supported types produce a program; anything else
      fails with the type's number in the message. */
  lemma {:induction false} UndefinedFails(options: seq<Options.OptionInfo>, optionsClassName: string, parserClassName: string,
                       helpText: string, n: int)
    ensures Generate(options, optionsClassName, parserClassName, helpText, Undefined(n))
            == Err("Unexpected return type '" + IntToString(n) + "'.")
  {
  }

  /** The help path comes first: the help text is printed and `Main` returns
      before the line that calls the user's `Main`, which passes every option
      in declaration order. */
  lemma {:induction false} HelpBeforeCall(options: seq<Options.OptionInfo>, optionsClassName: string, parserClassName: string,
                       helpText: string, t: MainReturnType)
    requires !t.Undefined?
    ensures var lines := Generate(options, optionsClassName, parserClassName, helpText, t).value;
            && lines[5] == helpText
            && lines[9] == "        if (options.___ShowHelp___)"
            && lines[11] == "            Console.WriteLine(helpText);"
            && lines[12] == "            " + HelpReturnStyle(t).value
            && lines[15] == "        " + MainCall(ReturnStyle(t).value, options)
  {
    var r := Generate(options, optionsClassName, parserClassName, helpText, t);
    assert r.Ok?;
  }

  /** Where `: options.@` first occurs in an argument. */
  function SplitArgument(argument: string): Option<(string, string)> {
    if |argument| == 0 || argument[0] != '@' then None
    else
      match IndexOfFrom(argument, ": options.@", 1)
      case None => None
      case Some(k) => Some((argument[1..k], argument[k + 11..]))
  }

  /** Each named argument reads back as the parameter it binds and the
      property it reads, as long as the parameter name holds no ':' (C#
      identifiers never do). */
  lemma {:induction false} MainArgumentSplits(o: Options.OptionInfo)
    requires ':' !in o.parameter.parameterName
    ensures SplitArgument(MainArgument(o)) == Some((o.parameter.parameterName, o.propertyName))
  {
    var a := MainArgument(o);
    var name := o.parameter.parameterName;
    var n := |name|;
    var sep := ": options.@";
    assert a == "@" + name + sep + o.propertyName;
    assert a[1..1 + n] == name;
    assert a[1 + n..12 + n] == sep;
    assert OccursAt(a, sep, 1 + n);
    forall k | 1 <= k < 1 + n ensures !OccursAt(a, sep, k) {
      assert a[k] == name[k - 1];
    }
    IndexOfFromFirst(a, sep, 1, 1 + n);
  }

  /** An option's argument binds the parameter to the property of the same
      name, since the property keeps the parameter's name. */
  lemma {:induction false} CreatedArgumentBindsSameName(o: Options.OptionInfo, p: Parameters.ParameterInfo)
    requires Options.Create(p) == Ok(o) && ':' !in p.parameterName
    ensures SplitArgument(MainArgument(o)) == Some((p.parameterName, p.parameterName))
  {
    MainArgumentSplits(o);
  }

  /** The data rows of ProgramGeneratorTests. */
  lemma ReturnStyleExamples()
    ensures HelpReturnStyle(Void) == Ok("return;") && HelpReturnStyle(Int) == Ok("return 0;")
    ensures HelpReturnStyle(Task) == Ok("return;") && HelpReturnStyle(TaskInt) == Ok("return 0;")
    ensures ReturnStyle(Void) == Ok("") && ReturnStyle(Int) == Ok("return ")
    ensures ReturnStyle(Task) == Ok("await ") && ReturnStyle(TaskInt) == Ok("return await ")
    ensures MethodStub(Void) == Ok("static void Main()") && MethodStub(Int) == Ok("static int Main()")
    ensures MethodStub(Task) == Ok("static async Task Main()")
    ensures MethodStub(TaskInt) == Ok("static async Task<int> Main()")
  {
    assert "static void Main" + "()" == "static void Main()";
    assert "static int Main" + "()" == "static int Main()";
    assert "static async Task Main" + "()" == "static async Task Main()";
    assert "static async Task<int> Main" + "()" == "static async Task<int> Main()";
  }

  /** `(MainReturnTypeEnum)111` has no stub. */
  lemma UndefinedStubExample()
    ensures MethodStub(Undefined(111)) == Err("Unexpected return type '111'.")
  {
    assert DigitChar(1) == '1';
    assert NatToString(1) == "1";
    assert NatToString(11) == "11";
    assert NatToString(111) == "111";
    assert IntToString(111) == "111";
    assert "Unexpected return type '" + "111" + "'." == "Unexpected return type '111'.";
  }
}

=== FILE: runtime.dfy ===
/** The parse loop every generated parser runs, after the hand-written
    reference parser `Parser.Parse` (ConsoleApp8/Parser.cs). A schema lists
    the options in declaration order; the loop reads a flag token, dispatches
    on it and moves on, until the tokens run out or help was asked for; then
    every required option that was never given is reported at once.

    The options record keeps one value per option and one "given" bit per
    option (the source keeps a `_set...` property only for the options that
    need it: the required ones and the arrays). */
module Runtime {
  import opened Wrappers
  import opened Text

  /** A converted option value. `Items` is the backing list of an array
      option; `Member` is the position of an enum member in the lookup
      table. */
  datatype Value = Null | Str(text: string) | Number(number: int) | Flag(flag: bool) | Member(index: nat) | Items(items: seq<Value>)

  /** What can go wrong, one constructor per exception the parser can
      throw: an index past the end of `args`, a failing conversion (the
      converter's message), an unknown enum value, an unknown flag, and
      missing required options. */
  datatype ParseError =
    | IndexOutOfRange
    | ConversionFailed(token: string, reason: string)
    | InvalidEnumValue(token: string, flag: string)
    | UnrecognizedOption(token: string)
    | MissingRequired(flags: seq<string>)

  /** How the switch section of an option reads its value:
      - `Scalar`: the next token, through a conversion (`args[i]`,
        `int.Parse(args[i])`, ...);
      - `Presence`: no value, the option becomes `true` (the `--arg3` case);
      - `Array`: every following token up to a boundary, each converted;
      - `Enum`: the next token looked up, ignoring ASCII case, among the
        member names. */
  datatype Kind =
    | Scalar(convert: string -> Result<Value, string>)
    | Presence
    | Array(convert: string -> Result<Value, string>)
    | Enum(names: seq<string>)

  datatype OptionSpec = OptionSpec(flag: string, kind: Kind, required: bool, initial: Value)

  type Schema = seq<OptionSpec>

  /** The options record: a value and a "given" bit per option, and the
      `___ShowHelp___` bit. */
  datatype Record = Record(values: seq<Value>, given: seq<bool>, help: bool)

  predicate Fits(schema: Schema, rec: Record) {
    |rec.values| == |schema| && |rec.given| == |schema|
  }

  /** `new Options()`: every option at its initial value, none given. */
  function Initial(schema: Schema): (r: Record)
    ensures Fits(schema, r) && !r.help
    ensures forall k :: 0 <= k < |schema| ==> r.values[k] == schema[k].initial && !r.given[k]
  {
    Record(seq(|schema|, k requires 0 <= k < |schema| => schema[k].initial), seq(|schema|, _ => false), false)
  }

  /** The three case labels that ask for help. */
  predicate IsHelpToken(t: string) {
    t == "-h" || t == "-?" || t == "--help"
  }

  /** The test that ends an array capture: a token that starts with "--",
      or is "-h" or "-?". Other dash-led tokens such as "-5" are values. */
  predicate IsBoundary(t: string) {
    StartsWith(t, "-") && (StartsWith(t, "--") || t == "-h" || t == "-?")
  }

  /** The `case` label a token selects: the first option with that flag. */
  function FindFlag(schema: Schema, token: string): (r: Option<nat>)
    ensures r.Some? ==> r.value < |schema| && schema[r.value].flag == token
    ensures r.Some? ==> forall j :: 0 <= j < r.value ==> schema[j].flag != token
    ensures r.None? <==> forall j :: 0 <= j < |schema| ==> schema[j].flag != token
  {
    if |schema| == 0 then None
    else if schema[0].flag == token then Some(0)
    else match FindFlag(schema[1..], token)
      case None => None
      case Some(k) => Some(k + 1)
  }

  /** The lookup of a dictionary built with `StringComparer.OrdinalIgnoreCase`:
      the first member name equal to the token up to ASCII case. */
  function EnumLookup(names: seq<string>, token: string): (r: Option<nat>)
    ensures r.Some? ==> r.value < |names| && Lower(names[r.value]) == Lower(token)
    ensures r.None? <==> forall j :: 0 <= j < |names| ==> Lower(names[j]) != Lower(token)
  {
    if |names| == 0 then None
    else if Lower(names[0]) == Lower(token) then Some(0)
    else match EnumLookup(names[1..], token)
      case None => None
      case Some(k) => Some(k + 1)
  }

  /** The inner `for` of an array option, from position `j`: the converted
      tokens up to the first boundary (or the end), and where it stopped. */
  function Capture(args: seq<string>, j: nat, convert: string -> Result<Value, string>): (r: Result<(seq<Value>, nat), ParseError>)
    requires j <= |args|
    decreases |args| - j
    ensures r.Ok? ==> var items := r.value.0; var stop := r.value.1;
              && j <= stop <= |args| && |items| == stop - j
              && (forall m :: j <= m < stop ==> !IsBoundary(args[m]) && convert(args[m]) == Ok(items[m - j]))
              && (stop < |args| ==> IsBoundary(args[stop]))
    ensures r.Err? ==>
              exists m :: && j <= m < |args|
                          && !IsBoundary(args[m]) && convert(args[m]).Err?
                          && r.error == ConversionFailed(args[m], convert(args[m]).error)
                          && forall p :: j <= p < m ==> !IsBoundary(args[p]) && convert(args[p]).Ok?
  {
    if j == |args| || IsBoundary(args[j]) then Ok(([], j))
    else
      match convert(args[j])
      case Err(reason) => Err(ConversionFailed(args[j], reason))
      case Ok(v) =>
        var rest :- Capture(args, j + 1, convert);
        Ok(([v] + rest.0, rest.1))
  }

  /** What earlier occurrences of array option `k` collected. */
  function Collected(rec: Record, k: nat): seq<Value>
    requires k < |rec.values|
  {
    if rec.values[k].Items? then rec.values[k].items else []
  }

  /** Stores a value for option `k` and marks it given. */
  function Store(rec: Record, k: nat, v: Value): (r: Record)
    requires k < |rec.values| && k < |rec.given|
  {
    rec.(values := rec.values[k := v], given := rec.given[k := true])
  }

  /** One pass of the `for` body at flag position `i`: the updated record
      and the position of the next flag. The loop's own `i++` plus the one
      at the top of the body move two tokens on; an array capture moves to
      its boundary instead, so that token is read next as a flag. */
  function Step(schema: Schema, args: seq<string>, i: nat, rec: Record): (r: Result<(Record, nat), ParseError>)
    requires Fits(schema, rec) && i < |args|
    ensures r.Ok? ==> Fits(schema, r.value.0) && r.value.1 > i
    ensures r.Err? ==> !r.error.MissingRequired?
  {
    var token := args[i];
    match FindFlag(schema, token)
    case Some(k) =>
      (match schema[k].kind
       case Scalar(convert) =>
         if i + 1 >= |args| then Err(IndexOutOfRange)
         else
           (match convert(args[i + 1])
            case Err(reason) => Err(ConversionFailed(args[i + 1], reason))
            case Ok(v) => Ok((Store(rec, k, v), i + 2)))
       case Presence => Ok((Store(rec, k, Flag(true)), i + 2))
       case Array(convert) =>
         var captured :- Capture(args, i + 1, convert);
         Ok((Store(rec, k, Items(Collected(rec, k) + captured.0)), captured.1))
       case Enum(names) =>
         if i + 1 >= |args| then Err(IndexOutOfRange)
         else
           (match EnumLookup(names, args[i + 1])
            case None => Err(InvalidEnumValue(args[i + 1], token))
            case Some(m) => Ok((Store(rec, k, Member(m)), i + 2))))
    case None =>
      if IsHelpToken(token) then Ok((rec.(help := true), i + 2))
      else Err(UnrecognizedOption(token))
  }

  /** The `for` loop from flag position `i`: it runs while tokens remain and
      help has not been asked for. */
  function Scan(schema: Schema, args: seq<string>, i: nat, rec: Record): (r: Result<Record, ParseError>)
    requires Fits(schema, rec)
    ensures r.Ok? ==> Fits(schema, r.value)
    ensures r.Err? ==> !r.error.MissingRequired?
    decreases |args| - i
  {
    if i >= |args| || rec.help then Ok(rec)
    else
      var step :- Step(schema, args, i, rec);
      Scan(schema, args, step.1, step.0)
  }

  /** The flags of the required options that were not given, in
      declaration order. */
  function MissingFlags(schema: Schema, rec: Record, from: nat): (r: seq<string>)
    requires Fits(schema, rec) && from <= |schema|
    decreases |schema| - from
    ensures |r| == 0 <==> forall k :: from <= k < |schema| && schema[k].required ==> rec.given[k]
    ensures forall f :: f in r <==> exists k :: from <= k < |schema| && schema[k].required && !rec.given[k] && schema[k].flag == f
  {
    if from == |schema| then []
    else
      var rest := MissingFlags(schema, rec, from + 1);
      if schema[from].required && !rec.given[from] then [schema[from].flag] + rest else rest
  }

  /** `Parser.Parse`: the loop, then the required check unless help was
      asked for. */
  function Parse(schema: Schema, args: seq<string>): (r: Result<Record, ParseError>)
    ensures r.Ok? ==> Fits(schema, r.value)
    ensures r.Ok? ==> r.value.help || forall k :: 0 <= k < |schema| && schema[k].required ==> r.value.given[k]
  {
    var rec :- Scan(schema, args, 0, Initial(schema));
    var missing := MissingFlags(schema, rec, 0);
    if !rec.help && |missing| > 0 then Err(MissingRequired(missing)) else Ok(rec)
  }

  /** The message of the exception each error stands for. */
  function Message(e: ParseError): string {
    match e
    case IndexOutOfRange => "Index was outside the bounds of the array."
    case ConversionFailed(_, reason) => reason
    case InvalidEnumValue(token, flag) => "'" + token + "' is not a valid value for " + flag
    case UnrecognizedOption(token) => "'" + token + "' is not a recognized option"
    case MissingRequired(flags) => MissingHead + (if |flags| > 1 then "s" else "") + ": " + Join(", ", flags)
  }

  // ---------------------------------------------------------------------
  // Help
  // ---------------------------------------------------------------------

  /** A help token in flag position ends the scan at once: whatever follows
      is never read. */
  lemma {:induction false} HelpEndsScan(schema: Schema, args: seq<string>, i: nat, rec: Record)
    requires Fits(schema, rec) && i < |args| && !rec.help
    requires IsHelpToken(args[i]) && FindFlag(schema, args[i]).None?
    ensures Scan(schema, args, i, rec) == Ok(rec.(help := true))
  {
  }

  /** Help skips the required check: a help token alone parses, even when
      the schema has required options. */
  lemma {:induction false} HelpAlone(schema: Schema, h: string)
    requires IsHelpToken(h) && FindFlag(schema, h).None?
    ensures Parse(schema, [h]) == Ok(Initial(schema).(help := true))
  {
    HelpEndsScan(schema, [h], 0, Initial(schema));
  }

  // ---------------------------------------------------------------------
  // Errors
  // ---------------------------------------------------------------------

  /** A flag token nothing matches: it is one of the tokens, no option has
      it as its flag and it does not ask for help. */
  lemma {:induction false} ScanUnrecognized(schema: Schema, args: seq<string>, i: nat, rec: Record, t: string)
    requires Fits(schema, rec)
    requires Scan(schema, args, i, rec) == Err(UnrecognizedOption(t))
    ensures exists j :: i <= j < |args| && args[j] == t
    ensures FindFlag(schema, t).None? && !IsHelpToken(t)
    decreases |args| - i
  {
    var step := Step(schema, args, i, rec);
    if step.Ok? {
      ScanUnrecognized(schema, args, step.value.1, step.value.0, t);
    } else {
      StepUnrecognized(schema, args, i, rec, t);
    }
  }

  lemma {:induction false} StepUnrecognized(schema: Schema, args: seq<string>, i: nat, rec: Record, t: string)
    requires Fits(schema, rec) && i < |args|
    requires Step(schema, args, i, rec) == Err(UnrecognizedOption(t))
    ensures args[i] == t && FindFlag(schema, t).None? && !IsHelpToken(t)
  {
  }

  /** An unknown flag aborts the whole parse with an error naming it. */
  lemma {:induction false} UnrecognizedNamesToken(schema: Schema, args: seq<string>, t: string)
    requires Parse(schema, args) == Err(UnrecognizedOption(t))
    ensures t in args && FindFlag(schema, t).None? && !IsHelpToken(t)
  {
    var s := Scan(schema, args, 0, Initial(schema));
    assert s == Err(UnrecognizedOption(t));
    ScanUnrecognized(schema, args, 0, Initial(schema), t);
  }

  /** The required check: the parse fails with a missing-options error
      exactly when the loop succeeded without help and some required option
      was never given, and it then lists exactly those, in declaration
      order. */
  lemma {:induction false} MissingExactly(schema: Schema, args: seq<string>, flags: seq<string>)
    ensures Parse(schema, args) == Err(MissingRequired(flags)) <==>
              var s := Scan(schema, args, 0, Initial(schema));
              && s.Ok? && !s.value.help
              && flags == MissingFlags(schema, s.value, 0) && |flags| > 0
  {
  }

  /** One pass marks at most the option whose flag is the token read. */
  lemma {:induction false} StepGivenSeen(schema: Schema, args: seq<string>, i: nat, rec: Record, k: nat)
    requires Fits(schema, rec) && i < |args| && k < |schema|
    requires Step(schema, args, i, rec).Ok?
    ensures Step(schema, args, i, rec).value.0.given[k] ==> rec.given[k] || schema[k].flag == args[i]
  {
  }

  /** An option ends up given only if it was given before the loop
      reached `i` or its flag is one of the tokens from `i` on. */
  lemma {:induction false} ScanGivenSeen(schema: Schema, args: seq<string>, i: nat, rec: Record, k: nat)
    requires Fits(schema, rec) && k < |schema|
    requires Scan(schema, args, i, rec).Ok?
    ensures Scan(schema, args, i, rec).value.given[k] ==>
              rec.given[k] || exists j :: i <= j < |args| && args[j] == schema[k].flag
    decreases |args| - i
  {
    if i < |args| && !rec.help {
      var step := Step(schema, args, i, rec).value;
      StepGivenSeen(schema, args, i, rec, k);
      ScanGivenSeen(schema, args, step.1, step.0, k);
    }
  }

  /** A parse that succeeds without help saw the flag of every required
      option among the tokens: leaving one out cannot go unnoticed. */
  lemma {:induction false} RequiredFlagsAppear(schema: Schema, args: seq<string>)
    requires Parse(schema, args).Ok? && !Parse(schema, args).value.help
    ensures forall k :: 0 <= k < |schema| && schema[k].required ==> schema[k].flag in args
  {
    forall k | 0 <= k < |schema| && schema[k].required
      ensures schema[k].flag in args
    {
      ScanGivenSeen(schema, args, 0, Initial(schema), k);
    }
  }

  /** The error says "arguments" exactly when more than one is missing. */
  lemma {:induction false} MissingMessagePlural(flags: seq<string>)
    requires |flags| > 0
    ensures var m := Message(MissingRequired(flags));
            && StartsWith(m, MissingHead)
            && (m[25] == 's' <==> |flags| > 1)
            && EndsWith(m, ": " + Join(", ", flags))
  {
    var s := if |flags| > 1 then "s" else "";
    Layout(MissingHead, s, ": ", Join(", ", flags));
  }

  const MissingHead := "Missing required argument"

  /** Where the parts of a four-part concatenation sit. */
  lemma {:induction false} Layout(a: string, b: string, c: string, d: string)
    ensures var m := a + b + c + d;
            && StartsWith(m, a)
            && (|b| > 0 ==> m[|a|] == b[0])
            && (|b| == 0 && |c| > 0 ==> m[|a|] == c[0])
            && EndsWith(m, c + d)
  {
    var m := a + b + c + d;
    assert m[..|a|] == a;
    assert m[|m| - |c + d|..] == c + d;
  }

  // ---------------------------------------------------------------------
  // Cursor movement
  // ---------------------------------------------------------------------

  /** Outside an array, every flag takes exactly two tokens: a scalar's
      value is the next token, converted whatever its shape (even when it
      looks like a flag), and a presence flag skips the next token too. */
  lemma {:induction false} TwoTokensPerFlag(schema: Schema, args: seq<string>, i: nat, rec: Record, k: nat)
    requires Fits(schema, rec) && i < |args|
    requires FindFlag(schema, args[i]) == Some(k) && !schema[k].kind.Array?
    requires Step(schema, args, i, rec).Ok?
    ensures Step(schema, args, i, rec).value.1 == i + 2
    ensures schema[k].kind.Scalar? ==>
              i + 1 < |args| && schema[k].kind.convert(args[i + 1]).Ok?
              && Step(schema, args, i, rec).value.0 == Store(rec, k, schema[k].kind.convert(args[i + 1]).value)
    ensures schema[k].kind.Presence? ==> Step(schema, args, i, rec).value.0 == Store(rec, k, Flag(true))
  {
  }

  /** One pass of the loop, when it does not end the scan. */
  lemma {:induction false} ScanStep(schema: Schema, args: seq<string>, i: nat, rec: Record)
    requires Fits(schema, rec) && i < |args| && !rec.help
    requires Step(schema, args, i, rec).Ok?
    ensures Scan(schema, args, i, rec)
            == Scan(schema, args, Step(schema, args, i, rec).value.1, Step(schema, args, i, rec).value.0)
  {
  }

  /** A scalar flag whose next token converts stores the converted value. */
  lemma {:induction false} ScalarStep(schema: Schema, args: seq<string>, i: nat, rec: Record, k: nat)
    requires Fits(schema, rec) && i + 1 < |args|
    requires FindFlag(schema, args[i]) == Some(k) && schema[k].kind.Scalar?
    requires schema[k].kind.convert(args[i + 1]).Ok?
    ensures Step(schema, args, i, rec) == Ok((Store(rec, k, schema[k].kind.convert(args[i + 1]).value), i + 2))
  {
  }

  /** A scalar flag read by the loop: the converted next token is stored
      and the loop goes on two tokens later. */
  lemma {:induction false} ScanScalar(schema: Schema, args: seq<string>, i: nat, rec: Record, k: nat, v: Value)
    requires Fits(schema, rec) && !rec.help && i + 1 < |args|
    requires FindFlag(schema, args[i]) == Some(k) && schema[k].kind.Scalar?
    requires schema[k].kind.convert(args[i + 1]) == Ok(v)
    ensures Scan(schema, args, i, rec) == Scan(schema, args, i + 2, Store(rec, k, v))
  {
    ScalarStep(schema, args, i, rec, k);
    ScanStep(schema, args, i, rec);
  }

  /** A presence flag read by the loop: the option becomes true and the
      loop goes on two tokens later. */
  lemma {:induction false} ScanPresence(schema: Schema, args: seq<string>, i: nat, rec: Record, k: nat)
    requires Fits(schema, rec) && !rec.help && i < |args|
    requires FindFlag(schema, args[i]) == Some(k) && schema[k].kind.Presence?
    ensures Scan(schema, args, i, rec) == Scan(schema, args, i + 2, Store(rec, k, Flag(true)))
  {
    ScanStep(schema, args, i, rec);
  }

  /** An enum flag read by the loop: the member the next token names is
      stored and the loop goes on two tokens later. */
  lemma {:induction false} ScanEnum(schema: Schema, args: seq<string>, i: nat, rec: Record, k: nat, m: nat)
    requires Fits(schema, rec) && !rec.help && i + 1 < |args|
    requires FindFlag(schema, args[i]) == Some(k) && schema[k].kind.Enum?
    requires EnumLookup(schema[k].kind.names, args[i + 1]) == Some(m)
    ensures Scan(schema, args, i, rec) == Scan(schema, args, i + 2, Store(rec, k, Member(m)))
  {
    ScanStep(schema, args, i, rec);
  }

  /** An array flag read by the loop: the captured items are appended and
      the loop goes on at the capture's stopping point. */
  lemma {:induction false} ScanArray(schema: Schema, args: seq<string>, i: nat, rec: Record, k: nat, items: seq<Value>, stop: nat)
    requires Fits(schema, rec) && !rec.help && i < |args|
    requires FindFlag(schema, args[i]) == Some(k) && schema[k].kind.Array?
    requires Capture(args, i + 1, schema[k].kind.convert) == Ok((items, stop))
    ensures Scan(schema, args, i, rec) == Scan(schema, args, stop, Store(rec, k, Items(Collected(rec, k) + items)))
  {
    ScanStep(schema, args, i, rec);
  }

  /** A capture that runs to the end of the arguments: every remaining
      token is a value and converts. */
  lemma {:induction false} CaptureToEnd(args: seq<string>, j: nat, convert: string -> Result<Value, string>, items: seq<Value>)
    requires j <= |args| && |items| == |args| - j
    requires forall m :: j <= m < |args| ==> !IsBoundary(args[m]) && convert(args[m]) == Ok(items[m - j])
    ensures Capture(args, j, convert) == Ok((items, |args|))
    decreases |args| - j
  {
    if j < |args| {
      CaptureToEnd(args, j + 1, convert, items[1..]);
      assert [items[0]] + items[1..] == items;
    }
  }

  /** A token in flag position that no section takes and that does not
      ask for help ends the loop with an error naming it. */
  lemma {:induction false} ScanUnknown(schema: Schema, args: seq<string>, i: nat, rec: Record)
    requires Fits(schema, rec) && !rec.help && i < |args|
    requires FindFlag(schema, args[i]).None? && !IsHelpToken(args[i])
    ensures Scan(schema, args, i, rec) == Err(UnrecognizedOption(args[i]))
  {
  }

  /** An array flag appends its converted tokens, in order, to what earlier
      occurrences collected, and hands the boundary token back to the loop
      as the next flag. */
  lemma {:induction false} ArrayCapture(schema: Schema, args: seq<string>, i: nat, rec: Record, k: nat)
    requires Fits(schema, rec) && i < |args|
    requires FindFlag(schema, args[i]) == Some(k) && schema[k].kind.Array?
    requires Step(schema, args, i, rec).Ok?
    ensures var next := Step(schema, args, i, rec).value.0;
            var stop := Step(schema, args, i, rec).value.1;
            var before := Collected(rec, k);
            && i + 1 <= stop <= |args|
            && (stop < |args| ==> IsBoundary(args[stop]))
            && (forall m :: i + 1 <= m < stop ==> !IsBoundary(args[m]))
            && next.given[k]
            && next.values[k].Items?
            && next.values[k].items[..|before|] == before
            && |next.values[k].items| == |before| + (stop - i - 1)
            && forall m :: i + 1 <= m < stop ==>
                 Ok(next.values[k].items[|before| + m - i - 1]) == schema[k].kind.convert(args[m])
  {
    var convert := schema[k].kind.convert;
    var c := Capture(args, i + 1, convert);
    var before := Collected(rec, k);
    StepArray(schema, args, i, rec, k);
    var items := c.value.0;
    var stop := c.value.1;
    var next := Store(rec, k, Items(before + items));
    assert next.values[k] == Items(before + items);
    forall m | i + 1 <= m < stop
      ensures Ok(next.values[k].items[|before| + m - i - 1]) == convert(args[m])
    {
      assert (before + items)[|before| + m - i - 1] == items[m - i - 1];
    }
  }

  /** The array case of `Step`, unfolded. */
  lemma {:induction false} StepArray(schema: Schema, args: seq<string>, i: nat, rec: Record, k: nat)
    requires Fits(schema, rec) && i < |args|
    requires FindFlag(schema, args[i]) == Some(k) && schema[k].kind.Array?
    requires Step(schema, args, i, rec).Ok?
    ensures var c := Capture(args, i + 1, schema[k].kind.convert);
            var before := Collected(rec, k);
            && c.Ok?
            && Step(schema, args, i, rec) == Ok((Store(rec, k, Items(before + c.value.0)), c.value.1))
  {
  }

  // ---------------------------------------------------------------------
  // Untouched options
  // ---------------------------------------------------------------------

  /** An option whose flag never occurs from position `i` on keeps its value
      and its "given" bit; in particular an option that ends up given had
      its flag among the tokens. */
  lemma {:induction false} UnmentionedUnchanged(schema: Schema, args: seq<string>, i: nat, rec: Record, k: nat)
    requires Fits(schema, rec) && k < |schema|
    requires Scan(schema, args, i, rec).Ok?
    requires forall j :: i <= j < |args| ==> args[j] != schema[k].flag
    ensures Scan(schema, args, i, rec).value.values[k] == rec.values[k]
    ensures Scan(schema, args, i, rec).value.given[k] == rec.given[k]
    decreases |args| - i
  {
    if i < |args| && !rec.help {
      var step := Step(schema, args, i, rec);
      var next := step.value.0;
      var j := step.value.1;
      assert next.values[k] == rec.values[k] && next.given[k] == rec.given[k] by {
        StepKeepsOthers(schema, args, i, rec, k);
      }
      UnmentionedUnchanged(schema, args, j, next, k);
    }
  }

  /** One pass of the loop touches only the option its token names. */
  lemma {:induction false} StepKeepsOthers(schema: Schema, args: seq<string>, i: nat, rec: Record, k: nat)
    requires Fits(schema, rec) && i < |args| && k < |schema|
    requires Step(schema, args, i, rec).Ok? && args[i] != schema[k].flag
    ensures Step(schema, args, i, rec).value.0.values[k] == rec.values[k]
    ensures Step(schema, args, i, rec).value.0.given[k] == rec.given[k]
  {
    match FindFlag(schema, args[i])
    case Some(k') =>
      assert k' != k;
    case None =>
  }

  /** Options that are not supplied keep their initial values and are not
      given. */
  lemma {:induction false} UnsuppliedKeepsInitial(schema: Schema, args: seq<string>, k: nat)
    requires k < |schema| && Parse(schema, args).Ok?
    requires schema[k].flag !in args
    ensures Parse(schema, args).value.values[k] == schema[k].initial
    ensures !Parse(schema, args).value.given[k]
  {
    UnmentionedUnchanged(schema, args, 0, Initial(schema), k);
  }

  // ---------------------------------------------------------------------
  // Enum lookup
  // ---------------------------------------------------------------------

  /** The enum lookup depends on the token only up to ASCII case. */
  lemma {:induction false} EnumLookupIgnoresCase(names: seq<string>, a: string, b: string)
    requires Lower(a) == Lower(b)
    ensures EnumLookup(names, a) == EnumLookup(names, b)
  {
    if |names| > 0 {
      EnumLookupIgnoresCase(names[1..], a, b);
    }
  }

  /** An enum option stores the member the token names, ignoring case, and
      an unknown member is an error naming the token and the flag. */
  lemma {:induction false} EnumStep(schema: Schema, args: seq<string>, i: nat, rec: Record, k: nat)
    requires Fits(schema, rec) && i + 1 < |args|
    requires FindFlag(schema, args[i]) == Some(k) && schema[k].kind.Enum?
    ensures var names := schema[k].kind.names;
            match EnumLookup(names, args[i + 1])
            case None => Step(schema, args, i, rec) == Err(InvalidEnumValue(args[i + 1], schema[k].flag))
            case Some(m) => Step(schema, args, i, rec) == Ok((Store(rec, k, Member(m)), i + 2))
                            && Lower(names[m]) == Lower(args[i + 1])
  {
  }
}

=== FILE: sample_parser.dfy ===
/** The hand-written reference parser of the sample application
    (ConsoleApp8/Parser.cs) as an instance of the runtime parse loop: its
    eight options, their conversions and initial values, and the behaviour
    its unit tests (CLIParserTests/UnitTest1.cs) pin down. */
module Sample {
  import opened Wrappers
  import opened Text
  import opened Numbers
  import opened Runtime

  /** A `string` option: the token itself. */
  function Verbatim(s: string): Result<Value, string> {
    Ok(Str(s))
  }

  /** An `int` option: `int.Parse` of the token. */
  function IntValue(s: string): Result<Value, string> {
    match ParseInt32(s)
    case Ok(n) => Ok(Number(n))
    case Err(m) => Err(m)
  }

  /** The keys of `_enumMapForSampleEnum`, in the order of `SampleEnum`. */
  const EnumNames: seq<string> := ["value1", "value2", "value3"]

  /** The switch sections of `Parser.Parse`, in order, with the property
      initialisers of `Options`: `arg1` and `argOptional` start as null,
      the `int`s as 0, `arg3` as false, `argWithDefault` as "default", the
      backing list empty and `enumOption` null. `arg1`, `arg2` and `argName`
      are the required ones. */
  const SampleSchema: Schema := [
    OptionSpec("--arg1", Scalar(Verbatim), true, Null),
    OptionSpec("--arg2", Scalar(IntValue), true, Number(0)),
    OptionSpec("--arg3", Presence, false, Flag(false)),
    OptionSpec("--arg-name", Scalar(IntValue), true, Number(0)),
    OptionSpec("--arg-with-default", Scalar(Verbatim), false, Str("default")),
    OptionSpec("--arg-optional", Scalar(Verbatim), false, Null),
    OptionSpec("--arg-array", Array(IntValue), false, Items([])),
    OptionSpec("--enum-option", Enum(EnumNames), false, Null)
  ]

  const Arg1: nat := 0
  const Arg2: nat := 1
  const Arg3: nat := 2
  const ArgName: nat := 3
  const ArgWithDefault: nat := 4
  const ArgOptional: nat := 5
  const ArgArray: nat := 6
  const EnumOption: nat := 7

  /** A parse of the sample that does not ask for help has all three
      required options. */
  lemma {:induction false} SampleRequiredGiven(args: seq<string>)
    requires Parse(SampleSchema, args).Ok? && !Parse(SampleSchema, args).value.help
    ensures var rec := Parse(SampleSchema, args).value;
            rec.given[Arg1] && rec.given[Arg2] && rec.given[ArgName]
  {
    assert SampleSchema[Arg1].required && SampleSchema[Arg2].required && SampleSchema[ArgName].required;
  }

  // ---------------------------------------------------------------------
  // The sample's switch
  // ---------------------------------------------------------------------

  /** `defaultArgs` of the tests. */
  const DefaultArgs: seq<string> := ["--arg1", "value1", "--arg2", "2", "--arg-name", "2"]

  /** The initial values of the eight options. */
  const SampleInitials: seq<Value> := [Null, Number(0), Flag(false), Number(0), Str("default"), Null, Items([]), Null]

  /** `new Options()`. */
  const InitialRecord: Record := Record(SampleInitials, [false, false, false, false, false, false, false, false], false)

  /** The record after reading `defaultArgs`. */
  const AfterDefaults: Record :=
    Record([Str("value1"), Number(2), Flag(false), Number(2), Str("default"), Null, Items([]), Null],
           [true, true, false, true, false, false, false, false],
           false)

  /** What the replays of the tests use about the sample's switch: the
      required options and the initial values, which section each flag
      selects (and that the help tokens select none), and each section's
      conversion. */
  ghost predicate Shaped(schema: Schema) {
    Declared(schema) && Selects(schema) && Converts(schema)
  }

  /** `--arg1`, `--arg2` and `--arg-name` are the required options. */
  ghost predicate RequiredThree(schema: Schema) {
    && |schema| == 8
    && schema[Arg1].flag == "--arg1" && schema[Arg2].flag == "--arg2" && schema[ArgName].flag == "--arg-name"
    && (forall k :: 0 <= k < 8 ==> (schema[k].required <==> k == Arg1 || k == Arg2 || k == ArgName))
  }

  ghost predicate Declared(schema: Schema) {
    && RequiredThree(schema)
    && (forall k :: 0 <= k < 8 ==> schema[k].initial == SampleInitials[k])
  }

  ghost predicate Selects(schema: Schema) {
    && FindFlag(schema, "--arg1") == Some(Arg1)
    && FindFlag(schema, "--arg2") == Some(Arg2)
    && FindFlag(schema, "--arg3") == Some(Arg3)
    && FindFlag(schema, "--arg-name") == Some(ArgName)
    && FindFlag(schema, "--arg-array") == Some(ArgArray)
    && FindFlag(schema, "--enum-option") == Some(EnumOption)
    && FindFlag(schema, "-h").None? && FindFlag(schema, "-?").None? && FindFlag(schema, "--help").None?
  }

  ghost predicate Converts(schema: Schema) {
    && |schema| == 8
    && schema[Arg1].kind.Scalar? && schema[Arg1].kind.convert == Verbatim
    && schema[Arg2].kind.Scalar? && schema[Arg2].kind.convert == IntValue
    && schema[Arg3].kind.Presence?
    && schema[ArgName].kind.Scalar? && schema[ArgName].kind.convert == IntValue
    && schema[ArgArray].kind.Array? && schema[ArgArray].kind.convert == IntValue
    && schema[EnumOption].kind == Enum(EnumNames)
  }

  /** The sample's switch has that shape. */
  lemma SampleShaped()
    ensures Shaped(SampleSchema)
  {
    SampleDeclared();
    SampleSelects();
  }

  lemma SampleDeclared()
    ensures Declared(SampleSchema)
  {
  }

  lemma SampleSelects()
    ensures Selects(SampleSchema)
  {
    SampleFlagsFirst(Arg1);
    SampleFlagsFirst(Arg2);
    SampleFlagsFirst(Arg3);
    SampleFlagsFirst(ArgName);
    SampleFlagsLast(ArgArray);
    SampleFlagsLast(EnumOption);
    HelpSelectsNothing();
  }

  /** Each of the first four flags selects its own switch section. */
  lemma {:induction false} SampleFlagsFirst(k: nat)
    requires k < 4
    ensures FindFlag(SampleSchema, SampleSchema[k].flag) == Some(k)
  {
    var s := SampleSchema;
    assert |s[0].flag| == 6 && |s[1].flag| == 6 && |s[2].flag| == 6 && |s[3].flag| == 10;
    assert s[0].flag[5] == '1' && s[1].flag[5] == '2' && s[2].flag[5] == '3';
  }

  /** And so does each of the last four. */
  lemma {:induction false} SampleFlagsLast(k: nat)
    requires 4 <= k < 8
    ensures FindFlag(SampleSchema, SampleSchema[k].flag) == Some(k)
  {
    var s := SampleSchema;
    assert forall j :: 0 <= j < k ==> s[j].flag != s[k].flag by {
      assert |s[4].flag| == 18 && |s[5].flag| == 14 && |s[6].flag| == 11 && |s[7].flag| == 13;
      assert |s[0].flag| == 6 && |s[1].flag| == 6 && |s[2].flag| == 6 && |s[3].flag| == 10;
    }
  }

  /** No flag of the sample is a help token. */
  lemma HelpSelectsNothing()
    ensures FindFlag(SampleSchema, "-h").None? && FindFlag(SampleSchema, "-?").None?
    ensures FindFlag(SampleSchema, "--help").None?
  {
    var s := SampleSchema;
    assert forall k :: 0 <= k < 8 ==> |s[k].flag| >= 6 && (s[k].flag[2] == 'a' || s[k].flag[2] == 'e');
    assert "--help"[2] == 'h';
  }

  /** Tokens the sample has no section for. */
  lemma SampleUnknowns()
    ensures FindFlag(SampleSchema, "--not-an-option").None? && FindFlag(SampleSchema, "x").None?
  {
    var s := SampleSchema;
    assert |s[0].flag| == 6 && |s[1].flag| == 6 && |s[2].flag| == 6 && |s[3].flag| == 10;
    assert |s[4].flag| == 18 && |s[5].flag| == 14 && |s[6].flag| == 11 && |s[7].flag| == 13;
  }

  /** `int.Parse` of the small numbers the tests use. */
  lemma {:induction false} SmallNumber(n: nat)
    requires n < 10
    ensures IntValue([DigitChar(n)]) == Ok(Number(n))
  {
    assert IntToString(n) == [DigitChar(n)];
    ParseInt32RoundTrip(n);
  }

  lemma One()
    ensures IntValue("1") == Ok(Number(1))
  {
    SmallNumber(1);
    assert [DigitChar(1)] == "1";
  }

  lemma Two()
    ensures IntValue("2") == Ok(Number(2))
  {
    SmallNumber(2);
    assert [DigitChar(2)] == "2";
  }

  lemma Three()
    ensures IntValue("3") == Ok(Number(3))
  {
    SmallNumber(3);
    assert [DigitChar(3)] == "3";
  }

  lemma MinusFive()
    ensures IntValue("-5") == Ok(Number(-5))
  {
    assert DigitChar(5) == '5';
    assert IntToString(-5) == "-5";
    ParseInt32RoundTrip(-5);
  }

  // ---------------------------------------------------------------------
  // Replaying a parse
  // ---------------------------------------------------------------------

  /** `new Options()` for a schema of the sample's shape. */
  lemma {:induction false} ShapedInitial(schema: Schema)
    requires Declared(schema)
    ensures Initial(schema) == InitialRecord
  {
    var r := Initial(schema);
    assert r.values == SampleInitials;
  }

  /** The flags `Parser.Parse` lists as missing, in the order it tests
      them. */
  function SampleMissing(rec: Record): seq<string>
    requires |rec.given| == 8
  {
    (if rec.given[Arg1] then [] else ["--arg1"])
    + (if rec.given[Arg2] then [] else ["--arg2"])
    + (if rec.given[ArgName] then [] else ["--arg-name"])
  }

  /** The required check of a schema of the sample's shape: `--arg1`,
      `--arg2` and `--arg-name` are tested in that order, each listed when
      it was not given. */
  lemma {:induction false} ShapedMissingList(schema: Schema, rec: Record)
    requires RequiredThree(schema) && Fits(schema, rec)
    ensures MissingFlags(schema, rec, 0) == SampleMissing(rec)
  {
    assert !schema[4].required && !schema[5].required && !schema[6].required && !schema[7].required;
    assert MissingFlags(schema, rec, 8) == [];
    assert MissingFlags(schema, rec, 7) == [];
    assert MissingFlags(schema, rec, 6) == [];
    assert MissingFlags(schema, rec, 5) == [];
    assert MissingFlags(schema, rec, 4) == [];
    assert schema[ArgName].required && !schema[Arg3].required;
    assert MissingFlags(schema, rec, 2) == (if rec.given[ArgName] then [] else ["--arg-name"]);
  }

  /** The end of a parse of a schema of the sample's shape whose loop ran
      out of tokens without help: the record, or the missing options. */
  lemma {:induction false} Finish(schema: Schema, args: seq<string>, i: nat, rec: Record)
    requires RequiredThree(schema) && Fits(schema, rec) && i >= |args| && !rec.help
    requires Scan(schema, args, 0, Initial(schema)) == Scan(schema, args, i, rec)
    ensures Parse(schema, args) == if |SampleMissing(rec)| == 0 then Ok(rec) else Err(MissingRequired(SampleMissing(rec)))
  {
    ShapedMissingList(schema, rec);
  }

  /** `defaultArgs` at the front of `args`, as the sample's switch reads it. */
  ghost predicate DefaultsAhead(schema: Schema, args: seq<string>) {
    && |args| >= 6 && |schema| == 8
    && FindFlag(schema, args[0]) == Some(Arg1) && schema[Arg1].kind.Scalar?
    && schema[Arg1].kind.convert(args[1]) == Ok(Str("value1"))
    && FindFlag(schema, args[2]) == Some(Arg2) && schema[Arg2].kind.Scalar?
    && schema[Arg2].kind.convert(args[3]) == Ok(Number(2))
    && FindFlag(schema, args[4]) == Some(ArgName) && schema[ArgName].kind.Scalar?
    && schema[ArgName].kind.convert(args[5]) == Ok(Number(2))
  }

  lemma {:induction false} DefaultsAheadShaped(schema: Schema, args: seq<string>)
    requires Shaped(schema) && |args| >= 6 && args[..6] == DefaultArgs
    ensures DefaultsAhead(schema, args)
  {
    DefaultTokens(args);
    Two();
  }

  /** The record after reading `defaultArgs`: `arg1` "value1", `arg2` and
      `argName` 2, each marked given. */
  function Defaulted(schema: Schema): (r: Record)
    requires |schema| == 8
    ensures Fits(schema, r) && !r.help
    ensures r.given[Arg1] && r.given[Arg2] && r.given[ArgName]
    ensures r.values[Arg1] == Str("value1") && r.values[Arg2] == Number(2) && r.values[ArgName] == Number(2)
    ensures forall k :: 0 <= k < 8 && k != Arg1 && k != Arg2 && k != ArgName ==> r.values[k] == schema[k].initial && !r.given[k]
  {
    Store(Store(Store(Initial(schema), Arg1, Str("value1")), Arg2, Number(2)), ArgName, Number(2))
  }

  /** After `defaultArgs` no required option is missing, whatever else is
      stored for an option that is not required. */
  lemma {:induction false} DefaultedComplete(schema: Schema, k: nat, v: Value)
    requires |schema| == 8 && k < 8 && k != Arg1 && k != Arg2 && k != ArgName
    ensures SampleMissing(Defaulted(schema)) == [] && SampleMissing(Store(Defaulted(schema), k, v)) == []
  {
  }

  /** For the sample itself that record is `AfterDefaults`. */
  lemma SampleDefaulted()
    ensures Defaulted(SampleSchema) == AfterDefaults
  {
    ShapedInitial(SampleSchema);
    DefaultsStored();
  }

  lemma {:induction false} DefaultTokens(args: seq<string>)
    requires |args| >= 6 && args[..6] == DefaultArgs
    ensures args[0] == "--arg1" && args[1] == "value1" && args[2] == "--arg2"
    ensures args[3] == "2" && args[4] == "--arg-name" && args[5] == "2"
  {
    assert args[0] == DefaultArgs[0] && args[1] == DefaultArgs[1] && args[2] == DefaultArgs[2];
    assert args[3] == DefaultArgs[3] && args[4] == DefaultArgs[4] && args[5] == DefaultArgs[5];
  }

  /** Reading `defaultArgs` at the front of the arguments. */
  lemma {:induction false} ReadDefaults(schema: Schema, args: seq<string>)
    requires DefaultsAhead(schema, args)
    ensures Scan(schema, args, 0, Initial(schema)) == Scan(schema, args, 6, Defaulted(schema))
  {
    ReadThreeScalars(schema, args, Initial(schema), Str("value1"), Number(2), Number(2));
  }

  /** A parse that reads `defaultArgs`, then runs from there to a record
      `rec` with nothing required missing, ends with `rec`. */
  lemma {:induction false} ParseAfterDefaults(schema: Schema, args: seq<string>, i: nat, rec: Record)
    requires DefaultsAhead(schema, args) && RequiredThree(schema)
    requires Fits(schema, rec) && i >= |args| && !rec.help && SampleMissing(rec) == []
    requires Scan(schema, args, 6, Defaulted(schema)) == Scan(schema, args, i, rec)
    ensures Parse(schema, args) == Ok(rec)
  {
    ReadDefaults(schema, args);
    Finish(schema, args, i, rec);
  }

  /** Three scalar options in a row, as `defaultArgs` gives them. */
  lemma {:induction false} ReadThreeScalars(schema: Schema, args: seq<string>, r0: Record, a: Value, b: Value, c: Value)
    requires Fits(schema, r0) && !r0.help && |args| >= 6
    requires FindFlag(schema, args[0]) == Some(Arg1) && schema[Arg1].kind.Scalar? && schema[Arg1].kind.convert(args[1]) == Ok(a)
    requires FindFlag(schema, args[2]) == Some(Arg2) && schema[Arg2].kind.Scalar? && schema[Arg2].kind.convert(args[3]) == Ok(b)
    requires FindFlag(schema, args[4]) == Some(ArgName) && schema[ArgName].kind.Scalar? && schema[ArgName].kind.convert(args[5]) == Ok(c)
    ensures Scan(schema, args, 0, r0) == Scan(schema, args, 6, Store(Store(Store(r0, Arg1, a), Arg2, b), ArgName, c))
  {
    var r1 := Store(r0, Arg1, a);
    var r2 := Store(r1, Arg2, b);
    ScanScalar(schema, args, 0, r0, Arg1, a);
    ScanScalar(schema, args, 2, r1, Arg2, b);
    ScanScalar(schema, args, 4, r2, ArgName, c);
  }

  /** The record after the three scalar options of `defaultArgs`. */
  lemma DefaultsStored()
    ensures Store(Store(Store(InitialRecord, Arg1, Str("value1")), Arg2, Number(2)), ArgName, Number(2)) == AfterDefaults
  {
  }

  // ---------------------------------------------------------------------
  // The unit tests
  // ---------------------------------------------------------------------

  /** BasicString, BasicInt, MultipartName, MissingBool, DefaultValue:
      `defaultArgs` alone gives `arg1` "value1", `arg2` and `argName` 2,
      `arg3` false and `argWithDefault` "default". */
  lemma DefaultArgsTest()
    ensures Parse(SampleSchema, DefaultArgs) == Ok(AfterDefaults)
    ensures AfterDefaults.values[Arg1] == Str("value1") && AfterDefaults.values[Arg2] == Number(2)
    ensures AfterDefaults.values[ArgName] == Number(2) && AfterDefaults.values[Arg3] == Flag(false)
    ensures AfterDefaults.values[ArgWithDefault] == Str("default")
  {
    assert Parse(SampleSchema, DefaultArgs) == Ok(Defaulted(SampleSchema)) by {
      assert DefaultArgs[..6] == DefaultArgs;
      SampleShaped();
      DefaultsAheadShaped(SampleSchema, DefaultArgs);
      DefaultsOnly(SampleSchema, DefaultArgs);
    }
    SampleDefaulted();
  }

  lemma {:induction false} DefaultsOnly(schema: Schema, args: seq<string>)
    requires DefaultsAhead(schema, args) && RequiredThree(schema) && |args| == 6
    ensures Parse(schema, args) == Ok(Defaulted(schema))
  {
    DefaultedComplete(schema, Arg3, Flag(false));
    ParseAfterDefaults(schema, args, 6, Defaulted(schema));
  }

  /** BasicBool: `--arg3` after `defaultArgs` sets `arg3`. */
  lemma BasicBoolTest()
    ensures Parse(SampleSchema, DefaultArgs + ["--arg3"]) == Ok(Store(AfterDefaults, Arg3, Flag(true)))
  {
    var args := DefaultArgs + ["--arg3"];
    assert Parse(SampleSchema, args) == Ok(Store(Defaulted(SampleSchema), Arg3, Flag(true))) by {
      assert args[..6] == DefaultArgs && args[6] == "--arg3";
      SampleShaped();
      DefaultsAheadShaped(SampleSchema, args);
      PresenceAfterDefaults(SampleSchema, args);
    }
    SampleDefaulted();
  }

  lemma {:induction false} PresenceAfterDefaults(schema: Schema, args: seq<string>)
    requires DefaultsAhead(schema, args) && RequiredThree(schema) && |args| == 7
    requires FindFlag(schema, args[6]) == Some(Arg3) && schema[Arg3].kind.Presence?
    ensures Parse(schema, args) == Ok(Store(Defaulted(schema), Arg3, Flag(true)))
  {
    var d := Defaulted(schema);
    var r := Store(d, Arg3, Flag(true));
    assert Scan(schema, args, 6, d) == Scan(schema, args, 8, r) by {
      ScanPresence(schema, args, 6, d, Arg3);
    }
    DefaultedComplete(schema, Arg3, Flag(true));
    ParseAfterDefaults(schema, args, 8, r);
  }

  /** ArrayArg: `--arg-array 1 2 3` after `defaultArgs` collects [1, 2, 3]. */
  lemma ArrayArgTest()
    ensures Parse(SampleSchema, DefaultArgs + ["--arg-array", "1", "2", "3"])
            == Ok(Store(AfterDefaults, ArgArray, Items([Number(1), Number(2), Number(3)])))
  {
    var args := DefaultArgs + ["--arg-array", "1", "2", "3"];
    var items := [Number(1), Number(2), Number(3)];
    assert Parse(SampleSchema, args) == Ok(Store(Defaulted(SampleSchema), ArgArray, Items(items))) by {
      assert args[..6] == DefaultArgs && args[6] == "--arg-array";
      SampleShaped();
      DefaultsAheadShaped(SampleSchema, args);
      assert Capture(args, 7, IntValue) == Ok((items, 10)) by {
        assert args[7] == "1" && args[8] == "2" && args[9] == "3";
        CaptureNumbers(args, items);
      }
      ArrayAfterDefaults(SampleSchema, args, items);
    }
    SampleDefaulted();
  }

  /** `defaultArgs`, then `--arg-array` and a capture that runs to the end. */
  lemma {:induction false} ArrayAfterDefaults(schema: Schema, args: seq<string>, items: seq<Value>)
    requires DefaultsAhead(schema, args) && RequiredThree(schema) && |args| == 10
    requires schema[ArgArray].initial == Items([])
    requires FindFlag(schema, args[6]) == Some(ArgArray) && schema[ArgArray].kind.Array?
    requires Capture(args, 7, schema[ArgArray].kind.convert) == Ok((items, 10))
    ensures Parse(schema, args) == Ok(Store(Defaulted(schema), ArgArray, Items(items)))
  {
    var d := Defaulted(schema);
    var r := Store(d, ArgArray, Items(items));
    assert Scan(schema, args, 6, d) == Scan(schema, args, 10, r) by {
      assert Collected(d, ArgArray) == [];
      ScanArray(schema, args, 6, d, ArgArray, items, 10);
      assert Collected(d, ArgArray) + items == items;
    }
    DefaultedComplete(schema, ArgArray, Items(items));
    ParseAfterDefaults(schema, args, 10, r);
  }

  /** The capture of "1", "2", "3" at the end of the array test. */
  lemma {:induction false} CaptureNumbers(args: seq<string>, items: seq<Value>)
    requires |args| == 10 && args[7] == "1" && args[8] == "2" && args[9] == "3"
    requires items == [Number(1), Number(2), Number(3)]
    ensures Capture(args, 7, IntValue) == Ok((items, 10))
  {
    forall m | 7 <= m < 10
      ensures !IsBoundary(args[m]) && IntValue(args[m]) == Ok(items[m - 7])
    {
      NotBoundary(args[m]);
      if m == 7 {
        One();
      } else if m == 8 {
        Two();
      } else {
        Three();
      }
    }
    CaptureToEnd(args, 7, IntValue, items);
  }

  /** A token that does not start with '-' never ends a capture. */
  lemma {:induction false} NotBoundary(t: string)
    requires |t| > 0 && t[0] != '-'
    ensures !IsBoundary(t)
  {
    assert t[..1][0] == t[0];
  }

  /** EnumTest and EnumCaseTest: "value2" and "VALUE2" both select the
      second member. */
  lemma EnumTests()
    ensures Parse(SampleSchema, DefaultArgs + ["--enum-option", "value2"]) == Ok(Store(AfterDefaults, EnumOption, Member(1)))
    ensures Parse(SampleSchema, DefaultArgs + ["--enum-option", "VALUE2"]) == Ok(Store(AfterDefaults, EnumOption, Member(1)))
  {
    LowerValue2();
    EnumCase("value2");
    EnumCase("VALUE2");
  }

  /** Any spelling of "value2" selects the second member. */
  lemma {:induction false} EnumCase(token: string)
    requires Lower(token) == "value2"
    ensures Parse(SampleSchema, DefaultArgs + ["--enum-option", token]) == Ok(Store(AfterDefaults, EnumOption, Member(1)))
  {
    var args := DefaultArgs + ["--enum-option", token];
    assert Parse(SampleSchema, args) == Ok(Store(Defaulted(SampleSchema), EnumOption, Member(1))) by {
      assert args[..6] == DefaultArgs && args[6] == "--enum-option" && args[7] == token;
      SampleShaped();
      DefaultsAheadShaped(SampleSchema, args);
      SecondMember(token);
      EnumAfterDefaults(SampleSchema, args, 1);
    }
    SampleDefaulted();
  }

  lemma {:induction false} EnumAfterDefaults(schema: Schema, args: seq<string>, m: nat)
    requires DefaultsAhead(schema, args) && RequiredThree(schema) && |args| == 8
    requires FindFlag(schema, args[6]) == Some(EnumOption) && schema[EnumOption].kind.Enum?
    requires EnumLookup(schema[EnumOption].kind.names, args[7]) == Some(m)
    ensures Parse(schema, args) == Ok(Store(Defaulted(schema), EnumOption, Member(m)))
  {
    var d := Defaulted(schema);
    var r := Store(d, EnumOption, Member(m));
    assert Scan(schema, args, 6, d) == Scan(schema, args, 8, r) by {
      ScanEnum(schema, args, 6, d, EnumOption, m);
    }
    DefaultedComplete(schema, EnumOption, Member(m));
    ParseAfterDefaults(schema, args, 8, r);
  }

  /** A token that reads "value2" up to case names the second member. */
  lemma {:induction false} SecondMember(token: string)
    requires Lower(token) == "value2"
    ensures EnumLookup(EnumNames, token) == Some(1)
  {
    assert Lower("value1")[5] == '1';
    assert Lower("value2") == "value2";
  }

  lemma LowerValue2()
    ensures Lower("value2") == "value2" && Lower("VALUE2") == "value2"
  {
  }

  // ---------------------------------------------------------------------
  // Errors and help
  // ---------------------------------------------------------------------

  /** UnknownOption: an unknown flag is rejected with its name. */
  lemma UnknownOptionTest()
    ensures Parse(SampleSchema, ["--not-an-option", "2"]) == Err(UnrecognizedOption("--not-an-option"))
    ensures Message(UnrecognizedOption("--not-an-option")) == "'--not-an-option' is not a recognized option"
  {
    var args := ["--not-an-option", "2"];
    SampleUnknowns();
    NotHelpByLength(args[0]);
    ScanUnknown(SampleSchema, args, 0, Initial(SampleSchema));
    UnknownMessage("--not-an-option");
  }

  /** A token whose length is neither 2 nor 6 is no help token. */
  lemma {:induction false} NotHelpByLength(t: string)
    requires |t| != 2 && |t| != 6
    ensures !IsHelpToken(t)
  {
  }

  lemma {:induction false} UnknownMessage(token: string)
    requires token == "--not-an-option"
    ensures Message(UnrecognizedOption(token)) == "'--not-an-option' is not a recognized option"
  {
    assert "'" + token == "'--not-an-option";
    assert "'--not-an-option" + "' is not a recognized option" == "'--not-an-option' is not a recognized option";
  }

  /** MissingOption: without `--arg-name` the parse fails naming it alone;
      MissingOption2: with only `--arg1` both other required options are
      named, in declaration order. */
  lemma MissingOptionTests()
    ensures Parse(SampleSchema, ["--arg1", "value1", "--arg2", "2"]) == Err(MissingRequired(["--arg-name"]))
    ensures Parse(SampleSchema, ["--arg1", "value1"]) == Err(MissingRequired(["--arg2", "--arg-name"]))
  {
    SampleShaped();
    Two();
    var args := ["--arg1", "value1", "--arg2", "2"];
    assert args[0] == "--arg1" && args[1] == "value1" && args[2] == "--arg2" && args[3] == "2";
    TwoScalarsOnly(SampleSchema, args);
    var args2 := ["--arg1", "value1"];
    assert args2[0] == "--arg1" && args2[1] == "value1";
    OneScalarOnly(SampleSchema, args2);
  }

  lemma {:induction false} TwoScalarsOnly(schema: Schema, args: seq<string>)
    requires RequiredThree(schema) && |args| == 4
    requires FindFlag(schema, args[0]) == Some(Arg1) && schema[Arg1].kind.Scalar?
    requires schema[Arg1].kind.convert(args[1]) == Ok(Str("value1"))
    requires FindFlag(schema, args[2]) == Some(Arg2) && schema[Arg2].kind.Scalar?
    requires schema[Arg2].kind.convert(args[3]) == Ok(Number(2))
    ensures Parse(schema, args) == Err(MissingRequired(["--arg-name"]))
  {
    var r0 := Initial(schema);
    var r1 := Store(r0, Arg1, Str("value1"));
    var r2 := Store(r1, Arg2, Number(2));
    ScanScalar(schema, args, 0, r0, Arg1, Str("value1"));
    ScanScalar(schema, args, 2, r1, Arg2, Number(2));
    Finish(schema, args, 4, r2);
    assert SampleMissing(r2) == ["--arg-name"];
  }

  lemma {:induction false} OneScalarOnly(schema: Schema, args: seq<string>)
    requires RequiredThree(schema) && |args| == 2
    requires FindFlag(schema, args[0]) == Some(Arg1) && schema[Arg1].kind.Scalar?
    requires schema[Arg1].kind.convert(args[1]) == Ok(Str("value1"))
    ensures Parse(schema, args) == Err(MissingRequired(["--arg2", "--arg-name"]))
  {
    var r0 := Initial(schema);
    var r1 := Store(r0, Arg1, Str("value1"));
    ScanScalar(schema, args, 0, r0, Arg1, Str("value1"));
    Finish(schema, args, 2, r1);
    assert SampleMissing(r1) == ["--arg2", "--arg-name"];
  }

  /** The messages the two missing-option tests expect. */
  lemma MissingMessages()
    ensures Message(MissingRequired(["--arg-name"])) == "Missing required argument: --arg-name"
    ensures Message(MissingRequired(["--arg2", "--arg-name"])) == "Missing required arguments: --arg2, --arg-name"
  {
    MissingMessageOne(["--arg-name"]);
    MissingMessageTwo(["--arg2", "--arg-name"]);
  }

  lemma {:induction false} MissingMessageOne(flags: seq<string>)
    requires flags == ["--arg-name"]
    ensures Message(MissingRequired(flags)) == "Missing required argument: --arg-name"
  {
    assert Join(", ", flags) == "--arg-name";
    assert MissingHead + "" + ": " + "--arg-name" == "Missing required argument: --arg-name";
  }

  lemma {:induction false} MissingMessageTwo(flags: seq<string>)
    requires flags == ["--arg2", "--arg-name"]
    ensures Message(MissingRequired(flags)) == "Missing required arguments: --arg2, --arg-name"
  {
    assert Join(", ", flags) == "--arg2, --arg-name" by {
      assert Join(", ", flags[1..]) == "--arg-name";
      assert "--arg2" + ", " + "--arg-name" == "--arg2, --arg-name";
    }
    assert MissingHead + "s" + ": " + "--arg2, --arg-name" == "Missing required arguments: --arg2, --arg-name";
  }

  /** HelpCall: each help token alone parses and asks for help, although
      the required options are missing. */
  lemma {:induction false} HelpCallTest(h: string)
    requires h == "-h" || h == "-?" || h == "--help"
    ensures Parse(SampleSchema, [h]) == Ok(Initial(SampleSchema).(help := true))
  {
    HelpSelectsNothing();
    HelpAlone(SampleSchema, h);
  }

  // ---------------------------------------------------------------------
  // Consequences of the cursor handling
  // ---------------------------------------------------------------------

  /** `--arg3` takes no value but still skips the next token, which is
      never read as a flag: here `--arg-optional` is skipped and its value
      is then taken for an unknown option. */
  lemma PresenceSkipsNextToken()
    ensures Parse(SampleSchema, DefaultArgs + ["--arg3", "--arg-optional", "x"]) == Err(UnrecognizedOption("x"))
  {
    var args := DefaultArgs + ["--arg3", "--arg-optional", "x"];
    assert args[..6] == DefaultArgs && args[6] == "--arg3" && args[8] == "x";
    SampleShaped();
    SampleUnknowns();
    DefaultsAheadShaped(SampleSchema, args);
    NotHelpByLength(args[8]);
    PresenceThenUnknown(SampleSchema, args);
  }

  lemma {:induction false} PresenceThenUnknown(schema: Schema, args: seq<string>)
    requires DefaultsAhead(schema, args) && |args| == 9
    requires FindFlag(schema, args[6]) == Some(Arg3) && schema[Arg3].kind.Presence?
    requires FindFlag(schema, args[8]).None? && !IsHelpToken(args[8])
    ensures Parse(schema, args) == Err(UnrecognizedOption(args[8]))
  {
    var d := Defaulted(schema);
    var r := Store(d, Arg3, Flag(true));
    assert Scan(schema, args, 0, Initial(schema)) == Scan(schema, args, 6, d) by {
      ReadDefaults(schema, args);
    }
    assert Scan(schema, args, 6, d) == Scan(schema, args, 8, r) by {
      ScanPresence(schema, args, 6, d, Arg3);
    }
    ScanUnknown(schema, args, 8, r);
  }

  /** An array takes "-5" as a value, stops at "-h" and hands it back to
      the loop, which then asks for help, so the missing required options
      are not reported. */
  lemma ArrayStopsAtHelp()
    ensures Parse(SampleSchema, ["--arg-array", "-5", "-h"])
            == Ok(Store(Initial(SampleSchema), ArgArray, Items([Number(-5)])).(help := true))
  {
    var args := ["--arg-array", "-5", "-h"];
    SampleShaped();
    assert args[0] == "--arg-array" && args[2] == "-h";
    CaptureMinusFive(args);
    ArrayThenHelp(SampleSchema, args, [Number(-5)]);
  }

  /** An array flag first, a capture that stops at the last token, and a
      help token there. */
  lemma {:induction false} ArrayThenHelp(schema: Schema, args: seq<string>, items: seq<Value>)
    requires |schema| == 8 && schema[ArgArray].initial == Items([])
    requires schema[ArgArray].kind.Array? && schema[ArgArray].kind.convert == IntValue
    requires |args| == 3 && FindFlag(schema, args[0]) == Some(ArgArray)
    requires IsHelpToken(args[2]) && FindFlag(schema, args[2]).None?
    requires Capture(args, 1, IntValue) == Ok((items, 2))
    ensures Parse(schema, args) == Ok(Store(Initial(schema), ArgArray, Items(items)).(help := true))
  {
    var r0 := Initial(schema);
    assert r0.values[ArgArray] == Items([]) && !r0.help;
    var r1 := Store(r0, ArgArray, Items(items));
    assert Scan(schema, args, 0, r0) == Scan(schema, args, 2, r1) by {
      ScanArray(schema, args, 0, r0, ArgArray, items, 2);
      assert Collected(r0, ArgArray) + items == items;
    }
    assert Scan(schema, args, 2, r1) == Ok(r1.(help := true)) by {
      HelpEndsScan(schema, args, 2, r1);
    }
  }

  /** "-5" is a value and "-h" a boundary. */
  lemma {:induction false} CaptureMinusFive(args: seq<string>)
    requires args == ["--arg-array", "-5", "-h"]
    ensures Capture(args, 1, IntValue) == Ok(([Number(-5)], 2))
  {
    assert args[1] == "-5" && args[2] == "-h";
    assert !IsBoundary("-5") by {
      assert "-5"[..2] != "--" by {
        assert "-5"[..2][1] == '5';
      }
      assert "-5" != "-h" && "-5" != "-?" by {
        assert "-5"[1] == '5';
      }
    }
    assert IsBoundary("-h") by {
      assert "-h"[..1] == "-";
    }
    MinusFive();
    assert Capture(args, 2, IntValue) == Ok(([], 2));
    assert [Number(-5)] + [] == [Number(-5)];
    assert Capture(args, 1, IntValue) == Ok(([Number(-5)] + [], 2));
  }

  /** A scalar flag in last position reads past the end of the arguments. */
  lemma TrailingScalarTest()
    ensures Parse(SampleSchema, ["--arg1"]) == Err(IndexOutOfRange)
  {
    var args := ["--arg1"];
    SampleShaped();
    assert FindFlag(SampleSchema, args[0]) == Some(Arg1);
    assert Step(SampleSchema, args, 0, Initial(SampleSchema)) == Err(IndexOutOfRange);
  }
}

=== FILE: symbols.dfy ===
/** The small slice of Roslyn's symbol model the generator looks at. A type
    is described by its display string, its metadata `Name`, whether it is a
    value type, its nullable annotation, its containing namespace, the
    methods and constructors it declares, and (for arrays and generic
    lists) its element type. */
module Symbols {
  import opened Wrappers

  /** Roslyn's `NullableAnnotation`: `None`, `NotAnnotated` or `Annotated`. */
  datatype NullableAnnotation = NoAnnotation | NotAnnotated | Annotated

  /** A parameter of a method or constructor: its type's display string and
      whether it is optional. */
  datatype MethodParameter = MethodParameter(typeDisplay: string, isOptional: bool)

  /** A method or constructor (named ".ctor") declared by a type. Each
      attribute is represented by the display string of its class, or
      `None` when the class is unknown. */
  datatype MethodSymbol = MethodSymbol(
    name: string,
    parameters: seq<MethodParameter>,
    returnType: string,
    isStatic: bool,
    attributes: seq<Option<string>>)

  datatype TypeSymbol = TypeSymbol(
    display: string,
    name: string,
    isValueType: bool,
    annotation: NullableAnnotation,
    containingNamespace: string,
    members: seq<MethodSymbol>,
    elementType: Option<TypeSymbol>)

  /** A parameter of the user's `Main`, as the generator receives it. An
      explicit default may itself be `null`, which is `None` here. */
  datatype ParameterSymbol = ParameterSymbol(
    name: string,
    declaredType: TypeSymbol,
    hasExplicitDefaultValue: bool,
    explicitDefaultValue: Option<string>)
}

=== FILE: text.dfy ===
/** String primitives the generator relies on: ASCII case mapping, ordinal
    prefix/suffix tests, ordinal `IndexOf`, `Trim`, `string.Join` and
    `PadRight`. Culture-sensitive behaviour of the .NET library is not
    modelled: case mapping covers ASCII letters only, white space is the
    ASCII white-space set and all comparisons are ordinal, whereas .NET's
    default `StartsWith`, `EndsWith` and `IndexOf` on strings compare by
    culture and skip ignorable code points such as U+00AD. */
module Text {
  import opened Wrappers

  predicate IsUpper(c: char) {
    'A' <= c <= 'Z'
  }

  predicate IsLower(c: char) {
    'a' <= c <= 'z'
  }

  /** `char.ToLower` restricted to ASCII. */
  function LowerChar(c: char): (r: char)
    ensures !IsUpper(r)
    ensures !IsUpper(c) ==> r == c
    ensures IsUpper(c) ==> IsLower(r)
    ensures r == '-' <==> c == '-'
  {
    if IsUpper(c) then (c as int + 32) as char else c
  }

  /** `string.ToLower` restricted to ASCII. */
  function Lower(s: string): (r: string)
    ensures |r| == |s|
    ensures forall i :: 0 <= i < |s| ==> r[i] == LowerChar(s[i])
  {
    seq(|s|, i requires 0 <= i < |s| => LowerChar(s[i]))
  }

  predicate NoUpper(s: string) {
    forall i :: 0 <= i < |s| ==> !IsUpper(s[i])
  }

  lemma {:induction false} LowerConcat(a: string, b: string)
    ensures Lower(a + b) == Lower(a) + Lower(b)
  {
    assert forall i :: 0 <= i < |a + b| ==> Lower(a + b)[i] == (Lower(a) + Lower(b))[i];
  }

  lemma {:induction false} LowerNoUpper(s: string)
    requires NoUpper(s)
    ensures Lower(s) == s
  {
  }

  /** Ordinal `StartsWith`. */
  predicate StartsWith(s: string, prefix: string) {
    |prefix| <= |s| && s[..|prefix|] == prefix
  }

  /** Ordinal `EndsWith`. */
  predicate EndsWith(s: string, suffix: string) {
    |suffix| <= |s| && s[|s| - |suffix|..] == suffix
  }

  predicate OccursAt(s: string, pattern: string, k: int) {
    0 <= k && k + |pattern| <= |s| && s[k..k + |pattern|] == pattern
  }

  /** Ordinal `s.IndexOf(pattern, from)`: the first occurrence at or after `from`. */
  function IndexOfFrom(s: string, pattern: string, from: nat): (r: Option<nat>)
    decreases |s| - from
    ensures r.Some? ==> from <= r.value && OccursAt(s, pattern, r.value)
    ensures r.Some? ==> forall k :: from <= k < r.value ==> !OccursAt(s, pattern, k)
    ensures r.None? ==> forall k :: from <= k ==> !OccursAt(s, pattern, k)
  {
    if from + |pattern| > |s| then None
    else if s[from..from + |pattern|] == pattern then Some(from)
    else IndexOfFrom(s, pattern, from + 1)
  }

  /** An occurrence starts with the pattern's first character. */
  lemma {:induction false} OccursAtHead(s: string, pattern: string, k: int)
    requires OccursAt(s, pattern, k) && |pattern| > 0
    ensures s[k] == pattern[0]
  {
    assert s[k..k + |pattern|][0] == s[k];
  }

  /** No occurrence starts at a character other than the pattern's first. */
  lemma {:induction false} NotOccursAtHead(s: string, pattern: string, k: int)
    requires 0 <= k < |s| && |pattern| > 0 && s[k] != pattern[0]
    ensures !OccursAt(s, pattern, k)
  {
    if OccursAt(s, pattern, k) {
      OccursAtHead(s, pattern, k);
    }
  }

  /** An occurrence with none before it, from `from` on, is what `IndexOfFrom` finds. */
  lemma {:induction false} IndexOfFromFirst(s: string, pattern: string, from: nat, at: nat)
    requires from <= at && OccursAt(s, pattern, at)
    requires forall k :: from <= k < at ==> !OccursAt(s, pattern, k)
    ensures IndexOfFrom(s, pattern, from) == Some(at)
  {
  }

  /** `s.IndexOf(c)`: the first position holding `c`. */
  function IndexOfChar(s: string, c: char): (r: Option<nat>)
    ensures r.Some? ==> r.value < |s| && s[r.value] == c && c !in s[..r.value]
    ensures r.None? <==> c !in s
  {
    var r := IndexOfFrom(s, [c], 0);
    SingleOccurs(s, c);
    if r.Some? then
      assert forall k :: 0 <= k < r.value ==> s[..r.value][k] == s[k];
      r
    else
      r
  }

  /** A one-character pattern occurs exactly where that character stands. */
  lemma {:induction false} SingleOccurs(s: string, c: char)
    ensures forall k :: 0 <= k < |s| ==> (OccursAt(s, [c], k) <==> s[k] == c)
  {
    forall k | 0 <= k < |s|
      ensures OccursAt(s, [c], k) <==> s[k] == c
    {
      assert s[k..k + 1] == [s[k]];
    }
  }

  /** The ASCII part of `char.IsWhiteSpace`: space, tab, line feed,
      vertical tab, form feed and carriage return. */
  predicate IsWhiteSpace(c: char) {
    c == ' ' || (9 <= c as int <= 13)
  }

  /** No white space at either end. */
  predicate Trimmed(s: string) {
    s == [] || (!IsWhiteSpace(s[0]) && !IsWhiteSpace(s[|s| - 1]))
  }

  function TrimStart(s: string): (r: string)
    ensures |r| <= |s| && r == s[|s| - |r|..]
    ensures forall i :: 0 <= i < |s| - |r| ==> IsWhiteSpace(s[i])
    ensures r == [] || !IsWhiteSpace(r[0])
  {
    if |s| > 0 && IsWhiteSpace(s[0]) then TrimStart(s[1..]) else s
  }

  function TrimEnd(s: string): (r: string)
    ensures |r| <= |s| && r == s[..|r|]
    ensures forall i :: |r| <= i < |s| ==> IsWhiteSpace(s[i])
    ensures r == [] || !IsWhiteSpace(r[|r| - 1])
  {
    if |s| > 0 && IsWhiteSpace(s[|s| - 1]) then TrimEnd(s[..|s| - 1]) else s
  }

  /** Number of white-space characters `TrimStart` drops. */
  function LeadingWhiteSpace(s: string): (a: nat)
    ensures a <= |s|
  {
    |s| - |TrimStart(s)|
  }

  /** `string.Trim`: the slice left after dropping white space at both ends. */
  function Trim(s: string): (r: string)
    ensures LeadingWhiteSpace(s) + |r| <= |s|
    ensures r == s[LeadingWhiteSpace(s)..LeadingWhiteSpace(s) + |r|]
    ensures forall i :: 0 <= i < LeadingWhiteSpace(s) ==> IsWhiteSpace(s[i])
    ensures forall i :: LeadingWhiteSpace(s) + |r| <= i < |s| ==> IsWhiteSpace(s[i])
    ensures Trimmed(r)
  {
    var t := TrimStart(s);
    var r := TrimEnd(t);
    var a := |s| - |t|;
    assert r == s[a..a + |r|];
    r
  }

  /** Text without white space at either end is its own trim. */
  lemma {:induction false} TrimmedUnchanged(s: string)
    requires |s| > 0 && !IsWhiteSpace(s[0]) && !IsWhiteSpace(s[|s| - 1])
    ensures Trim(s) == s
  {
    assert TrimStart(s) == s;
    assert TrimEnd(s) == s;
  }

  /** `string.Join(separator, parts)`. */
  function Join(separator: string, parts: seq<string>): string
  {
    if |parts| == 0 then ""
    else if |parts| == 1 then parts[0]
    else parts[0] + separator + Join(separator, parts[1..])
  }

  /** Joining two non-empty lists is joining each and putting one separator
      between them. */
  lemma {:induction false} JoinConcat(separator: string, a: seq<string>, b: seq<string>)
    requires |a| > 0 && |b| > 0
    ensures Join(separator, a + b) == Join(separator, a) + separator + Join(separator, b)
  {
    if |a| == 1 {
      assert (a + b)[1..] == b;
    } else {
      assert (a + b)[1..] == a[1..] + b;
      JoinConcat(separator, a[1..], b);
    }
  }

  function Spaces(n: nat): (r: string)
    ensures |r| == n && forall i :: 0 <= i < n ==> r[i] == ' '
  {
    seq(n, _ => ' ')
  }

  /** `s.PadRight(width)`: space-fill on the right up to `width`, never truncating. */
  function PadRight(s: string, width: int): (r: string)
    ensures |r| == if width > |s| then width else |s|
    ensures r[..|s|] == s
    ensures forall i :: |s| <= i < |r| ==> r[i] == ' '
  {
    if width > |s| then s + Spaces(width - |s|) else s
  }

  /** Every occurrence of `c` deleted from `s`. */
  function Remove(s: string, c: char): (r: string)
    ensures c !in r
    ensures |r| <= |s|
  {
    if |s| == 0 then "" else (if s[0] == c then "" else [s[0]]) + Remove(s[1..], c)
  }

  lemma {:induction false} RemoveConcat(a: string, b: string, c: char)
    ensures Remove(a + b, c) == Remove(a, c) + Remove(b, c)
  {
    if |a| == 0 {
      assert a + b == b;
    } else {
      assert (a + b)[0] == a[0];
      assert (a + b)[1..] == a[1..] + b;
      RemoveConcat(a[1..], b, c);
      calc {
        Remove(a + b, c);
        (if a[0] == c then "" else [a[0]]) + Remove(a[1..] + b, c);
        (if a[0] == c then "" else [a[0]]) + (Remove(a[1..], c) + Remove(b, c));
      }
    }
  }

  lemma {:induction false} RemoveAbsent(s: string, c: char)
    requires c !in s
    ensures Remove(s, c) == s
  {
    if |s| > 0 {
      assert c !in s[1..];
      RemoveAbsent(s[1..], c);
    }
  }

  function DigitChar(d: nat): char
    requires d < 10
  {
    "0123456789"[d]
  }

  /** Decimal text of a natural number, as `int.ToString` prints it. */
  function NatToString(n: nat): (r: string)
    ensures |r| > 0
    decreases n
  {
    if n < 10 then [DigitChar(n)] else NatToString(n / 10) + [DigitChar(n % 10)]
  }

  /** Decimal text of an integer with a leading '-' for negative values. */
  function IntToString(n: int): (r: string)
    ensures |r| > 0
    ensures (n < 0) <==> r[0] == '-'
  {
    if n < 0 then "-" + NatToString(-n)
    else
      var d := NatToString(n);
      assert d[0] != '-' by { NatToStringDigits(n); }
      d
  }

  lemma {:induction false} NatToStringDigits(n: nat)
    ensures forall i :: 0 <= i < |NatToString(n)| ==> '0' <= NatToString(n)[i] <= '9'
    decreases n
  {
    if n >= 10 {
      NatToStringDigits(n / 10);
    }
  }
}

=== FILE: wrappers.dfy ===
/** Failure-carrying datatypes shared by every module of the model.
    `Option` stands for a C# reference that may be null; `Result` stands
    for a computation that may throw, carrying what it throws as `error`. */
module Wrappers {

  datatype Option<+T> = None | Some(value: T) {

    predicate IsFailure() {
      None?
    }

    function PropagateFailure<U>(): Option<U>
      requires None?
    {
      None
    }

    function Extract(): T
      requires Some?
    {
      value
    }
  }

  datatype Result<+T, +E> = Ok(value: T) | Err(error: E) {

    predicate IsFailure() {
      Err?
    }

    function PropagateFailure<U>(): Result<U, E>
      requires Err?
    {
      Err(error)
    }

    function Extract(): T
      requires Ok?
    {
      value
    }
  }
}
